=== FILE: README.md ===
# my-tax-tracker, modelled in Dafny

my-tax-tracker lets a user upload photographed receipts, have AWS Textract
read their fields, review and correct those fields, and add up the year's
claims. This project models the decision and bookkeeping logic of both
halves of the system and proves properties of it.

The frontend is a React single-page application. The model covers:

- the request layer that attaches the stored access token and refreshes it
  (`AuthClient`);
- the upload with its one-refresh retry and integer progress percentage
  (`UploadProgress`);
- the list of uploads with its progress, failure and completion animation
  (`UploadList`);
- the paginated receipt table (`ReceiptTable`);
- the extracted-field editor (`FieldEditor`);
- the session probe, the route guard and the route table (`Session`).

The backend is a FastAPI service. The model covers:

- the receipt routes: upload naming, listing prefix and order, total claims,
  update expressions, image content type and deletion (`ReceiptsApi`);
- Textract field flattening and unique file names (`Utils`);
- the prioritised total search (`Helpers`);
- CORS origins, the JWKS cache, token verification, the token blacklist and
  the current-user extraction (`Config`);
- the authorize, logout, refresh and `/me` routes (`AuthRoutes`).

Shared modules:

- `Wrappers`: Option and Result.
- `Text`: Python and JavaScript string built-ins.
- `PyDict`: an insertion-ordered Python dict.
- `ReceiptStore`: the DynamoDB receipt table, as a sequence of items keyed
  by (username, receipt id).

Outside services are parameters, so every property holds whatever they
answer:

- `fetch`, the axios upload and the server's answers;
- Textract (`analyze`), S3 (`s3Get`, `s3Delete`; the upload's one write is returned as `s3Puts`);
- the Cognito token exchange, the JWKS download and the jose library's
  header, decode and unverified-claims functions;
- `float()` as `parse`;
- the clock readings and the random id suffix.

Objects whose state the source changes in place are classes:

- the token store (`localStorage`);
- the upload panel and the receipt table state (React state);
- the review page;
- the auth provider;
- the receipt table and the blacklist table (DynamoDB);
- the JWKS cache (a module global).

Their methods state the whole new state. Pure logic is functions with
lemmas beside them.

Where the system's design description and the code disagree, the model
follows the code:

- The upload percentage is `Math.round`, not a floor capped below 100
  (`uploadProgress.js:21`).
- Concurrent refreshes are not coalesced: each rejected upload makes its
  own refresh call (`uploadProgress.js:31`).

Frontend source paths below are under
`frontend-app/frontend/my-tax-tracker-fe/src/`. Backend paths are under
`backend-app/backend/src/`.

## Model

| member | source | states |
|---|---|---|
| Text.Strip | backend-app/backend/src/config.py:31 | `str.strip`/`trim`: the result is the contiguous piece of the input that starts after the leading whitespace, and everything after it is whitespace. It neither starts nor ends with whitespace, and it is empty exactly when the input is all whitespace. |
| Text.StripIdempotent | backend-app/backend/src/config.py:31 | Stripping twice is stripping once. |
| Text.StripMembers | backend-app/backend/src/config.py:31 | Every character of a stripped string occurs in the input. |
| Text.Upper | backend-app/backend/src/routers/receipts.py:127 | `str.upper`: every character is upper-cased position by position, on ASCII. |
| Text.Lower | backend-app/backend/src/routers/receipts.py:282 | `str.lower`: every character is lower-cased position by position, on ASCII. |
| Text.LowerIdempotent | backend-app/backend/src/routers/receipts.py:282 | Lower-casing twice is lower-casing once. |
| Text.DropChar | backend-app/backend/src/helpers.py:17 | `replace(c, "")` on one character: the result holds exactly the input's characters other than `c`. |
| Text.DropCharAppend | backend-app/backend/src/helpers.py:17 | Dropping works piece by piece, so the kept characters stay in their order. A one-character input is dropped when it is `c` and kept otherwise. |
| Text.DropCharCounts | backend-app/backend/src/helpers.py:17 | Every character other than `c` is kept as many times as it occurs, and `c` not at all. |
| Text.RemoveAll | backend-app/backend/src/helpers.py:17 | `replace(pat, "")`: the result is never longer than the input. Which text it deletes is stated by `RemoveAllAbsent` and `RemoveAllFirst`. |
| Text.RemoveAllAbsent | backend-app/backend/src/helpers.py:17 | Without an occurrence of the pattern nothing is deleted. |
| Text.RemoveAllFirst | backend-app/backend/src/helpers.py:17 | The leftmost occurrence is deleted, the text before it is kept, and the scan resumes after it, so occurrences never overlap. |
| Text.RemoveAllOneChar | backend-app/backend/src/helpers.py:17 | Removing a one-character pattern is dropping that character. |
| Text.Decimal | backend-app/backend/src/utils.py:47 | `str(n)`: decimal digits with no leading zero. |
| Text.DecimalRoundTrip | backend-app/backend/src/utils.py:47 | The digits read back as the number. |
| Text.DecimalInjective | backend-app/backend/src/utils.py:47 | Different counters print differently. |
| Text.PadInt | backend-app/backend/src/routers/receipts.py:71 | `f"{i:0Nd}"`: the decimal digits zero-padded to the width. A negative number keeps its sign in front. |
| Text.Split | backend-app/backend/src/config.py:31 | `str.split(sep)`: at least one piece, no piece holds the separator, and the pieces joined by it give back the input. |
| Text.SplitJoin | backend-app/backend/src/config.py:31 | Splitting a join of separator-free pieces gives the pieces back. `Text.Join` is `sep.join(parts)`, also used for the update expression (receipts.py:227). |
| Text.IndexOf | frontend-app/frontend/my-tax-tracker-fe/src/pages/ReviewReceipt.jsx:88 | `indexOf`: the first position holding the value, or -1 exactly when it is absent. |
| PyDict.Get | backend-app/backend/src/utils.py:15 | Dict lookup: None exactly for an absent key; otherwise a stored pair. |
| PyDict.Put | backend-app/backend/src/utils.py:15 | `d[k] = v`: a new key is appended to the key order, and an existing key keeps its place. |
| PyDict.PutGet | backend-app/backend/src/utils.py:15 | After `d[k] = v`, `k` reads `v` and every other key reads as before. |
| PyDict.PutKeepsDistinct | backend-app/backend/src/utils.py:15 | Assignment keeps the keys distinct. |
| AuthClient.TokenStore.constructor | frontend-app/frontend/my-tax-tracker-fe/src/customprocess/auth.js:45 | The store starts with the given entries. |
| AuthClient.TokenStore.GetItem | frontend-app/frontend/my-tax-tracker-fe/src/customprocess/auth.js:45 | `localStorage.getItem`: the stored value, or null exactly when the key is absent. |
| AuthClient.TokenStore.SetItem | frontend-app/frontend/my-tax-tracker-fe/src/customprocess/auth.js:31 | `setItem` stores the value under the key and changes nothing else. |
| AuthClient.TokenStore.RemoveItem | frontend-app/frontend/my-tax-tracker-fe/src/customprocess/auth.js:22 | `removeItem` drops the key and changes nothing else. |
| AuthClient.RefreshRequest | frontend-app/frontend/my-tax-tracker-fe/src/customprocess/auth.js:12-15 | The refresh call is a POST to `/auth/refresh` with credentials included. |
| AuthClient.RefreshOutcome | frontend-app/frontend/my-tax-tracker-fe/src/customprocess/auth.js:17-40 | The refresh succeeds exactly on a 2xx answer whose JSON has a truthy `access_token`, and yields that token. A non-2xx answer fails with its status. |
| AuthClient.RefreshToken | frontend-app/frontend/my-tax-tracker-fe/src/customprocess/auth.js:10-41 | On success the store holds the new token. A rejected answer or a missing token removes `access_token`. A failed request leaves the store alone. |
| AuthClient.AuthenticatedOptions | frontend-app/frontend/my-tax-tracker-fe/src/customprocess/auth.js:45-57 | Credentials are always `include` and the caller's other options pass through. A truthy stored token sets `Authorization: Bearer <token>` over the caller's. Without one, the caller's headers are kept unchanged. |
| AuthClient.AuthorizationHeaderRule | frontend-app/frontend/my-tax-tracker-fe/src/customprocess/auth.js:45-51 | The Authorization header holds the bearer token exactly when a token is stored; every other header is the caller's. |
| AuthClient.AuthenticatedFetch | frontend-app/frontend/my-tax-tracker-fe/src/customprocess/auth.js:44-73 | Exactly one request is sent, and the answer is returned as is, a 401 included. |
| AuthClient.FetchWithAuth | frontend-app/frontend/my-tax-tracker-fe/src/customprocess/auth.js:75-77 | Sends the same single request and returns the same answer as `authenticatedFetch`. |
| AuthClient.PostOptions | frontend-app/frontend/my-tax-tracker-fe/src/customprocess/auth.js:79-91 | Always POST. A FormData body passes through untouched with the caller's headers. Any other body is JSON-encoded and gets `Content-Type: application/json`. |
| AuthClient.PostWithAuth | frontend-app/frontend/my-tax-tracker-fe/src/customprocess/auth.js:79-94 | One authenticated request carrying the POST options. |
| AuthClient.PostRequestShape | frontend-app/frontend/my-tax-tracker-fe/src/customprocess/auth.js:79-94 | The request actually sent is a credentialed POST. Its Content-Type is JSON exactly for non-FormData bodies. |
| UploadProgress.PercentCompleted | frontend-app/frontend/my-tax-tracker-fe/src/customprocess/uploadProgress.js:21 | `Math.round(loaded * 100 / total)` as exact integer bounds. It is absent (NaN or Infinity) exactly when the total is 0. |
| UploadProgress.PercentInRange | frontend-app/frontend/my-tax-tracker-fe/src/customprocess/uploadProgress.js:21 | For `0 <= loaded <= total` and `total > 0` the percentage lies in [0, 100], and is 100 when everything is loaded. |
| UploadProgress.UploadRequestFor | frontend-app/frontend/my-tax-tracker-fe/src/customprocess/uploadProgress.js:7-19 | The form holds one `file` field. Each send is multipart, with credentials and `Bearer <token>`; a missing token gives `Bearer null`. |
| UploadProgress.UploadFile | frontend-app/frontend/my-tax-tracker-fe/src/customprocess/uploadProgress.js:6-42 | One or two sends and at most one refresh. Without a 401 the store is untouched. After a 401 the token is refreshed, stored and used for one resend. A failed refresh or resend removes the stored token and surfaces the error. |
| UploadList.FormatFileSize | frontend-app/frontend/my-tax-tracker-fe/src/pages/ReceiptManagement.jsx:8-12 | Bytes below 1024, kilobytes below 1024², megabytes otherwise. |
| UploadList.MakeIdInjective | frontend-app/frontend/my-tax-tracker-fe/src/pages/ReceiptManagement.jsx:44 | Equal ids come from the same name, time and suffix, even for names containing `_`. `UploadList.MakeId` builds `<name>_<time>_<suffix>`. |
| UploadList.NewEntry | frontend-app/frontend/my-tax-tracker-fe/src/pages/ReceiptManagement.jsx:46-57 | A new row is at 0%, uploading, with its id, name, size label and image flag. |
| UploadList.NewEntries | frontend-app/frontend/my-tax-tracker-fe/src/pages/ReceiptManagement.jsx:41-57 | The k-th appended row is the new-file row for the k-th file and the k-th id. |
| UploadList.MakeIds | frontend-app/frontend/my-tax-tracker-fe/src/pages/ReceiptManagement.jsx:42-44 | One id per picked file. |
| UploadList.MakeIdsAt | frontend-app/frontend/my-tax-tracker-fe/src/pages/ReceiptManagement.jsx:42-44 | The k-th id is built from the k-th file's name, clock reading and suffix. |
| UploadList.MakeIdsStep | frontend-app/frontend/my-tax-tracker-fe/src/pages/ReceiptManagement.jsx:42-44 | Handling one more file appends exactly its id. |
| UploadList.NewEntriesStep | frontend-app/frontend/my-tax-tracker-fe/src/pages/ReceiptManagement.jsx:46-57 | Handling one more file appends exactly its row. |
| UploadList.WithProgress | frontend-app/frontend/my-tax-tracker-fe/src/pages/ReceiptManagement.jsx:65-71 | Rows with the id show the percentage and are uploading; every other row is unchanged. |
| UploadList.WithFailure | frontend-app/frontend/my-tax-tracker-fe/src/pages/ReceiptManagement.jsx:88-94 | Rows with the id are failed with their progress kept; every other row is unchanged. |
| UploadList.ProgressTouchesOneEntry | frontend-app/frontend/my-tax-tracker-fe/src/pages/ReceiptManagement.jsx:65-71 | With distinct ids, a progress report changes exactly the row with its id. |
| UploadList.CallbacksCommute | frontend-app/frontend/my-tax-tracker-fe/src/pages/ReceiptManagement.jsx:62-94 | A progress report for one upload and the failure of another give the same list in either order. |
| UploadList.ApplyFrame | frontend-app/frontend/my-tax-tracker-fe/src/pages/ReceiptManagement.jsx:26-32 | One frame: rows with the file's NAME show the value and turn completed exactly at 100. Other rows are unchanged. |
| UploadList.AfterFrames | frontend-app/frontend/my-tax-tracker-fe/src/pages/ReceiptManagement.jsx:20-38 | Frames keep the number of rows. |
| UploadList.FramesSnoc | frontend-app/frontend/my-tax-tracker-fe/src/pages/ReceiptManagement.jsx:20-38 | One more frame applies one more `ApplyFrame`. |
| UploadList.AfterFramesEffect | frontend-app/frontend/my-tax-tracker-fe/src/pages/ReceiptManagement.jsx:20-38 | After an animation, rows with another name are untouched. Rows with the name show the last frame's value, and are completed exactly when they already were or some frame showed 100. |
| UploadList.FrameProgress | frontend-app/frontend/my-tax-tracker-fe/src/pages/ReceiptManagement.jsx:25 | `min(from + (to - from) * elapsed / duration, to)` never exceeds the target. |
| UploadList.FrameProgressRange | frontend-app/frontend/my-tax-tracker-fe/src/pages/ReceiptManagement.jsx:25 | At or after the duration a frame shows the target exactly; before it, a value in [from, to). |
| UploadList.QuotientRange | frontend-app/frontend/my-tax-tracker-fe/src/pages/ReceiptManagement.jsx:25 | The elapsed fraction is never negative, and is below one exactly before the duration ends. |
| UploadList.AnimationDuration | frontend-app/frontend/my-tax-tracker-fe/src/pages/ReceiptManagement.jsx:76-78 | `max(1200 - elapsed, 300)`: at least both arguments and equal to one of them. |
| UploadList.UploadPanel.constructor | frontend-app/frontend/my-tax-tracker-fe/src/pages/ReceiptManagement.jsx:15-17 | No rows and a refresh counter of 0. |
| UploadList.UploadPanel.AddFile | frontend-app/frontend/my-tax-tracker-fe/src/pages/ReceiptManagement.jsx:44-57 | Appends exactly the new file's row, leaving earlier rows and the counter alone. |
| UploadList.UploadPanel.AddFiles | frontend-app/frontend/my-tax-tracker-fe/src/pages/ReceiptManagement.jsx:41-57 | The ids are `MakeIds` of the picked files, and the rows are the old rows followed by one new row per file, in order. The counter is unchanged. |
| UploadList.UploadPanel.ReportProgress | frontend-app/frontend/my-tax-tracker-fe/src/pages/ReceiptManagement.jsx:62-73 | A percentage below 100 updates the id's row and becomes the last progress. 100, or NaN, changes nothing. |
| UploadList.UploadPanel.MarkFailed | frontend-app/frontend/my-tax-tracker-fe/src/pages/ReceiptManagement.jsx:87-94 | The id's row is marked failed; the counter is unchanged. |
| UploadList.UploadPanel.AnimateProgress | frontend-app/frontend/my-tax-tracker-fe/src/pages/ReceiptManagement.jsx:20-38 | Each frame shows `FrameProgress` at its clock reading. Frames continue while below the target. An animation that ends on its own ends at the target. The rows are those after the frames shown. |
| UploadList.UploadPanel.CompleteUpload | frontend-app/frontend/my-tax-tracker-fe/src/pages/ReceiptManagement.jsx:74-80 | The refresh counter goes up by exactly one, and the rows animate from the last progress to 100 over `AnimationDuration`. |
| UploadList.FinishedAnimationCompletes | frontend-app/frontend/my-tax-tracker-fe/src/pages/ReceiptManagement.jsx:28-29 | A finished animation leaves every row with the file's name at 100% and completed. That includes an earlier failed upload of the same name. |
| ReceiptTable.SpaceBeforeCapitals | frontend-app/frontend/my-tax-tracker-fe/src/components/ReceiptReview.jsx:13 | Removing spaces gives what removing spaces from the input gives, and every capital follows a space. A single capital becomes a space and the capital, and any other single character stays. |
| ReceiptTable.SpaceBeforeCapitalsAppend | frontend-app/frontend/my-tax-tracker-fe/src/components/ReceiptReview.jsx:13 | The replacement works character by character. With the one-character case, exactly one space goes before each capital and nothing else changes. |
| ReceiptTable.CapitalizeFirst | frontend-app/frontend/my-tax-tracker-fe/src/components/ReceiptReview.jsx:14 | Only the first character changes: it is upper-cased unless it ends a line. |
| ReceiptTable.CamelToTitle | frontend-app/frontend/my-tax-tracker-fe/src/components/ReceiptReview.jsx:10-16 | `''` for a missing or empty name. Otherwise the result is trimmed. |
| ReceiptTable.CamelToTitleShape | frontend-app/frontend/my-tax-tracker-fe/src/components/ReceiptReview.jsx:10-16 | A camel-case name comes out with its first letter capitalised. Every other capital is preceded by a space. |
| ReceiptTable.SizeColumn | frontend-app/frontend/my-tax-tracker-fe/src/components/ReceiptReview.jsx:18-23 | `'-'` exactly for a missing (or NaN) size or 0. Otherwise the B/KB/MB choice. |
| ReceiptTable.Range | frontend-app/frontend/my-tax-tracker-fe/src/components/ReceiptReview.jsx:33-35 | The integers from first to last, ascending. |
| ReceiptTable.PageWindowShape | frontend-app/frontend/my-tax-tracker-fe/src/components/ReceiptReview.jsx:31-49 | With at most five pages, the window is every page. With more, it is five consecutive pages inside [1, totalPages] that include any valid current page. `ReceiptTable.PageWindow` is that window. |
| ReceiptTable.GetPageNumbers | frontend-app/frontend/my-tax-tracker-fe/src/components/ReceiptReview.jsx:27-52 | The loops push exactly the window's pages, ascending. |
| ReceiptTable.Pagination | frontend-app/frontend/my-tax-tracker-fe/src/components/ReceiptReview.jsx:26-94 | Nothing is rendered exactly when there is at most one page. Otherwise the window is shown, with Previous disabled on page 1 and Next on the last page. |
| ReceiptTable.TotalPages | frontend-app/frontend/my-tax-tracker-fe/src/components/ReceiptReview.jsx:130 | `Math.ceil(n / 5)`: the least t with `n <= 5t`. |
| ReceiptTable.SliceIndex | frontend-app/frontend/my-tax-tracker-fe/src/components/ReceiptReview.jsx:133 | JavaScript's slice index: a non-negative index is clamped to the length. |
| ReceiptTable.JsSlice | frontend-app/frontend/my-tax-tracker-fe/src/components/ReceiptReview.jsx:133 | `slice(start, end)` is the sub-sequence between the normalised indices, or empty. |
| ReceiptTable.VisibleRowsOfPage | frontend-app/frontend/my-tax-tracker-fe/src/components/ReceiptReview.jsx:130-133 | Page p shows rows `[(p-1)*5, p*5)` cut at the end. A valid page shows one to five rows. `ReceiptTable.VisibleRows` is that slice (ReceiptReview.jsx:130-133). |
| ReceiptTable.PagesUpToPrefix | frontend-app/frontend/my-tax-tracker-fe/src/components/ReceiptReview.jsx:130-133 | The first k pages are the first 5k rows. |
| ReceiptTable.PagesCoverRows | frontend-app/frontend/my-tax-tracker-fe/src/components/ReceiptReview.jsx:130-133 | Pages 1..totalPages, read in order, are exactly the list. |
| ReceiptTable.WithoutReceipt | frontend-app/frontend/my-tax-tracker-fe/src/components/ReceiptReview.jsx:174 | The filter keeps exactly the rows with another id. A single row is kept exactly when its id differs. |
| ReceiptTable.WithoutReceiptAppend | frontend-app/frontend/my-tax-tracker-fe/src/components/ReceiptReview.jsx:174 | The filter works row by row, so the kept rows stay in their order, each as often as before. |
| ReceiptTable.WithoutListedReceipt | frontend-app/frontend/my-tax-tracker-fe/src/components/ReceiptReview.jsx:174 | With distinct ids, deleting a listed id removes exactly one row. |
| ReceiptTable.WithoutAbsentReceipt | frontend-app/frontend/my-tax-tracker-fe/src/components/ReceiptReview.jsx:174 | Deleting an absent id changes nothing. |
| ReceiptTable.PageAfterDelete | frontend-app/frontend/my-tax-tracker-fe/src/components/ReceiptReview.jsx:177-180 | When the current page is beyond the new page count and that count is positive, the page moves to the new count. Otherwise it stays. |
| ReceiptTable.DeleteKeepsPageValid | frontend-app/frontend/my-tax-tracker-fe/src/components/ReceiptReview.jsx:174-180 | Deleting a listed receipt from a valid page leaves a valid page of the shorter list, at most one page back. |
| ReceiptTable.TableState.constructor | frontend-app/frontend/my-tax-tracker-fe/src/components/ReceiptReview.jsx:97-104 | No rows, loading, no error, no dropdown, page 1. |
| ReceiptTable.TableState.LoadReceipts | frontend-app/frontend/my-tax-tracker-fe/src/components/ReceiptReview.jsx:110-127 | One GET of `/receipts/view` is sent through `fetchWithAuth`. A 2xx JSON answer sets the rows, with a non-array becoming `[]`, and resets the page to 1. Any failure sets "Failed to fetch receipts". Loading ends in both cases. |
| ReceiptTable.TableState.PageChange | frontend-app/frontend/my-tax-tracker-fe/src/components/ReceiptReview.jsx:135-139 | Goes to the page and closes the dropdown. |
| ReceiptTable.TableState.ToggleDropdown | frontend-app/frontend/my-tax-tracker-fe/src/components/ReceiptReview.jsx:141-143 | Opens the row's menu, or closes it when it is the open one. |
| ReceiptTable.TableState.ClickOutside | frontend-app/frontend/my-tax-tracker-fe/src/components/ReceiptReview.jsx:206-211 | Closes any dropdown and changes nothing else. |
| ReceiptTable.TableState.DeleteReceipt | frontend-app/frontend/my-tax-tracker-fe/src/components/ReceiptReview.jsx:156-192 | Unconfirmed, nothing happens. Confirmed, one DELETE is sent and the menu is closed. On a 2xx answer the row is filtered out and the page adjusted from the old count; otherwise rows and page stay. |
| FieldEditor.RenamedOrder | frontend-app/frontend/my-tax-tracker-fe/src/pages/ReviewReceipt.jsx:85-93 | The first occurrence of the old key is replaced in place. The order is untouched when the key is absent. |
| FieldEditor.WithoutKey | frontend-app/frontend/my-tax-tracker-fe/src/pages/ReviewReceipt.jsx:116 | Every occurrence of the key leaves the order and nothing else does. A single other key is kept. |
| FieldEditor.WithoutKeyAppend | frontend-app/frontend/my-tax-tracker-fe/src/pages/ReviewReceipt.jsx:116 | The filter works key by key, so the other keys keep their order and repetitions. |
| FieldEditor.WithoutAbsentKey | frontend-app/frontend/my-tax-tracker-fe/src/pages/ReviewReceipt.jsx:116 | Removing an unlisted key leaves the order unchanged. |
| FieldEditor.NewFieldKey | frontend-app/frontend/my-tax-tracker-fe/src/pages/ReviewReceipt.jsx:100 | The new key is `new_field_` followed by the decimal digits of the key count plus one. |
| FieldEditor.VisibleFields | frontend-app/frontend/my-tax-tracker-fe/src/pages/ReviewReceipt.jsx:339-341 | A row is rendered exactly for listed keys whose value is defined. A single key has a row exactly when its value is defined. |
| FieldEditor.VisibleFieldsAppend | frontend-app/frontend/my-tax-tracker-fe/src/pages/ReviewReceipt.jsx:339-341 | Rows are listed key by key, in the order's order and with its repetitions. |
| FieldEditor.ListedFieldsAreVisible | frontend-app/frontend/my-tax-tracker-fe/src/pages/ReviewReceipt.jsx:339-341 | While every key is listed, every defined field has a row. |
| FieldEditor.RenameRoundTrip | frontend-app/frontend/my-tax-tracker-fe/src/pages/ReviewReceipt.jsx:73-93 | Renaming a to a fresh b and back restores both the map and the order. |
| FieldEditor.LoadedData | frontend-app/frontend/my-tax-tracker-fe/src/pages/ReviewReceipt.jsx:35-38 | The loaded map has exactly the object's keys, and each key holds the value of its last entry. |
| FieldEditor.ReviewPage.constructor | frontend-app/frontend/my-tax-tracker-fe/src/pages/ReviewReceipt.jsx:14-19 | No receipt, no fields, nothing being edited. |
| FieldEditor.ReviewPage.Load | frontend-app/frontend/my-tax-tracker-fe/src/pages/ReviewReceipt.jsx:33-38 | Sets the status and the fields (`{}` when missing), with the order being the keys. Every key is listed afterwards. |
| FieldEditor.ReviewPage.ChangeField | frontend-app/frontend/my-tax-tracker-fe/src/pages/ReviewReceipt.jsx:66-95 | Read-only does nothing. A value edit changes that key only. A rename moves the value to the new key and renames it in the order. Listing is kept. |
| FieldEditor.ReviewPage.AddField | frontend-app/frontend/my-tax-tracker-fe/src/pages/ReviewReceipt.jsx:97-106 | Read-only does nothing. Otherwise `NewFieldKey` maps to `''` and is appended to the order. |
| FieldEditor.ReviewPage.RemoveField | frontend-app/frontend/my-tax-tracker-fe/src/pages/ReviewReceipt.jsx:108-117 | Read-only does nothing. Otherwise the key leaves the map and every occurrence leaves the order. |
| FieldEditor.ReviewPage.KeyEdit | frontend-app/frontend/my-tax-tracker-fe/src/pages/ReviewReceipt.jsx:119-123 | Read-only does nothing. Otherwise editing starts, prefilled with the key. |
| FieldEditor.ReviewPage.KeyEditComplete | frontend-app/frontend/my-tax-tracker-fe/src/pages/ReviewReceipt.jsx:125-144 | Read-only does nothing. Otherwise the trimmed name renames the key when non-empty and different, and the editing state is cleared. |
| FieldEditor.ReviewPage.KeyEditCancel | frontend-app/frontend/my-tax-tracker-fe/src/pages/ReviewReceipt.jsx:146-149 | Clears the editing state, even when read-only. |
| FieldEditor.ReviewPage.StatusChange | frontend-app/frontend/my-tax-tracker-fe/src/pages/ReviewReceipt.jsx:203-213 | Read-only does nothing. `rejected` only shows the warning. Any other status is set and marked changed. |
| FieldEditor.NewFieldKeyCanCollide | frontend-app/frontend/my-tax-tracker-fe/src/pages/ReviewReceipt.jsx:100 | The new key is not checked for freshness: adding to a map that already holds `new_field_2` overwrites it. |
| FieldEditor.RenameOntoListedKeyDuplicates | frontend-app/frontend/my-tax-tracker-fe/src/pages/ReviewReceipt.jsx:85-93 | Renaming onto a key already in the order lists that key twice. |
| Session.AuthProvider.constructor | frontend-app/frontend/my-tax-tracker-fe/src/customprocess/AuthContext.jsx:8-9 | The token starts null and loading starts true. |
| Session.AuthProvider.CheckAuth | frontend-app/frontend/my-tax-tracker-fe/src/customprocess/AuthContext.jsx:11-34 | One probe of `/auth/me`. A 2xx answer sets `'valid'`; anything else sets null. Loading ends either way. A second run does nothing. |
| Session.Guard | frontend-app/frontend/my-tax-tracker-fe/src/components/ProtectedRoute.jsx:5-11 | A placeholder while loading. After that the children show exactly when the token is truthy; otherwise a redirect to `/`. |
| Session.AppView | frontend-app/frontend/my-tax-tracker-fe/src/App.jsx:12-64 | Only the loading view while loading. `/` redirects to `/dashboard` with a token and shows Login without one. `/test` is unprotected. |
| Session.ProtectedRoutes | frontend-app/frontend/my-tax-tracker-fe/src/App.jsx:29-60 | Each of the four protected routes shows its page exactly when the token is truthy, and otherwise redirects to `/`. |
| Session.RedirectsSettle | frontend-app/frontend/my-tax-tracker-fe/src/App.jsx:21-60 | Following a route's redirect always lands on a page. |
| Session.ProviderScreen | frontend-app/frontend/my-tax-tracker-fe/src/customprocess/AuthContext.jsx:38 | The children render exactly when not loading. |
| Session.InnerLoadingViewsUnreachable | frontend-app/frontend/my-tax-tracker-fe/src/customprocess/AuthContext.jsx:38 | Because the provider holds children back while loading, App's and the guard's loading views never appear. |
| Session.ProbeThenOpen | frontend-app/frontend/my-tax-tracker-fe/src/customprocess/AuthContext.jsx:11-38 | After the mount probe, a protected page is on screen exactly when the probe came back 2xx. |
| ReceiptStore.Lookup | backend-app/backend/src/routers/receipts.py:263-265 | `get_item`: None exactly when no item has the key; otherwise a stored item with it. `ReceiptStore.ReceiptTable.GetItem` is this lookup on the table's items. |
| ReceiptStore.UserItems | backend-app/backend/src/routers/receipts.py:104-108 | The scan by username returns exactly that user's items. |
| ReceiptStore.UserItemsAppend | backend-app/backend/src/routers/receipts.py:104-108 | The scan works item by item, so the user's items keep the table order, each once. A single item is returned exactly when it is the user's. |
| ReceiptStore.LookupCons | backend-app/backend/src/routers/receipts.py:263-265 | Lookup tries items in order. |
| ReceiptStore.Upsert | backend-app/backend/src/routers/receipts.py:46 | `put_item`: the key reads the new item and every other key reads as before. |
| ReceiptStore.Remove | backend-app/backend/src/routers/receipts.py:338 | `delete_item`: the key reads nothing and every other key reads as before. |
| ReceiptStore.WritesKeepUniqueKeys | backend-app/backend/src/routers/receipts.py:46 | Puts and deletes keep keys unique. |
| ReceiptStore.UpsertKeepsUniqueKeys | backend-app/backend/src/routers/receipts.py:46 | A put keeps the `(username, receipt_id)` keys unique. |
| ReceiptStore.RemoveKeepsUniqueKeys | backend-app/backend/src/routers/receipts.py:338 | A delete keeps the keys unique. |
| ReceiptStore.ReceiptTable.constructor | backend-app/backend/src/routers/receipts.py:46 | The table starts with the given items. |
| ReceiptStore.ReceiptTable.PutItem | backend-app/backend/src/routers/receipts.py:46 | The items become their `Upsert`. |
| ReceiptStore.ReceiptTable.DeleteItem | backend-app/backend/src/routers/receipts.py:338 | The items become their `Remove`. |
| Utils.DetectionText | backend-app/backend/src/utils.py:12-13 | `.get("Text", "")` on a detection that is present. Absent exactly when the detection is null, which makes `.get` raise. |
| Utils.ReadField | backend-app/backend/src/utils.py:12-14 | A field raises exactly when a detection is null. It gives a pair exactly when both texts are non-empty. |
| Utils.PutKeepsWellFormed | backend-app/backend/src/utils.py:15 | Storing a non-empty pair keeps the dict's labels distinct and non-empty. |
| Utils.AddFields | backend-app/backend/src/utils.py:11-15 | Flattening keeps the dict well formed. It raises exactly when some field raises. |
| Utils.AddDocuments | backend-app/backend/src/utils.py:10-15 | Flattening every document gives a well-formed dict. Its content is stated by `AddDocumentsAssigns` and `ParsedFieldsContent`. |
| Utils.ParsedFields | backend-app/backend/src/utils.py:6-18 | The result is well formed, and `{}` when there are no documents. Its content is stated by `ParsedFieldsContent`. |
| Utils.AddFieldsRaisedPrefix | backend-app/backend/src/utils.py:9-17 | After an exception the later fields add nothing. |
| Utils.AddDocumentsRaisedPrefix | backend-app/backend/src/utils.py:9-17 | After an exception the later documents add nothing. |
| Utils.FieldPairs | backend-app/backend/src/utils.py:11-15 | One document's assignments: it raises exactly when a field raises, every assignment is a field's non-empty pair, and without a raise every such pair is assigned. |
| Utils.AssignAppend | backend-app/backend/src/utils.py:15 | Performing assignments one after another: `a` then `b` is `a + b`. `Utils.Assign` performs a list of assignments with `PyDict.Put`. |
| Utils.AddFieldsAssigns | backend-app/backend/src/utils.py:11-15 | One document's loop performs its assignments in order on the dict it starts from, and raises exactly when they stop. |
| Utils.AddDocumentsAssigns | backend-app/backend/src/utils.py:9-17 | The loops over all documents perform every document's assignments in order on `{}`, stopping at the first exception. `Utils.DocumentPairs` lists the assignments across documents up to the first exception. |
| Utils.AssignLastWins | backend-app/backend/src/utils.py:15 | A label holds the value of its last assignment. |
| Utils.AssignKeepsOthers | backend-app/backend/src/utils.py:15 | A label never assigned keeps its earlier value. |
| Utils.AssignSources | backend-app/backend/src/utils.py:15 | Every entry comes from the start dict or from an assignment. |
| Utils.ParsedFieldsContent | backend-app/backend/src/utils.py:6-18 | Over all documents, up to the first exception: every assigned label holds its last assigned value, and every entry of the result is an assignment. |
| Utils.ParseTextractExpense | backend-app/backend/src/utils.py:6-18 | The nested loops compute `ParsedFields`. |
| Utils.LastPairWins | backend-app/backend/src/utils.py:11-15 | Within one document, a later field with the same label overwrites an earlier one, so the last one read is kept. The identical copy of `parse_textract_expense` at helpers.py:25-37 is modelled by the same members. |
| Utils.AddFieldsSources | backend-app/backend/src/utils.py:14-15 | Every stored pair came from the start dict or from some field. |
| Utils.LastIndex | backend-app/backend/src/utils.py:29 | `rfind`: the last position of the character, or -1. |
| Utils.BaseName | backend-app/backend/src/utils.py:27 | The path's last component: a suffix of the path with no `/`, preceded by a `/` whenever the path holds one, and the whole path otherwise. |
| Utils.SuffixStart | backend-app/backend/src/utils.py:29 | pathlib's suffix dot: a suffix exists exactly when the last `.` (`LastIndex`) is neither first nor last in the name, and then it starts there. |
| Utils.Suffix | backend-app/backend/src/utils.py:28-29 | `suffix` is the name from its last `.` on when that dot is neither first nor last, and empty otherwise. `stem + suffix` is the name. |
| Utils.CandidateInjective | backend-app/backend/src/utils.py:47 | Different counters give different candidate names. `Utils.Candidate` builds `stem(n)suffix` (utils.py:47). |
| Utils.TakenNames | backend-app/backend/src/utils.py:32-38 | The user's stored file names, exactly. `Utils.Taken` is the scan by username and file name finding an item (utils.py:32-38, 50-56). |
| Utils.Tried | backend-app/backend/src/utils.py:45-62 | The candidates tried so far. |
| Utils.UniqueFilename | backend-app/backend/src/utils.py:21-62 | The result is never taken, and is the original when that is free. Otherwise it is `stem(n)suffix` for the least free n >= 1. |
| Utils.FirstFreeCandidate | backend-app/backend/src/utils.py:45-62 | The counting loop returns a `stem(n)suffix` the user has not taken, and every counter below n is taken. |
| Utils.TriedStep | backend-app/backend/src/utils.py:47-62 | Each new counter yields a name that no earlier counter produced, so the loop ends. |
| Utils.CandidateKeepsSuffix | backend-app/backend/src/utils.py:47 | A candidate keeps the name's suffix, and its stem gains only `(n)`. `Utils.Stem` is pathlib's `.stem`, the name before `SuffixStart` (utils.py:28). |
| Utils.TrailingDotCandidate | backend-app/backend/src/utils.py:28-29 | A name ending in a dot has no suffix, so `a.` becomes `a.(1)`. |
| Utils.DirectoryDroppedFromCandidate | backend-app/backend/src/utils.py:27-29 | A name with a directory loses it in the candidate. |
| Helpers.Squash | backend-app/backend/src/helpers.py:14 | `lower().replace(" ", "")` holds no space. |
| Helpers.SquashAppend | backend-app/backend/src/helpers.py:14 | Squashing works character by character: the input's characters lower-cased, spaces left out, in order. A single space vanishes and any other single character is lower-cased. |
| Helpers.CleanAmount | backend-app/backend/src/helpers.py:17 | No `$`, `:` or space is left in the cleaned value. |
| Helpers.CleanAmountSteps | backend-app/backend/src/helpers.py:17 | The cleaned value is the input with `RM` deleted as `RemoveAll` states, then `$`, `:` and spaces removed as `DropEach` states. |
| Helpers.FirstHitIsEarliest | backend-app/backend/src/helpers.py:13-21 | For one candidate, the value is the earliest label that matches and parses, and absent when none does. `Helpers.FirstHit` is that search (helpers.py:13-21), and `Helpers.KeyMatches` is its label test (helpers.py:14): the squashed candidate occurs in the squashed label. |
| Helpers.FindHit | backend-app/backend/src/helpers.py:13-21 | The inner loop returns `FirstHit` for its candidate. |
| Helpers.FirstByPriorityIsFirst | backend-app/backend/src/helpers.py:12-21 | Candidates are tried in priority order, and the first with a hit decides. `Helpers.FirstByPriority` is that search over the candidate list (helpers.py:12-21). |
| Helpers.ExtractTotal | backend-app/backend/src/helpers.py:1-22 | The nested loops return the prioritised hit, or 0.0 when there is none. |
| Helpers.TopCandidateMissesExample | backend-app/backend/src/helpers.py:14 | `Total to Pay` matches neither a `Subtotal` nor a `Total` label. |
| Helpers.TopCandidateNeedsP | backend-app/backend/src/helpers.py:14 | A label with no `p` or `P` never matches `Total to Pay`. |
| Helpers.TotalMatchesSubtotal | backend-app/backend/src/helpers.py:14 | The `TOTAL` candidate matches a `Subtotal` label. |
| Helpers.SubtotalShadowsTotal | backend-app/backend/src/helpers.py:3-21 | A subtotal listed before the total is returned in its place. |
| Helpers.CurrencyCleaningIsSinglePass | backend-app/backend/src/helpers.py:17 | `RRMM5` cleans to `RM5`, because `replace` is a single pass. |
| ReceiptsApi.S3Key | backend-app/backend/src/routers/receipts.py:22 | The key is `receipts/<username>/` followed by the file name. |
| ReceiptsApi.S3KeyInjective | backend-app/backend/src/routers/receipts.py:22 | A user's different file names give different keys. |
| ReceiptsApi.UploadReceipts | backend-app/backend/src/routers/receipts.py:16-58 | The stored name is free. It is the original when that is free, and otherwise `stem(n)suffix` for the least free n >= 1, as `get_unique_filename` picks it. The file is written to S3 once, under the key built from that name, and the extracted fields are Textract's answer for that key, flattened. The record is `pending`, and `filename_changed` holds exactly when the names differ. |
| ReceiptsApi.UploadTakesName | backend-app/backend/src/routers/receipts.py:40-46 | After an upload its stored name is taken. |
| ReceiptsApi.DatePrefix | backend-app/backend/src/routers/receipts.py:69-75 | There is no prefix exactly when the year is falsy. |
| ReceiptsApi.DatePrefixNesting | backend-app/backend/src/routers/receipts.py:69-75 | A year-and-month prefix extends the year's. A day without a month, or a month without a year, is ignored. |
| ReceiptsApi.DashedNesting | backend-app/backend/src/routers/receipts.py:69-75 | Each shorter dash-join of year, month and day is a prefix of the longer ones. |
| ReceiptsApi.DatePrefixLayout | backend-app/backend/src/routers/receipts.py:71 | A full date gives `YYYY-MM-DD`, zero-padded. |
| ReceiptsApi.PaddedDateWidths | backend-app/backend/src/routers/receipts.py:71 | A calendar year, month and day pad to four, two and two characters. |
| ReceiptsApi.Listing | backend-app/backend/src/routers/receipts.py:77-82 | The query returns exactly the user's items whose upload time starts with the prefix. A single item is returned exactly when it qualifies. `ReceiptsApi.MatchesPrefix` is the `begins_with` filter on the upload time (receipts.py:79-82). |
| ReceiptsApi.ListingAppend | backend-app/backend/src/routers/receipts.py:77-82 | The query works item by item, so the listed items keep the table order, each once. |
| ReceiptsApi.NarrowerPrefixNarrowerListing | backend-app/backend/src/routers/receipts.py:77-82 | A longer prefix lists a subset. |
| ReceiptsApi.NewestFirstOrdersAll | backend-app/backend/src/routers/receipts.py:83 | A newest-first list is ordered pairwise, not only neighbour by neighbour. `ReceiptsApi.NewestFirst` is the order of `sort(key=upload_datetime, reverse=True)`, over `ReceiptsApi.DatetimeKey`, the upload time or `""` (receipts.py:83). |
| ReceiptsApi.InsertNewestFirst | backend-app/backend/src/routers/receipts.py:83 | Insertion keeps the list newest first and adds exactly the item. |
| ReceiptsApi.SortNewestFirst | backend-app/backend/src/routers/receipts.py:83 | `sort(reverse=True)` gives a permutation in descending upload-time order. |
| ReceiptsApi.ViewReceipts | backend-app/backend/src/routers/receipts.py:61-84 | The answer is a permutation of the prefix listing, newest first. |
| Text.DropEach | backend-app/backend/src/routers/receipts.py:128-129 | Removing each listed character in turn leaves none of them and keeps only the input's characters. |
| Text.DropEachAppend | backend-app/backend/src/routers/receipts.py:128-129 | Removal works piece by piece, so the kept characters stay in their order. |
| Text.DropEachOne | backend-app/backend/src/routers/receipts.py:128-129 | One character is removed exactly when it is listed. With `DropEachAppend` this fixes the result. |
| Text.DropEachAbsent | backend-app/backend/src/routers/receipts.py:128-129 | Removing characters that are absent changes nothing. |
| ReceiptsApi.NormalizeKey | backend-app/backend/src/routers/receipts.py:127-130 | The key upper-cased, the seven characters removed as `DropEach` states, then stripped. The result holds no removed character and no lower-case letter. |
| ReceiptsApi.NormalizeKeyIdempotent | backend-app/backend/src/routers/receipts.py:127-130 | Cleaning twice is cleaning once. |
| ReceiptsApi.LastClaimIsLast | backend-app/backend/src/routers/receipts.py:124-133 | The claim is the value of the LAST total-like key, and absent when there is none. `ReceiptsApi.LastClaim` is the loop's result, and `ReceiptsApi.IsTotalKey` is its test of a normalised key against the total labels (receipts.py:132). |
| ReceiptsApi.CleanTextractKey | backend-app/backend/src/routers/receipts.py:127-130 | The key-cleaning loop computes `NormalizeKey`. |
| ReceiptsApi.FindClaim | backend-app/backend/src/routers/receipts.py:124-133 | The loop over one receipt's fields ends with `LastClaim`. |
| ReceiptsApi.CleanClaim | backend-app/backend/src/routers/receipts.py:137 | No `,` or `$` is left in the cleaned claim. |
| ReceiptsApi.CleanClaimSteps | backend-app/backend/src/routers/receipts.py:137 | The cleaned claim is the claim with `,` and `$` removed as `DropEach` states, then stripped of Python whitespace. |
| ReceiptsApi.InYear | backend-app/backend/src/routers/receipts.py:118-120 | An item is kept exactly when its upload time starts with the year's digits. |
| ReceiptsApi.InYearAppend | backend-app/backend/src/routers/receipts.py:118-120 | The year's items are picked one by one, in table order, each once. A single item is kept exactly when its upload time starts with the year's digits. |
| ReceiptsApi.TotalCountsOnlyYear | backend-app/backend/src/routers/receipts.py:116-145 | Only the year's items contribute to the total. |
| ReceiptsApi.YearMatchedAsText | backend-app/backend/src/routers/receipts.py:119 | The year is matched as text, so year 202 counts a 2024 receipt. |
| ReceiptsApi.ReceiptClaim | backend-app/backend/src/routers/receipts.py:117-142 | One receipt's contribution is `ItemClaim`: nothing unless its upload time starts with the year, otherwise the last total-like value, cleaned and parsed. `ReceiptsApi.ItemClaim` is that contribution. |
| ReceiptsApi.ClaimsTotalStep | backend-app/backend/src/routers/receipts.py:139-140 | Each receipt adds its parsed claim, or nothing, to the running total. |
| ReceiptsApi.SumClaims | backend-app/backend/src/routers/receipts.py:116-147 | The loop adds up the receipts' claims in order; the total it returns is `ClaimsTotal` of the items. `ReceiptsApi.ClaimsTotal` is that sum, with `ClaimsTotalStep` as its step. |
| ReceiptsApi.TotalClaims | backend-app/backend/src/routers/receipts.py:98-147 | The loops compute `ClaimsTotal` of the user's items. `num_receipts` counts all of them, not only the year's. |
| ReceiptsApi.UpdateParts | backend-app/backend/src/routers/receipts.py:207-221 | A status part exactly when a status is given, before a textract part exactly when data is given. |
| ReceiptsApi.UpdateNames | backend-app/backend/src/routers/receipts.py:209-220 | `#status` names `receipt_status` exactly when a status is given. `#textract` names `textract_data` exactly when Textract data is given. No other placeholder is defined. |
| ReceiptsApi.UpdateExpressionCases | backend-app/backend/src/routers/receipts.py:227 | The expression is `SET ` followed by the given parts joined by `, `, status first. `ReceiptsApi.UpdateExpression` is that expression. |
| ReceiptsApi.ApplyUpdate | backend-app/backend/src/routers/receipts.py:230-236 | Only the given fields change; key, path, name, time and size stay. |
| ReceiptsApi.ApplyUpdateIdempotent | backend-app/backend/src/routers/receipts.py:230-236 | Applying the same update twice is applying it once. |
| ReceiptsApi.UpdateReceipt | backend-app/backend/src/routers/receipts.py:185-254 | No data gives 400, an unknown receipt 404, and no field 400, with the table unchanged. Otherwise the update succeeds: the item is updated, and the expression and the placeholder names (`UpdateNames`) are returned. |
| ReceiptsApi.ContentType | backend-app/backend/src/routers/receipts.py:280-287 | png, gif or webp by lower-cased extension, in that order, and jpeg otherwise. |
| ReceiptsApi.ContentTypeIgnoresCase | backend-app/backend/src/routers/receipts.py:282-286 | The choice does not depend on the name's case. |
| ReceiptsApi.GetReceiptImage | backend-app/backend/src/routers/receipts.py:257-298 | 404 for a missing record and 404 for a missing path. An S3 failure gives 500. Otherwise the bytes, the type and `inline; filename=<name>`. |
| ReceiptsApi.S3DeletionStatus | backend-app/backend/src/routers/receipts.py:349 | `completed` exactly when an S3 key was deleted, `skipped_no_path` otherwise. |
| ReceiptsApi.DeleteReceipt | backend-app/backend/src/routers/receipts.py:301-357 | A missing record gives 404. An S3 failure does not stop the database delete. A database failure gives 500 with the table unchanged. Otherwise the record is removed, and the status is `completed` when S3 succeeded and `skipped_no_path` otherwise. |
| Config.CleanOrigins | backend-app/backend/src/config.py:31 | Every kept origin is non-empty with no whitespace at either end. |
| Config.CleanOriginsAppend | backend-app/backend/src/config.py:31 | The comprehension works piece by piece: the non-blank pieces, stripped, in the setting's order. A single piece gives its stripped text, or nothing when that is empty. |
| Config.CleanOriginsFromPieces | backend-app/backend/src/config.py:31 | Every kept origin is one of the comma pieces, stripped. |
| Config.AllowOrigin | backend-app/backend/src/config.py:30-33 | An empty or `*` setting gives `["*"]`. Otherwise the result is `CleanOrigins` of the comma pieces: every origin is non-empty, has no whitespace at either end and holds no comma. |
| Config.CleanOriginsKeepsClean | backend-app/backend/src/config.py:31 | Already clean origins pass through unchanged. |
| Config.AllowOriginRoundTrip | backend-app/backend/src/config.py:30-33 | A list of clean origins joined by commas parses back to itself. |
| Config.BlankPiecesAllowNothing | backend-app/backend/src/config.py:30-33 | A setting of blank pieces allows no origin at all. |
| Config.JwksUrl | backend-app/backend/src/config.py:42-45 | A JWKS URL exists exactly when the client id and pool id are set. It is `https://cognito-idp.<region>.amazonaws.com/<pool>` followed by `/.well-known/jwks.json` and nothing else. |
| Config.JwksCache.constructor | backend-app/backend/src/config.py:58 | Nothing is cached and nothing has been fetched yet. |
| Config.JwksCache.GetJwks | backend-app/backend/src/config.py:60-72 | No URL gives 500. A cached set is returned without fetching. Otherwise one download, cached on success. |
| Config.GetJwksTwice | backend-app/backend/src/config.py:67-72 | Two sequential calls download at most once unless both fail. After a success the second call answers the same. |
| Config.KeyIndex | backend-app/backend/src/config.py:88 | The first key with the kid, or -1 exactly when none has it. |
| Config.Verify | backend-app/backend/src/config.py:74-105 | An unconfigured pool gives 500, and every other failure 401. A token is accepted exactly when the keys are known, its header has a truthy kid, a key has that kid, and the decode against the first such key succeeds. The claims are the decode's. |
| Config.UnknownKidRejected | backend-app/backend/src/config.py:88-90 | A kid with no key gives 401 "Public key not found for the given 'kid'.". |
| Config.VerifyCognitoJwt | backend-app/backend/src/config.py:74-105 | The verification outcome with the keys from the cache or one download. An unconfigured pool leaves the cache alone. |
| Config.ExpiresAt | backend-app/backend/src/config.py:147-151 | The `exp` claim when truthy, else now plus `expires_in`. |
| Config.QueryJti | backend-app/backend/src/config.py:174-178 | The query returns the jti's entry, and nothing exactly when there is none. |
| Config.Blacklisted | backend-app/backend/src/config.py:167-187 | Blacklisted exactly when there is a table, the claims are readable, and a record is stored under the jti; with a type, that record must also have the type. `Config.JtiOf` is the `jti` claim or the token itself (config.py:146), and `Config.BlacklistTable.IsTokenBlacklisted` is this function on the table's state. |
| Config.BlacklistPut | backend-app/backend/src/config.py:143-165 | Without a table or readable claims nothing changes. Otherwise the jti (default: the token) gets the entry. |
| Config.BlacklistTable.constructor | backend-app/backend/src/config.py:143-165 | The table is empty and records whether it is configured. |
| Config.BlacklistTable.BlacklistToken | backend-app/backend/src/config.py:143-165 | The entries become their `BlacklistPut`. |
| Config.BlacklistedAfterPut | backend-app/backend/src/config.py:143-187 | A token put on the list is then blacklisted, untyped and under its own type. |
| Config.TypedBlacklist | backend-app/backend/src/config.py:181-182 | A token listed as `access` is not blacklisted as `refresh`. |
| Config.PutKeepsBlacklisted | backend-app/backend/src/config.py:143-187 | Adding one token never un-lists another for the untyped check. |
| Config.NoTableNoBlacklist | backend-app/backend/src/config.py:173-184 | Without a table nothing is blacklisted. |
| Config.HeaderToken | backend-app/backend/src/config.py:108-111 | The header gives a token exactly when it is truthy and starts with `Bearer `. The token has no space. |
| Config.HeaderTokenFirstWord | backend-app/backend/src/config.py:110-111 | `Bearer ` followed by any text yields the first space-separated word of that text. |
| Config.RequestToken | backend-app/backend/src/config.py:108-113 | The header's token when truthy, else the cookie when truthy, else none. |
| Config.BearerHeaderPreferred | backend-app/backend/src/config.py:108-113 | A well-formed bearer header wins over the cookie. |
| Config.OtherHeaderUsesCookie | backend-app/backend/src/config.py:112-113 | Without a bearer header the cookie decides. |
| Config.DoubleSpaceFallsBackToCookie | backend-app/backend/src/config.py:111-113 | `Bearer  x` (two spaces) splits to an empty token, so the cookie is used. |
| Config.GetCurrentUser | backend-app/backend/src/config.py:107-126 | No token gives 401, and a blacklisted token 401 before any verification. Otherwise the verification outcome. |
| Config.GenerateNewTokens | backend-app/backend/src/config.py:201-220 | No client or a failed exchange gives (None, None). Otherwise the `access_token` of the answer (None when absent), and its `refresh_token`, or the old one when none is issued. |
| AuthRoutes.Get | backend-app/backend/src/routers/auth.py:27-29 | `token.get(key)`: the value exactly when present. |
| AuthRoutes.Authorize | backend-app/backend/src/routers/auth.py:22-30 | A redirect that sets the id, access and refresh cookies, all httponly. A token missing from Cognito's answer is stored as the text `None`. |
| AuthRoutes.Logout | backend-app/backend/src/routers/auth.py:33-46 | Each present token is blacklisted under its own type. All three cookies are deleted and the response redirects to `/`. |
| AuthRoutes.LogoutUndoesAuthorize | backend-app/backend/src/routers/auth.py:22-46 | Logout deletes exactly the cookies authorize sets, and sets none. |
| AuthRoutes.LogoutRevokesSession | backend-app/backend/src/routers/auth.py:35-40 | After logout both tokens are blacklisted under their types. |
| AuthRoutes.RefreshToken | backend-app/backend/src/routers/auth.py:49-68 | 401 with no cookie, 401 for a blacklisted token, 401 with no new access token. Otherwise the old refresh token is blacklisted, the body carries the new token, and both cookies are set. The `id_token` cookie is never set. |
| AuthRoutes.RefreshTwice | backend-app/backend/src/routers/auth.py:55-67 | Replaying a refresh token is rejected. Without rotation the cookie set is the blacklisted old token, so the next refresh fails. |
| AuthRoutes.FirstTruthy | backend-app/backend/src/routers/auth.py:75 | `a or b or c`: the first truthy value, else the last. |
| AuthRoutes.GetMe | backend-app/backend/src/routers/auth.py:71-80 | No id token gives 401. Unreadable claims, or an `exp` before `now`, give 500. Otherwise the answer is Ok: the username is `cognito:username`, else email, else sub, and the phone number, email and gender are the claims'. `/auth/refresh` never renews the id token, so `/me` keeps failing with 500 once it expires. `AuthRoutes.Expired` is the `exp` check jose makes when decoding. |
| AuthRoutes.EmptyUsernameFallsBackToEmail | backend-app/backend/src/routers/auth.py:75 | An empty `cognito:username` falls back to the email. |

## Left out

- Floating point: `float()` is the `parse` parameter. Progress and sums are exact reals, so rounding of `total +=` and of the animation is not modelled. `toFixed` rendering of sizes is not modelled either.
- Case conversion (`upper`, `lower`, `toUpperCase`) is modelled on ASCII letters only.
- pathlib: `PurePath` normalisation (repeated or trailing slashes, `.` components) is not modelled. The base name is the text after the last `/`.
- DynamoDB pagination: a scan or query returns every match here; `LastEvaluatedKey` paging is not modelled.
- DynamoDB validation: the view query's `begins_with` on a non-key attribute is modelled as a filter. The real service may reject it as a key condition.
- DynamoDB errors: `put_item` and `get_item` exceptions (a 500 from FastAPI, or the catch-all 500 of `update_receipt`, `delete_receipt` and `view_receipt`) are not modelled. The one database failure modelled is the delete's (`dbDeleteSucceeds`).
- The blacklist table's key schema is not in the source. It is modelled as a map keyed by jti, so a query returns at most one item and a later put for the same jti replaces the earlier one.
- Exceptions inside `is_token_blacklisted` and `blacklist_token` are modelled only as unreadable claims. A DynamoDB error there is not modelled.
- The `WWW-Authenticate: Bearer` header of the two 401s in `get_current_user` is not modelled.
- `login` (the OAuth redirect), `validate_refresh_token`, `update_status` and `view_receipt` are not part of this model. Neither are the presentational pages, main.py and the module-level AWS client setup.
- Textract, S3, the Cognito token exchange, the JWKS download and jose verification are parameters. Their own behaviour is not modelled.
- Frontend environment: `Date.now`, `Math.random`, `requestAnimationFrame` timing, object URLs, navigation handlers, `handleSaveChanges`, the reject modal and the JSX markup are not modelled. Clock readings and the id suffix are parameters. The readings used in ids are natural numbers, as `Date.now()` counts milliseconds since the epoch.
- ReceiptTable.TableState.DeleteReceipt: the `typeof refreshKey === 'function'` branch (calling a callback after a delete) is not modelled, because the page passes a number.
- Concurrency: each upload's callbacks are modelled as operations on the list (and `CallbacksCommute` shows two uploads' events commute). The interleaving of parallel uploads as such is not modelled. Backend requests are modelled one at a time: `get_jwks` awaits the download before it stores the keys, so concurrent first requests each download, which `GetJwksTwice` does not cover.
- ReceiptsApi.SortNewestFirst: Python's sort is stable; stability is not stated, only order and permutation.
- ReceiptsApi.ViewReceipts: the result is stated as a permutation of the listing, not as the specific stable order.
- ReceiptsApi.DatePrefix: the contract states only when a prefix exists and its minimum length. The layout is stated by `DatePrefixLayout` for years 1 to 9999, months 1 to 12 and days 1 to 31.
- ReceiptTable.CamelToTitle: the contract states the empty case and the trimming. The shape of the result is stated by `CamelToTitleShape` only for names starting with a lower-case ASCII letter.
- UploadList.FormatFileSize: the label records the unit and byte count, not the rendered text with one or two decimals.
- UploadList.UploadPanel.AnimateProgress: frames are a finite list of clock readings, so an animation may also stop because the readings run out.
- Config.Verify: the claims check (RS256, audience and issuer) is the `decode` parameter; its rules are not modelled.
- Config.GetJwksTwice: the download is a function of the address, so a download that failed fails again on the second call. An endpoint that fails once and then answers costs two downloads; that case is not covered.
- FieldEditor.ReviewPage.Load: the field order is the order of the entries as received. JavaScript's `Object.keys` lists integer-like keys first, in ascending numeric order, and then the other keys in insertion order; that reordering is not modelled.
- ReceiptsApi.LastClaimIsLast: "last" is the order in which the entries were stored. DynamoDB does not preserve the key order of a Map attribute, so which total-like key `total_claims` sees last depends on the order boto3 returns, which is not modelled. The same holds for `FindClaim` and `TotalClaims`.
- AuthRoutes.GetMe: of the claim checks `jose` still runs with the signature check off, only `exp` is modelled. The `nbf` check and the type checks of `iat` and `exp` are not.
- UploadList.UploadPanel.CompleteUpload: the first animation frame's `setFiles` is queued synchronously, before the refresh counter goes up. The later frames run on `requestAnimationFrame`, after it. The model applies the counter and every frame in one call, so neither that order nor the table reload interleaving with the later frames is modelled.
- ReceiptsApi.UploadReceipts: the S3 write and the Textract call are taken to succeed. In the source, either failure raises an uncaught error (a 500), and a Textract failure after the write leaves the object in S3 with no record.

=== FILE: auth_client.dfy ===
/**
 * The browser's authenticated request layer (frontend `customprocess/auth.js`):
 * the token kept in `localStorage`, the token refresh against the backend,
 * and the `fetch` wrappers that attach the bearer token and the session
 * cookies.  The network is a parameter: `fetch` is a function from the
 * request to what the browser hands back.
 */
module AuthClient {
  import opened Wrappers

  /** The `localStorage` key holding the access token. */
  const TokenKey := "access_token"
  /** The refresh endpoint; the source writes this address out literally. */
  const RefreshUrl := "http://localhost:8000/auth/refresh"
  const AuthorizationHeader := "Authorization"
  const ContentTypeHeader := "Content-Type"

  /** The browser's `localStorage`, a string-to-string store updated in place. */
  class TokenStore {
    var items: map<string, string>

    constructor (initial: map<string, string>)
      ensures items == initial
    {
      items := initial;
    }

    /** `localStorage.getItem(key)`: the stored string, or `null`. */
    function GetItem(key: string): (v: Option<string>)
      reads this
      ensures v.Some? <==> key in items
      ensures v.Some? ==> v.value == items[key]
    {
      if key in items then Some(items[key]) else None
    }

    /** The stored access token. */
    function Token(): Option<string>
      reads this
    {
      GetItem(TokenKey)
    }

    /** `localStorage.setItem(key, value)`. */
    method SetItem(key: string, value: string)
      modifies this
      ensures items == old(items)[key := value]
    {
      items := items[key := value];
    }

    /** `localStorage.removeItem(key)`. */
    method RemoveItem(key: string)
      modifies this
      ensures items == old(items) - {key}
    {
      items := items - {key};
    }
  }

  /** A JavaScript value handed over as a request body. */
  datatype JsValue =
    | FormDataValue(parts: seq<(string, string)>)  // a `FormData` instance
    | PlainValue(repr: string)                      // any other value (object, string, ...)

  /** The body of an outgoing request. */
  datatype Body =
    | Passed(value: JsValue)  // sent as given
    | Json(value: JsValue)    // `JSON.stringify(value)`

  /** The `fetch` options object; `other` holds every option this layer does not look at. */
  datatype Options = Options(
    httpMethod: Option<string>,
    headers: Option<map<string, string>>,
    body: Option<Body>,
    credentials: Option<string>,
    other: map<string, string>)

  const NoOptions := Options(None, None, None, None, map[])

  datatype Request = Request(url: string, options: Options)

  /** An HTTP response; `json` is the parsed body, or `None` when `res.json()` would reject. */
  datatype Response = Response(status: int, json: Option<map<string, string>>)

  /** `res.ok`: a 2xx status. */
  predicate IsOk(r: Response) {
    200 <= r.status <= 299
  }

  /** What `fetch` gives back: a response of any status, or a rejection (network failure). */
  datatype FetchOutcome = Responded(response: Response) | NetworkError

  /** The failures `refreshToken` throws. */
  datatype RefreshError =
    | RefreshNetworkFailure      // the refresh request itself rejected
    | RefreshRejected(status: int)  // non-2xx from the refresh endpoint
    | RefreshMalformed           // the 2xx body is not JSON
    | RefreshNoToken             // the 2xx body carries no usable `access_token`

  /** The request `refreshToken` sends: a POST with the session cookies. */
  function RefreshRequest(): (r: Request)
    ensures r.url == RefreshUrl && r.options.httpMethod == Some("POST") && r.options.credentials == Some("include")
  {
    Request(RefreshUrl, Options(Some("POST"), None, None, Some("include"), map[]))
  }

  /**
   * What `refreshToken()` yields for a given answer from the refresh
   * endpoint: the new token when the answer is 2xx JSON with a truthy
   * `access_token`, and the matching failure otherwise.
   */
  function RefreshOutcome(outcome: FetchOutcome): (r: Result<string, RefreshError>)
    ensures r.Ok? <==> outcome.Responded? && IsOk(outcome.response) && outcome.response.json.Some?
                       && TokenKey in outcome.response.json.value && outcome.response.json.value[TokenKey] != ""
    ensures r.Ok? ==> r.value == outcome.response.json.value[TokenKey] && r.value != ""
    ensures outcome.Responded? && !IsOk(outcome.response) ==> r == Err(RefreshRejected(outcome.response.status))
  {
    if outcome.NetworkError? then Err(RefreshNetworkFailure)
    else if !IsOk(outcome.response) then Err(RefreshRejected(outcome.response.status))
    else if outcome.response.json.None? then Err(RefreshMalformed)
    else if TokenKey in outcome.response.json.value && outcome.response.json.value[TokenKey] != "" then
      Ok(outcome.response.json.value[TokenKey])
    else Err(RefreshNoToken)
  }

  /**
   * Whether a failed refresh removes the stored token: it does for a
   * non-2xx answer and for a 2xx answer without a token, but not when the
   * request or the JSON decoding throws before the source reaches `removeItem`.
   */
  predicate RefreshClearsStore(r: Result<string, RefreshError>) {
    r.Err? && (r.error.RefreshRejected? || r.error.RefreshNoToken?)
  }

  /**
   * `refreshToken()`: asks the backend for a new access token using the
   * refresh cookie, stores the token it gets and returns it; on a rejected
   * or tokenless answer the stored token is removed and the call fails.
   */
  method RefreshToken(store: TokenStore, fetch: Request -> FetchOutcome) returns (result: Result<string, RefreshError>)
    modifies store
    ensures result == RefreshOutcome(fetch(RefreshRequest()))
    ensures result.Ok? ==> store.items == old(store.items)[TokenKey := result.value]
    ensures RefreshClearsStore(result) ==> store.items == old(store.items) - {TokenKey}
    ensures result.Err? && !RefreshClearsStore(result) ==> store.items == old(store.items)
  {
    var outcome := fetch(RefreshRequest());
    if outcome.NetworkError? {
      return Err(RefreshNetworkFailure);
    }
    var res := outcome.response;
    if !IsOk(res) {
      store.RemoveItem(TokenKey);
      return Err(RefreshRejected(res.status));
    }
    if res.json.None? {
      return Err(RefreshMalformed);
    }
    var data := res.json.value;
    var newAccessToken := if TokenKey in data then Some(data[TokenKey]) else None;
    if Truthy(newAccessToken) {
      store.SetItem(TokenKey, newAccessToken.value);
    } else {
      store.RemoveItem(TokenKey);
      return Err(RefreshNoToken);
    }
    return Ok(newAccessToken.value);
  }

  /** The caller's headers, `{ ...options.headers }`. */
  function CallerHeaders(options: Options): map<string, string> {
    options.headers.GetOr(map[])
  }

  /**
   * The options `authenticatedFetch` hands to `fetch`: the caller's options,
   * the caller's headers plus `Authorization: Bearer <token>` when a truthy
   * token is stored, and `credentials: 'include'` in every case.
   */
  function AuthenticatedOptions(token: Option<string>, options: Options): (r: Options)
    ensures r.credentials == Some("include")
    ensures r.httpMethod == options.httpMethod && r.body == options.body && r.other == options.other
    ensures r.headers.Some?
    ensures Truthy(token) ==> r.headers.value == CallerHeaders(options)[AuthorizationHeader := "Bearer " + token.value]
    ensures !Truthy(token) ==> r.headers.value == CallerHeaders(options)
  {
    var headers := CallerHeaders(options);
    var headers' := if Truthy(token) then headers[AuthorizationHeader := "Bearer " + token.value] else headers;
    options.(headers := Some(headers'), credentials := Some("include"))
  }

  /**
   * The Authorization header goes out exactly when a token is stored or the
   * caller supplied one, and it is the bearer token whenever a token is stored.
   */
  lemma AuthorizationHeaderRule(token: Option<string>, options: Options)
    ensures var h := AuthenticatedOptions(token, options).headers.value;
      && (AuthorizationHeader in h <==> Truthy(token) || AuthorizationHeader in CallerHeaders(options))
      && (Truthy(token) ==> h[AuthorizationHeader] == "Bearer " + token.value)
      && (forall k :: k != AuthorizationHeader ==> (k in h <==> k in CallerHeaders(options)))
      && (forall k :: k != AuthorizationHeader && k in h ==> h[k] == CallerHeaders(options)[k])
  {
  }

  /**
   * `authenticatedFetch(url, options)`: one request, sent with the stored
   * token attached.  Whatever comes back, a 401 included, is handed to the
   * caller unchanged; no refresh and no second request happen.
   */
  method AuthenticatedFetch(store: TokenStore, url: string, options: Options, fetch: Request -> FetchOutcome)
    returns (outcome: FetchOutcome, sent: seq<Request>)
    ensures sent == [Request(url, AuthenticatedOptions(store.Token(), options))]
    ensures outcome == fetch(sent[0])
  {
    var accessToken := store.GetItem(TokenKey);
    var headers := CallerHeaders(options);
    if Truthy(accessToken) {
      headers := headers[AuthorizationHeader := "Bearer " + accessToken.value];
    }
    var fetchOptions := options.(headers := Some(headers), credentials := Some("include"));
    var request := Request(url, fetchOptions);
    sent := [request];
    var res := fetch(request);
    if res.Responded? && res.response.status == 401 {
      // An expired session is the caller's business: pass the 401 back as is.
      return res, sent;
    }
    return res, sent;
  }

  /** `fetchWithAuth(url, options)`: exactly `authenticatedFetch`. */
  method FetchWithAuth(store: TokenStore, url: string, options: Options, fetch: Request -> FetchOutcome)
    returns (outcome: FetchOutcome, sent: seq<Request>)
    ensures sent == [Request(url, AuthenticatedOptions(store.Token(), options))]
    ensures outcome == fetch(sent[0])
  {
    outcome, sent := AuthenticatedFetch(store, url, options, fetch);
  }

  /**
   * The options `postWithAuth` builds before delegating: method POST, a
   * `FormData` body as is and no added Content-Type, any other body
   * JSON-stringified with `Content-Type: application/json`.
   */
  function PostOptions(body: JsValue, options: Options): (r: Options)
    ensures r.httpMethod == Some("POST")
    ensures r.credentials == options.credentials && r.other == options.other
    ensures body.FormDataValue? ==> r.body == Some(Passed(body)) && r.headers == Some(CallerHeaders(options))
    ensures body.PlainValue? ==>
      r.body == Some(Json(body)) && r.headers == Some(CallerHeaders(options)[ContentTypeHeader := "application/json"])
  {
    var headers := CallerHeaders(options);
    var headers' := if body.FormDataValue? then headers else headers[ContentTypeHeader := "application/json"];
    options.(httpMethod := Some("POST"), body := Some(if body.FormDataValue? then Passed(body) else Json(body)),
             headers := Some(headers'))
  }

  /** `postWithAuth(url, body, options)`: `authenticatedFetch` on the POST options. */
  method PostWithAuth(store: TokenStore, url: string, body: JsValue, options: Options, fetch: Request -> FetchOutcome)
    returns (outcome: FetchOutcome, sent: seq<Request>)
    ensures sent == [Request(url, AuthenticatedOptions(store.Token(), PostOptions(body, options)))]
    ensures outcome == fetch(sent[0])
  {
    outcome, sent := AuthenticatedFetch(store, url, PostOptions(body, options), fetch);
  }

  /**
   * What `postWithAuth` finally sends: POST, cookies included, and a
   * JSON content type exactly when the body is not a `FormData` (unless the
   * caller set one), whatever options the caller passed.
   */
  lemma PostRequestShape(token: Option<string>, body: JsValue, options: Options)
    ensures var o := AuthenticatedOptions(token, PostOptions(body, options));
      && o.httpMethod == Some("POST")
      && o.credentials == Some("include")
      && (body.PlainValue? ==> o.body == Some(Json(body)) && o.headers.value[ContentTypeHeader] == "application/json")
      && (body.FormDataValue? ==>
            o.body == Some(Passed(body)) &&
            (ContentTypeHeader in o.headers.value <==> ContentTypeHeader in CallerHeaders(options)))
  {
  }
}

=== FILE: auth_routes.dfy ===
/**
 * The `/auth` endpoints (`routers/auth.py`): the OAuth callback that stores
 * the tokens in cookies, logout, the refresh-token exchange and `/me`.
 * Cognito's answers, the token reader and the clock are parameters.
 */
module AuthRoutes {
  import opened Wrappers
  import opened Config

  /** A change the response makes to the browser's cookies. */
  datatype CookieOp =
    | SetCookie(name: string, value: string, httpOnly: bool, secure: bool)
    | DeleteCookie(name: string)

  /** A redirect or a JSON answer, with the cookie changes it carries. */
  datatype Response =
    | Redirect(url: string, cookies: seq<CookieOp>)
    | Json(status: int, body: map<string, string>, cookies: seq<CookieOp>)

  /** The three cookies the session lives in. */
  const SessionCookies: seq<string> := ["id_token", "access_token", "refresh_token"]

  /** `dict.get(key)`. */
  function Get(m: map<string, string>, key: string): (v: Option<string>)
    ensures v.Some? <==> key in m
    ensures v.Some? ==> v.value == m[key]
  {
    if key in m then Some(m[key]) else None
  }

  /** The text a cookie holds: `str(value)`, so a missing token is stored as the text `None`. */
  function CookieText(value: Option<string>): string {
    if value.Some? then value.value else "None"
  }

  /** An `httponly`, non-`secure` cookie, as every cookie here is set. */
  function HttpOnlyCookie(name: string, value: Option<string>): CookieOp {
    SetCookie(name, CookieText(value), true, false)
  }

  /**
   * `authorize`: redirects to the frontend and stores the id, access and
   * refresh tokens of Cognito's answer in `httponly` cookies.
   */
  function Authorize(token: map<string, string>, redirectUri: string): (r: Response)
    ensures r.Redirect? && r.url == redirectUri && |r.cookies| == 3
    ensures forall k :: 0 <= k < 3 ==>
      r.cookies[k] == SetCookie(SessionCookies[k], CookieText(Get(token, SessionCookies[k])), true, false)
    ensures forall k :: 0 <= k < 3 && SessionCookies[k] !in token ==> r.cookies[k].value == "None"
  {
    Redirect(redirectUri, [HttpOnlyCookie("id_token", Get(token, "id_token")),
                           HttpOnlyCookie("access_token", Get(token, "access_token")),
                           HttpOnlyCookie("refresh_token", Get(token, "refresh_token"))])
  }

  /** The names of the cookies a response sets, and of those it deletes. */
  function SetNames(ops: seq<CookieOp>): set<string> {
    set k | 0 <= k < |ops| && ops[k].SetCookie? :: ops[k].name
  }

  function DeletedNames(ops: seq<CookieOp>): set<string> {
    set k | 0 <= k < |ops| && ops[k].DeleteCookie? :: ops[k].name
  }

  /** The redirect `logout` answers with: home, and the three session cookies deleted. */
  const LogoutResponse: Response :=
    Redirect("/", [DeleteCookie("refresh_token"), DeleteCookie("access_token"), DeleteCookie("id_token")])

  /** The blacklist after logout: the access token under `access`, then the refresh token under `refresh`, each only if present. */
  function LogoutEntries(tableConfigured: bool, entries: map<string, BlacklistEntry>,
                         accessCookie: Option<string>, refreshCookie: Option<string>,
                         unverifiedClaims: string -> Option<Claims>, now: int, nowIso: string): map<string, BlacklistEntry>
  {
    var afterAccess := if Truthy(accessCookie)
      then BlacklistPut(tableConfigured, entries, accessCookie.value, 3600, "access", unverifiedClaims, now, nowIso)
      else entries;
    if Truthy(refreshCookie)
    then BlacklistPut(tableConfigured, afterAccess, refreshCookie.value, 3600, "refresh", unverifiedClaims, now, nowIso)
    else afterAccess
  }

  /**
   * `logout`: blacklists each session token present in the cookies under
   * its own type, deletes the three session cookies and redirects home.
   */
  method Logout(blacklist: BlacklistTable, accessCookie: Option<string>, refreshCookie: Option<string>,
                unverifiedClaims: string -> Option<Claims>, now: int, nowIso: string)
    returns (response: Response)
    modifies blacklist
    ensures response == LogoutResponse
    ensures blacklist.entries ==
      LogoutEntries(blacklist.configured, old(blacklist.entries), accessCookie, refreshCookie, unverifiedClaims, now, nowIso)
  {
    if Truthy(accessCookie) {
      blacklist.BlacklistToken(accessCookie.value, 3600, "access", unverifiedClaims, now, nowIso);
    }
    if Truthy(refreshCookie) {
      blacklist.BlacklistToken(refreshCookie.value, 3600, "refresh", unverifiedClaims, now, nowIso);
    }
    response := LogoutResponse;
  }

  /** Logout deletes exactly the cookies the OAuth callback sets. */
  lemma LogoutUndoesAuthorize(token: map<string, string>, redirectUri: string)
    ensures DeletedNames(LogoutResponse.cookies) == SetNames(Authorize(token, redirectUri).cookies)
    ensures SetNames(LogoutResponse.cookies) == {}
  {
    var ops := Authorize(token, redirectUri).cookies;
    assert ops[0].name == "id_token" && ops[1].name == "access_token" && ops[2].name == "refresh_token";
    assert SetNames(ops) == {"id_token", "access_token", "refresh_token"};
    var del := LogoutResponse.cookies;
    assert del[0].name == "refresh_token" && del[1].name == "access_token" && del[2].name == "id_token";
    assert DeletedNames(del) == {"id_token", "access_token", "refresh_token"};
  }

  /**
   * After logout, with a blacklist table and readable tokens, the access
   * token from the cookie is refused by `get_current_user` and the refresh
   * token by `/auth/refresh`.
   */
  lemma LogoutRevokesSession(entries: map<string, BlacklistEntry>, accessToken: string, refreshToken: string,
                             unverifiedClaims: string -> Option<Claims>, now: int, nowIso: string)
    requires accessToken != "" && refreshToken != ""
    requires unverifiedClaims(accessToken).Some? && unverifiedClaims(refreshToken).Some?
    ensures var e := LogoutEntries(true, entries, Some(accessToken), Some(refreshToken), unverifiedClaims, now, nowIso);
      Blacklisted(true, e, accessToken, None, unverifiedClaims)
      && Blacklisted(true, e, refreshToken, Some("refresh"), unverifiedClaims)
  {
    var afterAccess := BlacklistPut(true, entries, accessToken, 3600, "access", unverifiedClaims, now, nowIso);
    BlacklistedAfterPut(entries, accessToken, 3600, "access", unverifiedClaims, now, nowIso);
    PutKeepsBlacklisted(true, afterAccess, refreshToken, 3600, "refresh", unverifiedClaims, now, nowIso, accessToken);
    BlacklistedAfterPut(afterAccess, refreshToken, 3600, "refresh", unverifiedClaims, now, nowIso);
  }

  /** A 401 JSON answer with an `error` message and no cookies. */
  function Unauthorized(message: string): Response {
    Json(401, map["error" := message], [])
  }

  /**
   * `refresh_token`: 401 without a refresh cookie, for a refresh token
   * blacklisted as `refresh`, and when Cognito issues no access token.
   * Otherwise the old refresh token is blacklisted as `refresh`, the new
   * access token is returned in the body, and both token cookies are set.
   */
  method RefreshToken(blacklist: BlacklistTable, refreshCookie: Option<string>, oauthConfigured: bool,
                      exchange: string -> Option<map<string, string>>,
                      unverifiedClaims: string -> Option<Claims>, now: int, nowIso: string)
    returns (response: Response)
    modifies blacklist
    ensures !Truthy(refreshCookie) ==>
      response == Unauthorized("No refresh token provided") && blacklist.entries == old(blacklist.entries)
    ensures Truthy(refreshCookie)
            && Blacklisted(blacklist.configured, old(blacklist.entries), refreshCookie.value, Some("refresh"), unverifiedClaims) ==>
      response == Unauthorized("Refresh token is blacklisted") && blacklist.entries == old(blacklist.entries)
    ensures Truthy(refreshCookie)
            && !Blacklisted(blacklist.configured, old(blacklist.entries), refreshCookie.value, Some("refresh"), unverifiedClaims) ==>
      var tokens := GenerateNewTokens(refreshCookie.value, oauthConfigured, exchange);
      && (!Truthy(tokens.0) ==>
            response == Unauthorized("Failed to refresh token") && blacklist.entries == old(blacklist.entries))
      && (Truthy(tokens.0) ==>
            && blacklist.entries == BlacklistPut(blacklist.configured, old(blacklist.entries), refreshCookie.value, 3600,
                                                 "refresh", unverifiedClaims, now, nowIso)
            && response == Json(200, map["message" := "Token refreshed", "access_token" := tokens.0.value],
                                [HttpOnlyCookie("access_token", tokens.0), HttpOnlyCookie("refresh_token", tokens.1)]))
    ensures forall k :: 0 <= k < |response.cookies| ==> response.cookies[k].name != "id_token"
  {
    if !Truthy(refreshCookie) {
      return Unauthorized("No refresh token provided");
    }
    if blacklist.IsTokenBlacklisted(refreshCookie.value, Some("refresh"), unverifiedClaims) {
      return Unauthorized("Refresh token is blacklisted");
    }
    var tokens := GenerateNewTokens(refreshCookie.value, oauthConfigured, exchange);
    var newAccessToken, newRefreshToken := tokens.0, tokens.1;
    if !Truthy(newAccessToken) {
      return Unauthorized("Failed to refresh token");
    }
    blacklist.BlacklistToken(refreshCookie.value, 3600, "refresh", unverifiedClaims, now, nowIso);
    response := Json(200, map["message" := "Token refreshed", "access_token" := newAccessToken.value],
                     [HttpOnlyCookie("access_token", newAccessToken), HttpOnlyCookie("refresh_token", newRefreshToken)]);
  }

  /** The refresh cookie a response sets, if any. */
  function RefreshCookieSet(r: Response): Option<string> {
    if r.Json? && |r.cookies| == 2 && r.cookies[1].SetCookie? then Some(r.cookies[1].value) else None
  }

  /**
   * A refresh token works once: replaying it after a successful refresh is
   * refused.  When Cognito does not rotate refresh tokens, the cookie the
   * first refresh sets is that same, now blacklisted, token, so the
   * browser's next refresh is refused as well.
   */
  method RefreshTwice(blacklist: BlacklistTable, refreshCookie: string, oauthConfigured: bool,
                      exchange: string -> Option<map<string, string>>,
                      unverifiedClaims: string -> Option<Claims>, now: int, nowIso: string)
    returns (first: Response, replay: Response, next: Response)
    modifies blacklist
    ensures blacklist.configured && unverifiedClaims(refreshCookie).Some? && first.Json? && first.status == 200 ==>
      replay == Unauthorized("Refresh token is blacklisted")
    ensures blacklist.configured && unverifiedClaims(refreshCookie).Some? && first.Json? && first.status == 200
            && exchange(refreshCookie).Some? && "refresh_token" !in exchange(refreshCookie).value ==>
      RefreshCookieSet(first) == Some(refreshCookie) && next == Unauthorized("Refresh token is blacklisted")
  {
    first := RefreshToken(blacklist, Some(refreshCookie), oauthConfigured, exchange, unverifiedClaims, now, nowIso);
    if blacklist.configured && unverifiedClaims(refreshCookie).Some? && first.Json? && first.status == 200 {
      BlacklistedAfterPut(old(blacklist.entries), refreshCookie, 3600, "refresh", unverifiedClaims, now, nowIso);
    }
    replay := RefreshToken(blacklist, Some(refreshCookie), oauthConfigured, exchange, unverifiedClaims, now, nowIso);
    next := RefreshToken(blacklist, RefreshCookieSet(first), oauthConfigured, exchange, unverifiedClaims, now, nowIso);
  }

  /** Python's `a or b or c` on three optional claims: the first truthy one, else the last. */
  function FirstTruthy(a: Option<string>, b: Option<string>, c: Option<string>): (r: Option<string>)
    ensures Truthy(r) <==> Truthy(a) || Truthy(b) || Truthy(c)
    ensures Truthy(a) ==> r == a
    ensures !Truthy(a) && Truthy(b) ==> r == b
    ensures !Truthy(a) && !Truthy(b) ==> r == c
  {
    if Truthy(a) then a else if Truthy(b) then b else c
  }

  /** The JSON answer of `/auth/me`. */
  datatype Me = Me(username: Option<string>, phoneNumber: Option<string>, email: Option<string>, gender: Option<string>)

  /** `jose` still checks `exp` when the signature check is off: a token whose `exp` lies before `now` is refused. */
  predicate Expired(claims: Claims, now: int) {
    claims.exp.Some? && claims.exp.value < now
  }

  /**
   * `get_me` behind `get_current_user_profile`: 401 without an `id_token`
   * cookie; an unreadable or expired token raises (500); otherwise the
   * profile, whose username is `cognito:username`, else the email, else
   * the subject.  `now` is the clock reading `jose` compares `exp` with.
   */
  function GetMe(idCookie: Option<string>, unverifiedClaims: string -> Option<Claims>, now: int): (r: Result<Me, HttpError>)
    ensures !Truthy(idCookie) ==> r == Err(HttpError(401, "No ID token found"))
    ensures Truthy(idCookie) && unverifiedClaims(idCookie.value).None? ==> r == Err(HttpError(500, "Internal Server Error"))
    ensures Truthy(idCookie) && unverifiedClaims(idCookie.value).Some? && Expired(unverifiedClaims(idCookie.value).value, now) ==>
      r == Err(HttpError(500, "Internal Server Error"))
    ensures r.Ok? ==>
      var fields := unverifiedClaims(idCookie.value).value.fields;
      && !Expired(unverifiedClaims(idCookie.value).value, now)
      && r.value.email == Get(fields, "email")
      && r.value.phoneNumber == Get(fields, "phone_number")
      && r.value.gender == Get(fields, "gender")
      && r.value.username == FirstTruthy(Get(fields, "cognito:username"), Get(fields, "email"), Get(fields, "sub"))
    ensures Truthy(idCookie) && unverifiedClaims(idCookie.value).Some? && !Expired(unverifiedClaims(idCookie.value).value, now) ==>
      r.Ok?
  {
    if !Truthy(idCookie) then Err(HttpError(401, "No ID token found"))
    else match unverifiedClaims(idCookie.value)
      case None => Err(HttpError(500, "Internal Server Error"))
      case Some(claims) =>
        if Expired(claims, now) then Err(HttpError(500, "Internal Server Error"))
        else
          var user := claims.fields;
          Ok(Me(FirstTruthy(Get(user, "cognito:username"), Get(user, "email"), Get(user, "sub")),
                Get(user, "phone_number"), Get(user, "email"), Get(user, "gender")))
  }

  /** A profile with an email but an empty Cognito username reports the email as the username. */
  lemma EmptyUsernameFallsBackToEmail(idToken: string, unverifiedClaims: string -> Option<Claims>, now: int)
    requires idToken != ""
    requires unverifiedClaims(idToken).Some? && !Expired(unverifiedClaims(idToken).value, now)
    requires var f := unverifiedClaims(idToken).value.fields;
      "cognito:username" in f && f["cognito:username"] == "" && "email" in f && f["email"] != ""
    ensures GetMe(Some(idToken), unverifiedClaims, now).Ok?
    ensures GetMe(Some(idToken), unverifiedClaims, now).value.username == Some(unverifiedClaims(idToken).value.fields["email"])
  {
  }
}

=== FILE: config.dfy ===
/**
 * The backend's security configuration (`config.py`): the CORS origin
 * list, the cached Cognito key set, access-token verification and lookup,
 * the token blacklist and the refresh-token exchange.  Cognito, the JWKS
 * download and the `jose` library are parameters: their answers are given
 * as functions of their inputs.
 */
module Config {
  import opened Wrappers
  import opened Text

  /** An `HTTPException`: status code and detail text. */
  datatype HttpError = HttpError(status: int, detail: string)

  // ------------------------------------------------------------------ CORS

  /** An origin as the comprehension keeps it: non-empty, with no whitespace at either end. */
  predicate CleanOrigin(o: string) {
    o != "" && !IsPySpace(o[0]) && !IsPySpace(o[|o| - 1])
  }

  /** The comprehension over the comma-separated pieces: each stripped, empty ones dropped. */
  function CleanOrigins(parts: seq<string>): (r: seq<string>)
    ensures |r| <= |parts|
    ensures forall k :: 0 <= k < |r| ==> CleanOrigin(r[k])
  {
    if |parts| == 0 then []
    else
      var o := PyStrip(parts[0]);
      var rest := CleanOrigins(parts[1..]);
      if o != "" then [o] + rest else rest
  }

  /**
   * The comprehension works piece by piece: with the one-piece case, the
   * origins are the non-blank pieces, stripped, in the setting's order.
   */
  lemma {:induction false} CleanOriginsAppend(a: seq<string>, b: seq<string>)
    ensures CleanOrigins(a + b) == CleanOrigins(a) + CleanOrigins(b)
    ensures |a| == 1 ==> CleanOrigins(a) == if PyStrip(a[0]) != "" then [PyStrip(a[0])] else []
  {
    if |a| > 0 {
      assert (a + b)[0] == a[0];
      assert (a + b)[1..] == a[1..] + b;
      CleanOriginsAppend(a[1..], b);
      if PyStrip(a[0]) != "" {
        AppendAssociative([PyStrip(a[0])], CleanOrigins(a[1..]), CleanOrigins(b));
      }
    } else {
      assert a + b == b;
    }
  }

  /** Every clean origin is one of the pieces, stripped. */
  lemma {:induction false} CleanOriginsFromPieces(parts: seq<string>)
    ensures forall o :: o in CleanOrigins(parts) ==> exists p :: p in parts && o == PyStrip(p)
  {
    if |parts| > 0 {
      CleanOriginsFromPieces(parts[1..]);
      var rest := CleanOrigins(parts[1..]);
      forall o | o in CleanOrigins(parts) ensures exists p :: p in parts && o == PyStrip(p) {
        if o in rest {
          var p :| p in parts[1..] && o == PyStrip(p);
          assert p in parts;
        } else {
          assert o == PyStrip(parts[0]) && parts[0] in parts;
        }
      }
    }
  }

  /**
   * `ALLOW_ORIGIN` from the `ALLOW_ORIGINS` setting: `["*"]` for an empty
   * or `*` setting, otherwise the comma-separated origins, stripped, with
   * empty pieces dropped.
   */
  function AllowOrigin(setting: string): (origins: seq<string>)
    ensures setting == "" || setting == "*" ==> origins == ["*"]
    ensures setting != "" && setting != "*" ==> origins == CleanOrigins(Split(setting, ','))
    ensures setting != "" && setting != "*" ==>
      forall k :: 0 <= k < |origins| ==> CleanOrigin(origins[k]) && ',' !in origins[k]
  {
    if setting != "" && setting != "*" then
      var parts := Split(setting, ',');
      var r := CleanOrigins(parts);
      CleanOriginsFromPieces(parts);
      forall k | 0 <= k < |r| ensures ',' !in r[k] {
        assert r[k] in r;
        var p :| p in parts && r[k] == PyStrip(p);
        StripMembers(p, IsPySpace);
      }
      r
    else ["*"]
  }

  /** Clean origins pass through the comprehension unchanged. */
  lemma {:induction false} CleanOriginsKeepsClean(os: seq<string>)
    requires forall o :: o in os ==> CleanOrigin(o)
    ensures CleanOrigins(os) == os
  {
    if |os| > 0 {
      var head, tail := os[0], os[1..];
      assert PyStrip(head) == head by {
        assert head in os;
        StripUnpadded(head, IsPySpace);
      }
      assert forall o :: o in tail ==> o in os;
      assert CleanOrigins(os) == [head] + CleanOrigins(tail);
      CleanOriginsKeepsClean(tail);
      HeadTail(os);
    }
  }

  /** A joined list is at least as long as its first piece. */
  lemma JoinStartsWithFirst(parts: seq<string>, sep: string)
    requires |parts| >= 1
    ensures |Join(parts, sep)| >= |parts[0]|
    ensures |parts| >= 2 ==> |Join(parts, sep)| >= |parts[0]| + |sep|
  {
  }

  /** A comma-joined list of non-empty origins is neither empty nor the wildcard, unless it is the wildcard alone. */
  lemma JoinedSettingIsList(os: seq<string>)
    requires |os| >= 1 && os != ["*"]
    requires forall k :: 0 <= k < |os| ==> os[k] != ""
    ensures Join(os, ",") != "" && Join(os, ",") != "*"
  {
    JoinStartsWithFirst(os, ",");
    if |os| == 1 {
      assert Join(os, ",") == os[0];
      assert os == [os[0]];
    }
  }

  /**
   * Writing a list of clean origins comma-separated into the setting gives
   * back exactly that list.
   */
  lemma AllowOriginRoundTrip(os: seq<string>)
    requires |os| >= 1 && os != ["*"]
    requires forall k :: 0 <= k < |os| ==> CleanOrigin(os[k]) && ',' !in os[k]
    ensures AllowOrigin(Join(os, ",")) == os
  {
    JoinedSettingIsList(os);
    assert [','] == ",";
    SplitJoin(os, ',');
    CleanOriginsKeepsClean(os);
  }

  /** A setting made only of commas and blanks allows no origin at all, not every origin. */
  lemma BlankPiecesAllowNothing()
    ensures AllowOrigin(" , ") == []
  {
    assert Split(" , ", ',') == [" ", " "];
    assert PyStrip(" ") == "";
  }

  // ------------------------------------------------------------------ JWKS

  /** One public key of the Cognito key set. */
  datatype Jwk = Jwk(kid: string, material: string)

  /** The Cognito settings the module reads. */
  datatype CognitoConfig = CognitoConfig(clientId: string, userPoolId: string, region: string)

  /** Cognito is set up: both the client id and the user pool id are non-empty. */
  predicate Configured(config: CognitoConfig) {
    config.clientId != "" && config.userPoolId != ""
  }

  /** `JWKS_URL`: the pool's `jwks.json` address, set only when Cognito is set up. */
  function JwksUrl(config: CognitoConfig): (url: Option<string>)
    ensures url.Some? <==> Configured(config)
    ensures url.Some? ==> EndsWith(url.value, "/.well-known/jwks.json")
    ensures url.Some? ==>
      var pool := "https://cognito-idp." + config.region + ".amazonaws.com/" + config.userPoolId;
      StartsWith(url.value, pool) && |url.value| == |pool| + |"/.well-known/jwks.json"|
  {
    if Configured(config) then
      var prefix := "https://cognito-idp." + config.region + ".amazonaws.com/" + config.userPoolId;
      var url := prefix + "/.well-known/jwks.json";
      assert url[|url| - |"/.well-known/jwks.json"|..] == "/.well-known/jwks.json";
      Some(url)
    else None
  }

  /** Why `get_jwks` fails: its own `HTTPException`, or the download's error. */
  datatype JwksFailure = ConfigMissing(error: HttpError) | DownloadFailed(message: string)

  /** The module-level `_jwks` cache, with a count of downloads. */
  class JwksCache {
    var jwks: Option<seq<Jwk>>
    var fetches: nat

    /** Nothing cached at start-up. */
    constructor ()
      ensures jwks.None? && fetches == 0
    {
      jwks := None;
      fetches := 0;
    }

    /**
     * `get_jwks`: 500 without a JWKS address; otherwise the cached key set,
     * downloaded on first use only.  `download` is the HTTP answer for an
     * address: the key set, or the error `raise_for_status` raises.  A
     * failed download leaves the cache empty.
     */
    method GetJwks(jwksUrl: Option<string>, download: string -> Result<seq<Jwk>, string>)
      returns (result: Result<seq<Jwk>, JwksFailure>)
      modifies this
      ensures jwksUrl.None? ==>
        result == Err(ConfigMissing(HttpError(500, "Cognito configuration not set up")))
        && jwks == old(jwks) && fetches == old(fetches)
      ensures jwksUrl.Some? && old(jwks).Some? ==>
        result == Ok(old(jwks).value) && jwks == old(jwks) && fetches == old(fetches)
      ensures jwksUrl.Some? && old(jwks).None? ==>
        && fetches == old(fetches) + 1
        && match download(jwksUrl.value)
           case Ok(keys) => result == Ok(keys) && jwks == Some(keys)
           case Err(m) => result == Err(DownloadFailed(m)) && jwks.None?
      ensures old(jwks).Some? ==> jwks == old(jwks)
    {
      if jwksUrl.None? {
        return Err(ConfigMissing(HttpError(500, "Cognito configuration not set up")));
      }
      if jwks.None? {
        fetches := fetches + 1;
        var resp := download(jwksUrl.value);
        if resp.Err? {
          return Err(DownloadFailed(resp.error));
        }
        jwks := Some(resp.value);
      }
      result := Ok(jwks.value);
    }
  }

  /** The key set `get_jwks` yields: the cached one, or the download's answer. */
  function KeysFor(cached: Option<seq<Jwk>>, url: string, download: string -> Result<seq<Jwk>, string>): Result<seq<Jwk>, string> {
    if cached.Some? then Ok(cached.value) else download(url)
  }

  /**
   * However many times the key set is asked for, it is downloaded at most
   * once while downloads succeed: two requests in a row cost one download.
   */
  method GetJwksTwice(cache: JwksCache, jwksUrl: Option<string>, download: string -> Result<seq<Jwk>, string>)
    returns (first: Result<seq<Jwk>, JwksFailure>, second: Result<seq<Jwk>, JwksFailure>)
    modifies cache
    ensures cache.fetches <= old(cache.fetches) + 1 || (first.Err? && second.Err?)
    ensures first.Ok? ==> second == first
  {
    first := cache.GetJwks(jwksUrl, download);
    second := cache.GetJwks(jwksUrl, download);
  }

  /** The `next(...)` over `jwks["keys"]`: the position of the first key with the kid, or -1. */
  function KeyIndex(keys: seq<Jwk>, kid: string): (i: int)
    ensures -1 <= i < |keys|
    ensures i == -1 <==> forall j :: 0 <= j < |keys| ==> keys[j].kid != kid
    ensures 0 <= i ==> keys[i].kid == kid && forall j :: 0 <= j < i ==> keys[j].kid != kid
  {
    if |keys| == 0 then -1
    else if keys[0].kid == kid then 0
    else
      var j := KeyIndex(keys[1..], kid);
      assert forall k :: 0 < k < |keys| ==> keys[k] == keys[1..][k - 1];
      if j == -1 then -1 else j + 1
  }

  // -------------------------------------------------------- verification

  /** The claims of a token: its string claims and its `exp` claim. */
  datatype Claims = Claims(fields: map<string, string>, exp: Option<int>)

  /**
   * What `jose` answers: the `kid` of a token's unverified header (or the
   * header's parse error), the verified claims for a token and key (or the
   * verification error), and the unverified claims (`None` where the token
   * cannot be read).
   */
  datatype Jose = Jose(
    headerKid: string -> Result<Option<string>, string>,
    decode: (string, Jwk) -> Result<Claims, string>,
    unverifiedClaims: string -> Option<Claims>)

  /** The 401 every failure inside `verify_cognito_jwt`'s `try` becomes. */
  function ValidationError(message: string): HttpError {
    HttpError(401, "Token validation error: " + message)
  }

  /**
   * `verify_cognito_jwt` once the key set is known: 500 without Cognito;
   * otherwise a failed key download, a missing `kid`, a `kid` with no key
   * and a failed decode all give 401, and success gives the claims.
   */
  function Verify(config: CognitoConfig, keys: Result<seq<Jwk>, string>, token: string, jose: Jose): (r: Result<Claims, HttpError>)
    ensures !Configured(config) ==> r == Err(HttpError(500, "Cognito configuration not set up"))
    ensures Configured(config) && r.Err? ==> r.error.status == 401
    ensures r.Ok? ==>
      && keys.Ok? && jose.headerKid(token).Ok? && Truthy(jose.headerKid(token).value)
      && var kid := jose.headerKid(token).value.value;
      && 0 <= KeyIndex(keys.value, kid)
      && jose.decode(token, keys.value[KeyIndex(keys.value, kid)]) == Ok(r.value)
    ensures Configured(config) && keys.Ok? && jose.headerKid(token).Ok? && Truthy(jose.headerKid(token).value) ==>
      var kid := jose.headerKid(token).value.value;
      var i := KeyIndex(keys.value, kid);
      0 <= i && jose.decode(token, keys.value[i]).Ok? ==> r == Ok(jose.decode(token, keys.value[i]).value)
  {
    if !Configured(config) then Err(HttpError(500, "Cognito configuration not set up"))
    else if keys.Err? then Err(ValidationError(keys.error))
    else if jose.headerKid(token).Err? then Err(ValidationError(jose.headerKid(token).error))
    else if !Truthy(jose.headerKid(token).value) then Err(ValidationError("Token missing 'kid' header."))
    else
      var i := KeyIndex(keys.value, jose.headerKid(token).value.value);
      if i == -1 then Err(ValidationError("Public key not found for the given 'kid'."))
      else match jose.decode(token, keys.value[i])
        case Err(m) => Err(ValidationError(m))
        case Ok(claims) => Ok(claims)
  }

  /** A token whose `kid` matches no key is refused with 401, whatever it decodes to. */
  lemma UnknownKidRejected(config: CognitoConfig, keys: seq<Jwk>, token: string, jose: Jose, kid: string)
    requires Configured(config)
    requires kid != "" && jose.headerKid(token) == Ok(Some(kid))
    requires forall j :: 0 <= j < |keys| ==> keys[j].kid != kid
    ensures Verify(config, Ok(keys), token, jose) == Err(ValidationError("Public key not found for the given 'kid'."))
  {
  }

  /** The download error's text as `str(e)` shows it. */
  function FailureMessage(f: JwksFailure): string {
    match f
    case ConfigMissing(e) => IntString(e.status) + ": " + e.detail
    case DownloadFailed(m) => m
  }

  /**
   * `verify_cognito_jwt`: checks the Cognito settings, obtains the key set
   * through the cache, and verifies the token against the key its header
   * names.
   */
  method VerifyCognitoJwt(cache: JwksCache, config: CognitoConfig, token: string, jose: Jose,
                          download: string -> Result<seq<Jwk>, string>)
    returns (result: Result<Claims, HttpError>)
    modifies cache
    ensures !Configured(config) ==> cache.jwks == old(cache.jwks) && cache.fetches == old(cache.fetches)
    ensures result == Verify(config, KeysFor(old(cache.jwks), JwksUrl(config).GetOr(""), download), token, jose)
  {
    if !Configured(config) {
      return Err(HttpError(500, "Cognito configuration not set up"));
    }
    var jwks := cache.GetJwks(JwksUrl(config), download);
    if jwks.Err? {
      return Err(ValidationError(FailureMessage(jwks.error)));
    }
    var headers := jose.headerKid(token);
    if headers.Err? {
      return Err(ValidationError(headers.error));
    }
    var kid := headers.value;
    if !Truthy(kid) {
      return Err(ValidationError("Token missing 'kid' header."));
    }
    var i := KeyIndex(jwks.value, kid.value);
    if i == -1 {
      return Err(ValidationError("Public key not found for the given 'kid'."));
    }
    var payload := jose.decode(token, jwks.value[i]);
    if payload.Err? {
      return Err(ValidationError(payload.error));
    }
    result := Ok(payload.value);
  }

  // ------------------------------------------------------------ blacklist

  /** One blacklist record: logout time, expiry timestamp and token type. */
  datatype BlacklistEntry = BlacklistEntry(logoutTime: string, expiresAt: int, tokenType: string)

  /** `decoded.get("jti", token)`: the `jti` claim, or the raw token without one. */
  function JtiOf(token: string, claims: Claims): string {
    if "jti" in claims.fields then claims.fields["jti"] else token
  }

  /** The stored expiry: a truthy `exp` claim, else now plus `expires_in` seconds. */
  function ExpiresAt(claims: Claims, now: int, expiresIn: int): (t: int)
    ensures claims.exp.Some? && claims.exp.value != 0 ==> t == claims.exp.value
    ensures (claims.exp.None? || claims.exp.value == 0) ==> t == now + expiresIn
  {
    if claims.exp.Some? && claims.exp.value != 0 then claims.exp.value else now + expiresIn
  }

  /** The `query` on `token_jti`: the records stored under the jti. */
  function QueryJti(entries: map<string, BlacklistEntry>, jti: string): (items: seq<BlacklistEntry>)
    ensures items == [] <==> jti !in entries
    ensures forall e :: e in items ==> jti in entries && e == entries[jti]
  {
    if jti in entries then [entries[jti]] else []
  }

  /**
   * `is_token_blacklisted`: false when the token cannot be read, when there
   * is no table or when nothing is stored under its jti; otherwise, with a
   * (truthy) type, whether a record has that type, and true without one.
   */
  function Blacklisted(tableConfigured: bool, entries: map<string, BlacklistEntry>, token: string,
                       tokenType: Option<string>, unverifiedClaims: string -> Option<Claims>): (b: bool)
    ensures b ==> tableConfigured && unverifiedClaims(token).Some?
                  && JtiOf(token, unverifiedClaims(token).value) in entries
    ensures b && Truthy(tokenType) ==> entries[JtiOf(token, unverifiedClaims(token).value)].tokenType == tokenType.value
    ensures tableConfigured && unverifiedClaims(token).Some?
            && JtiOf(token, unverifiedClaims(token).value) in entries
            && (!Truthy(tokenType) || entries[JtiOf(token, unverifiedClaims(token).value)].tokenType == tokenType.value)
            ==> b
  {
    if unverifiedClaims(token).None? then false
    else if !tableConfigured then false
    else
      var items := QueryJti(entries, JtiOf(token, unverifiedClaims(token).value));
      if items == [] then false
      else if Truthy(tokenType) then
        assert items[0] in items;
        exists i :: 0 <= i < |items| && items[i].tokenType == tokenType.value
      else true
  }

  /**
   * The records after `blacklist_token`: the token's jti mapped to the
   * logout time, the expiry and the type, when the token can be read and
   * there is a table; unchanged otherwise.
   */
  function BlacklistPut(tableConfigured: bool, entries: map<string, BlacklistEntry>, token: string, expiresIn: int,
                        tokenType: string, unverifiedClaims: string -> Option<Claims>, now: int, nowIso: string)
    : (r: map<string, BlacklistEntry>)
    ensures unverifiedClaims(token).None? || !tableConfigured ==> r == entries
    ensures unverifiedClaims(token).Some? && tableConfigured ==>
      var jti := JtiOf(token, unverifiedClaims(token).value);
      && jti in r && r[jti].tokenType == tokenType && r[jti].logoutTime == nowIso
      && r[jti].expiresAt == ExpiresAt(unverifiedClaims(token).value, now, expiresIn)
      && forall j :: j != jti ==> (j in r <==> j in entries) && (j in r ==> r[j] == entries[j])
  {
    if unverifiedClaims(token).None? || !tableConfigured then entries
    else
      var claims := unverifiedClaims(token).value;
      entries[JtiOf(token, claims) := BlacklistEntry(nowIso, ExpiresAt(claims, now, expiresIn), tokenType)]
  }

  /** The blacklist table (`blacklist_token_db`), absent when not configured. */
  class BlacklistTable {
    const configured: bool
    var entries: map<string, BlacklistEntry>

    /** A table, present or not, with no records. */
    constructor (configured: bool)
      ensures this.configured == configured && entries == map[]
    {
      this.configured := configured;
      entries := map[];
    }

    /** `is_token_blacklisted` against this table. */
    function IsTokenBlacklisted(token: string, tokenType: Option<string>, unverifiedClaims: string -> Option<Claims>): bool
      reads this
    {
      Blacklisted(configured, entries, token, tokenType, unverifiedClaims)
    }

    /**
     * `blacklist_token`: records the token's jti with the logout time, its
     * expiry and its type.  Nothing happens when the token cannot be read or
     * there is no table; errors are swallowed.  `now` is the current Unix
     * time in whole seconds and `nowIso` its ISO form.
     */
    method BlacklistToken(token: string, expiresIn: int, tokenType: string,
                          unverifiedClaims: string -> Option<Claims>, now: int, nowIso: string)
      modifies this
      ensures entries == BlacklistPut(configured, old(entries), token, expiresIn, tokenType, unverifiedClaims, now, nowIso)
    {
      var decoded := unverifiedClaims(token);
      if decoded.None? {
        return;
      }
      var jti := JtiOf(token, decoded.value);
      var expiresAt := ExpiresAt(decoded.value, now, expiresIn);
      if configured {
        entries := entries[jti := BlacklistEntry(nowIso, expiresAt, tokenType)];
      }
    }
  }

  /**
   * A token just blacklisted under a type is reported as blacklisted, both
   * for that type and for any type.
   */
  lemma BlacklistedAfterPut(entries: map<string, BlacklistEntry>, token: string, expiresIn: int, tokenType: string,
                            unverifiedClaims: string -> Option<Claims>, now: int, nowIso: string)
    requires unverifiedClaims(token).Some?
    ensures var e := BlacklistPut(true, entries, token, expiresIn, tokenType, unverifiedClaims, now, nowIso);
      Blacklisted(true, e, token, Some(tokenType), unverifiedClaims) && Blacklisted(true, e, token, None, unverifiedClaims)
  {
    var e := BlacklistPut(true, entries, token, expiresIn, tokenType, unverifiedClaims, now, nowIso);
    assert QueryJti(e, JtiOf(token, unverifiedClaims(token).value))[0].tokenType == tokenType;
  }

  /**
   * Records are typed: a token blacklisted as an access token is not
   * reported as a blacklisted refresh token.
   */
  lemma TypedBlacklist(entries: map<string, BlacklistEntry>, token: string, expiresIn: int,
                       unverifiedClaims: string -> Option<Claims>, now: int, nowIso: string)
    requires unverifiedClaims(token).Some?
    ensures var e := BlacklistPut(true, entries, token, expiresIn, "access", unverifiedClaims, now, nowIso);
      !Blacklisted(true, e, token, Some("refresh"), unverifiedClaims)
  {
  }

  /** Blacklisting one token never un-blacklists another: records are only added or replaced. */
  lemma PutKeepsBlacklisted(tableConfigured: bool, entries: map<string, BlacklistEntry>, token: string, expiresIn: int,
                            tokenType: string, unverifiedClaims: string -> Option<Claims>, now: int, nowIso: string, other: string)
    requires Blacklisted(tableConfigured, entries, other, None, unverifiedClaims)
    ensures Blacklisted(tableConfigured, BlacklistPut(tableConfigured, entries, token, expiresIn, tokenType, unverifiedClaims, now, nowIso),
                        other, None, unverifiedClaims)
  {
  }

  /** Without a table nothing is ever blacklisted. */
  lemma NoTableNoBlacklist(entries: map<string, BlacklistEntry>, token: string, tokenType: Option<string>,
                           unverifiedClaims: string -> Option<Claims>)
    ensures !Blacklisted(false, entries, token, tokenType, unverifiedClaims)
  {
  }

  // ------------------------------------------------------ current user

  /** The token `split(" ")[1]` takes from a `Bearer ` header, if the header has that form. */
  function HeaderToken(authHeader: Option<string>): (t: Option<string>)
    ensures t.Some? <==> Truthy(authHeader) && StartsWith(authHeader.value, "Bearer ")
    ensures t.Some? ==> ' ' !in t.value
  {
    if Truthy(authHeader) && StartsWith(authHeader.value, "Bearer ") then
      var auth := authHeader.value;
      var rest := auth[7..];
      assert auth == "Bearer" + [' '] + rest;
      SplitPrefix("Bearer", rest, ' ');
      Some(Split(auth, ' ')[1])
    else None
  }

  /**
   * The token `get_current_user` settles on: the header's when it is
   * truthy, else the `access_token` cookie; `None` when neither is truthy.
   */
  function RequestToken(authHeader: Option<string>, accessCookie: Option<string>): (t: Option<string>)
    ensures t.Some? ==> t.value != ""
    ensures Truthy(HeaderToken(authHeader)) ==> t == HeaderToken(authHeader)
    ensures !Truthy(HeaderToken(authHeader)) ==> t == if Truthy(accessCookie) then accessCookie else None
  {
    var token := HeaderToken(authHeader);
    if Truthy(token) then token
    else if Truthy(accessCookie) then accessCookie
    else None
  }

  /** A `Bearer ` header yields the first space-separated word after the prefix. */
  lemma HeaderTokenFirstWord(rest: string)
    ensures HeaderToken(Some("Bearer " + rest)) == Some(Split(rest, ' ')[0])
  {
    var auth := "Bearer " + rest;
    assert auth[..7] == "Bearer ";
    assert auth[7..] == rest;
    assert auth == "Bearer" + [' '] + rest;
    SplitPrefix("Bearer", rest, ' ');
  }

  /** `Bearer <t>` yields `t` when `t` is a single non-empty word, whatever the cookie holds. */
  lemma BearerHeaderPreferred(t: string, accessCookie: Option<string>)
    requires t != "" && ' ' !in t
    ensures RequestToken(Some("Bearer " + t), accessCookie) == Some(t)
  {
    HeaderTokenFirstWord(t);
    SplitWithoutSeparator(t, ' ');
  }

  /** A header of another form leaves the decision to the cookie. */
  lemma OtherHeaderUsesCookie(authHeader: Option<string>, accessCookie: Option<string>)
    requires !(Truthy(authHeader) && StartsWith(authHeader.value, "Bearer "))
    ensures RequestToken(authHeader, accessCookie) == if Truthy(accessCookie) then accessCookie else None
  {
  }

  /** Two spaces after `Bearer` give an empty first word, so the cookie is used instead. */
  lemma DoubleSpaceFallsBackToCookie()
    ensures RequestToken(Some("Bearer  x"), Some("c")) == Some("c")
  {
    assert "Bearer  x" == "Bearer " + " x";
    HeaderTokenFirstWord(" x");
    assert " x" == "" + [' '] + "x";
    SplitPrefix("", "x", ' ');
  }

  /**
   * `get_current_user`: 401 without a token, 401 for a blacklisted token
   * before any verification, otherwise the verified claims.
   */
  method GetCurrentUser(cache: JwksCache, blacklist: BlacklistTable, config: CognitoConfig,
                        authHeader: Option<string>, accessCookie: Option<string>, jose: Jose,
                        download: string -> Result<seq<Jwk>, string>)
    returns (result: Result<Claims, HttpError>)
    modifies cache
    ensures RequestToken(authHeader, accessCookie).None? ==>
      result == Err(HttpError(401, "Not authenticated. Missing Access Token."))
    ensures RequestToken(authHeader, accessCookie).Some?
            && blacklist.IsTokenBlacklisted(RequestToken(authHeader, accessCookie).value, None, jose.unverifiedClaims) ==>
      result == Err(HttpError(401, "Token has expired. Please log in again."))
    ensures RequestToken(authHeader, accessCookie).Some?
            && !blacklist.IsTokenBlacklisted(RequestToken(authHeader, accessCookie).value, None, jose.unverifiedClaims) ==>
      result == Verify(config, KeysFor(old(cache.jwks), JwksUrl(config).GetOr(""), download),
                       RequestToken(authHeader, accessCookie).value, jose)
    ensures result.Err? && result.error.detail != "Cognito configuration not set up" ==> result.error.status == 401
    ensures !(RequestToken(authHeader, accessCookie).Some?
              && !blacklist.IsTokenBlacklisted(RequestToken(authHeader, accessCookie).value, None, jose.unverifiedClaims)) ==>
      cache.jwks == old(cache.jwks) && cache.fetches == old(cache.fetches)
  {
    var token := RequestToken(authHeader, accessCookie);
    if token.None? {
      return Err(HttpError(401, "Not authenticated. Missing Access Token."));
    }
    if blacklist.IsTokenBlacklisted(token.value, None, jose.unverifiedClaims) {
      return Err(HttpError(401, "Token has expired. Please log in again."));
    }
    result := VerifyCognitoJwt(cache, config, token.value, jose, download);
  }

  // -------------------------------------------------------- token refresh

  /**
   * `generate_new_tokens`: `(None, None)` without an OAuth client or when
   * the exchange fails; otherwise the issued access token, and the issued
   * refresh token or, when none is issued, the one sent.  `exchange` is
   * Cognito's token response for a refresh token (`None` where it raises).
   */
  function GenerateNewTokens(refreshToken: string, oauthConfigured: bool, exchange: string -> Option<map<string, string>>)
    : (tokens: (Option<string>, Option<string>))
    ensures !oauthConfigured || exchange(refreshToken).None? ==> tokens == (None, None)
    ensures oauthConfigured && exchange(refreshToken).Some? ==>
      && tokens.1.Some?
      && (tokens.0.Some? <==> "access_token" in exchange(refreshToken).value)
      && ("access_token" in exchange(refreshToken).value ==> tokens.0 == Some(exchange(refreshToken).value["access_token"]))
      && ("refresh_token" in exchange(refreshToken).value ==> tokens.1 == Some(exchange(refreshToken).value["refresh_token"]))
      && ("refresh_token" !in exchange(refreshToken).value ==> tokens.1 == Some(refreshToken))
  {
    if !oauthConfigured then (None, None)
    else match exchange(refreshToken)
      case None => (None, None)
      case Some(data) =>
        var access := if "access_token" in data then Some(data["access_token"]) else None;
        var refresh := if "refresh_token" in data then data["refresh_token"] else refreshToken;
        (access, Some(refresh))
  }
}

=== FILE: field_editor.dfy ===
/**
 * The extracted-field editor of the review page (frontend
 * `pages/ReviewReceipt.jsx`): the Textract fields as a key-to-value map plus
 * the order in which they are listed, edited in place by the page's
 * handlers, and frozen once the receipt is approved.
 */
module FieldEditor {
  import opened Wrappers
  import opened Text
  import PyDict

  /** A field value: a string, or `undefined` (what a rename of a missing key stores). */
  datatype FieldValue = Undefined | Text(s: string)

  /**
   * The order after renaming `oldKey` to `newKey`: the first occurrence of
   * `oldKey` is replaced in place; without one, the order is unchanged.
   */
  function RenamedOrder(order: seq<string>, oldKey: string, newKey: string): (r: seq<string>)
    ensures |r| == |order|
    ensures oldKey !in order ==> r == order
    ensures oldKey in order ==>
      var i := IndexOf(order, oldKey);
      && r[i] == newKey
      && (forall j :: 0 <= j < |order| && j != i ==> r[j] == order[j])
  {
    var i := IndexOf(order, oldKey);
    if i == -1 then order else order[i := newKey]
  }

  /** `order.filter(k => k !== key)`. */
  function WithoutKey(order: seq<string>, key: string): (r: seq<string>)
    ensures key !in r
    ensures forall k :: k in r <==> k in order && k != key
    ensures |r| <= |order|
    ensures |order| == 1 ==> r == if order[0] == key then [] else order
  {
    if |order| == 0 then []
    else if order[0] == key then WithoutKey(order[1..], key)
    else [order[0]] + WithoutKey(order[1..], key)
  }

  /** The filter works key by key: with the one-key case, the other keys stay in their order, each as often as before. */
  lemma {:induction false} WithoutKeyAppend(a: seq<string>, b: seq<string>, key: string)
    ensures WithoutKey(a + b, key) == WithoutKey(a, key) + WithoutKey(b, key)
  {
    if |a| > 0 {
      assert (a + b)[0] == a[0];
      assert (a + b)[1..] == a[1..] + b;
      WithoutKeyAppend(a[1..], b, key);
      if a[0] != key {
        AppendAssociative([a[0]], WithoutKey(a[1..], key), WithoutKey(b, key));
      }
    } else {
      assert a + b == b;
    }
  }

  /** Removing a key the order does not hold changes nothing. */
  lemma {:induction false} WithoutAbsentKey(order: seq<string>, key: string)
    requires key !in order
    ensures WithoutKey(order, key) == order
  {
    if |order| > 0 {
      assert key !in order[1..];
      WithoutAbsentKey(order[1..], key);
    }
  }

  /** The name `handleAddNewField` gives the new field: `new_field_<number of keys + 1>`. */
  function NewFieldKey(data: map<string, FieldValue>): (k: string)
    ensures StartsWith(k, "new_field_")
    ensures k == "new_field_" + Decimal(|data| + 1)
  {
    var k := "new_field_" + Decimal(|data| + 1);
    assert k[..|"new_field_"|] == "new_field_";
    k
  }

  /**
   * The keys that have a row on the page, in order: keys of the order whose
   * value is defined (a removed or `undefined` field is skipped).
   */
  function VisibleFields(order: seq<string>, data: map<string, FieldValue>): (r: seq<string>)
    ensures forall k :: k in r <==> k in order && k in data && data[k].Text?
    ensures |r| <= |order|
    ensures |order| == 1 ==> r == if order[0] in data && data[order[0]].Text? then order else []
  {
    if |order| == 0 then []
    else
      var rest := VisibleFields(order[1..], data);
      if order[0] in data && data[order[0]].Text? then [order[0]] + rest else rest
  }

  /** Rows are listed key by key: with the one-key case, the visible keys keep the order's order and repetitions. */
  lemma {:induction false} VisibleFieldsAppend(a: seq<string>, b: seq<string>, data: map<string, FieldValue>)
    ensures VisibleFields(a + b, data) == VisibleFields(a, data) + VisibleFields(b, data)
  {
    if |a| > 0 {
      assert (a + b)[0] == a[0];
      assert (a + b)[1..] == a[1..] + b;
      VisibleFieldsAppend(a[1..], b, data);
      if a[0] in data && data[a[0]].Text? {
        AppendAssociative([a[0]], VisibleFields(a[1..], data), VisibleFields(b, data));
      }
    } else {
      assert a + b == b;
    }
  }

  /** Every key of the map has a place in the order. */
  predicate Listed(data: map<string, FieldValue>, order: seq<string>) {
    forall k :: k in data ==> k in order
  }

  /** While every key is listed, every defined field has a row on the page. */
  lemma ListedFieldsAreVisible(data: map<string, FieldValue>, order: seq<string>, k: string)
    requires Listed(data, order)
    requires k in data && data[k].Text?
    ensures k in VisibleFields(order, data)
  {
  }

  /**
   * Renaming a listed key and renaming it back restores map and order,
   * provided the intermediate name was not in use.
   */
  lemma RenameRoundTrip(data: map<string, FieldValue>, order: seq<string>, a: string, b: string)
    requires a in data && a in order
    requires b !in data && b !in order && a != b
    ensures var d1 := (data - {a})[b := data[a]];
      && (d1 - {b})[a := d1[b]] == data
      && RenamedOrder(RenamedOrder(order, a, b), b, a) == order
  {
    var i := IndexOf(order, a);
    var o1 := RenamedOrder(order, a, b);
    assert b in o1;
    forall j | 0 <= j < |o1| && j != i
      ensures o1[j] != b
    {
      assert o1[j] == order[j];
    }
    var i' := IndexOf(o1, b);
    assert i' == i;
    var o2 := RenamedOrder(o1, b, a);
    assert |o2| == |order|;
    forall j | 0 <= j < |order|
      ensures o2[j] == order[j]
    {
    }
  }

  /**
   * The fields a receipt arrives with: the JSON object's entries, in order.
   * Each key holds the value of its last entry, as when the object is parsed.
   */
  function LoadedData(fields: PyDict.Dict): (m: map<string, FieldValue>)
    ensures forall k :: k in m <==> k in PyDict.Keys(fields)
    ensures forall i :: 0 <= i < |fields| && LastEntry(fields, i) ==> m[fields[i].0] == Text(fields[i].1)
  {
    if |fields| == 0 then map[]
    else
      var init := fields[..|fields| - 1];
      var rest := LoadedData(init);
      var last := fields[|fields| - 1];
      assert PyDict.Keys(fields) == PyDict.Keys(init) + [last.0];
      var m := rest[last.0 := Text(last.1)];
      assert forall i :: 0 <= i < |fields| && LastEntry(fields, i) ==> m[fields[i].0] == Text(fields[i].1) by {
        forall i | 0 <= i < |fields| - 1 && LastEntry(fields, i)
          ensures m[fields[i].0] == Text(fields[i].1)
        {
          assert fields[i] == init[i] && fields[i].0 != last.0;
          assert LastEntry(init, i);
        }
      }
      m
  }

  /** No later entry of `fields` has the key of entry `i`. */
  predicate LastEntry(fields: PyDict.Dict, i: int)
    requires 0 <= i < |fields|
  {
    forall j :: i < j < |fields| ==> fields[j].0 != fields[i].0
  }

  /** The review page's editing state. */
  class ReviewPage {
    /** `receipt?.receipt_status`: `None` before a receipt has loaded. */
    var receiptStatus: Option<string>
    var data: map<string, FieldValue>
    var order: seq<string>
    var editingKey: Option<string>
    var editingKeyValue: string
    var newStatus: Option<string>
    var statusChanged: bool
    var showRejectWarning: bool

    /** The initial state: no receipt, no fields, nothing being edited. */
    constructor ()
      ensures receiptStatus.None? && data == map[] && order == []
      ensures editingKey.None? && editingKeyValue == "" && newStatus.None? && !statusChanged && !showRejectWarning
    {
      receiptStatus := None;
      data := map[];
      order := [];
      editingKey := None;
      editingKeyValue := "";
      newStatus := None;
      statusChanged := false;
      showRejectWarning := false;
    }

    /** `isReadOnly`: the loaded receipt is approved. */
    predicate IsReadOnly()
      reads this
    {
      receiptStatus == Some("approved")
    }

    /**
     * The details load: the receipt's status and its Textract fields (an
     * absent `textract_data` counts as empty); the order is the object's key order.
     */
    method Load(status: Option<string>, fields: Option<PyDict.Dict>)
      requires fields.Some? ==> PyDict.DistinctKeys(fields.value)
      modifies this
      ensures receiptStatus == status
      ensures data == LoadedData(fields.GetOr([]))
      ensures order == PyDict.Keys(fields.GetOr([]))
      ensures Listed(data, order)
      ensures editingKey == old(editingKey) && editingKeyValue == old(editingKeyValue)
      ensures newStatus == old(newStatus) && statusChanged == old(statusChanged)
      ensures showRejectWarning == old(showRejectWarning)
    {
      receiptStatus := status;
      var textract := fields.GetOr([]);
      data := LoadedData(textract);
      order := PyDict.Keys(textract);
    }

    /**
     * `handleTextractDataChange(oldKey, newKey, value)`: with equal keys the
     * value is replaced; otherwise `oldKey` is dropped, `value` stored under
     * `newKey`, and `newKey` takes `oldKey`'s place in the order.  Nothing
     * happens on an approved receipt.
     */
    method ChangeField(oldKey: string, newKey: string, value: FieldValue)
      modifies this
      ensures old(IsReadOnly()) ==> data == old(data) && order == old(order)
      ensures !old(IsReadOnly()) && oldKey == newKey ==> data == old(data)[newKey := value] && order == old(order)
      ensures !old(IsReadOnly()) && oldKey != newKey ==>
        data == (old(data) - {oldKey})[newKey := value] && order == RenamedOrder(old(order), oldKey, newKey)
      ensures old(Listed(data, order)) && oldKey in old(order) ==> Listed(data, order)
      ensures receiptStatus == old(receiptStatus) && editingKey == old(editingKey)
      ensures editingKeyValue == old(editingKeyValue) && newStatus == old(newStatus)
      ensures statusChanged == old(statusChanged) && showRejectWarning == old(showRejectWarning)
    {
      if IsReadOnly() {
        return;
      }
      if oldKey != newKey {
        data := (data - {oldKey})[newKey := value];
        var index := IndexOf(order, oldKey);
        if index != -1 {
          order := order[index := newKey];
        }
      } else {
        data := data[newKey := value];
      }
      if old(Listed(data, order)) && oldKey in old(order) && oldKey != newKey {
        var index := IndexOf(old(order), oldKey);
        assert order == old(order)[index := newKey];
        forall k | k in data
          ensures k in order
        {
          if k == newKey {
            assert order[index] == newKey;
          } else {
            assert k in old(data) && k != oldKey;
            var j :| 0 <= j < |old(order)| && old(order)[j] == k;
            assert j != index;
            assert order[j] == k;
          }
        }
      }
    }

    /**
     * `handleAddNewField()`: a field named after the current key count, with
     * value `''`, appended to the order.  The name is not checked against the
     * existing keys.
     */
    method AddField() returns (newKey: string)
      modifies this
      ensures old(IsReadOnly()) ==> data == old(data) && order == old(order)
      ensures !old(IsReadOnly()) ==>
        && newKey == NewFieldKey(old(data))
        && data == old(data)[newKey := Text("")]
        && order == old(order) + [newKey]
      ensures old(Listed(data, order)) ==> Listed(data, order)
      ensures receiptStatus == old(receiptStatus) && editingKey == old(editingKey)
      ensures editingKeyValue == old(editingKeyValue) && newStatus == old(newStatus)
      ensures statusChanged == old(statusChanged) && showRejectWarning == old(showRejectWarning)
    {
      newKey := NewFieldKey(data);
      if IsReadOnly() {
        return;
      }
      data := data[newKey := Text("")];
      order := order + [newKey];
    }

    /** `handleRemoveField(key)`: the key leaves the map and every occurrence leaves the order. */
    method RemoveField(key: string)
      modifies this
      ensures old(IsReadOnly()) ==> data == old(data) && order == old(order)
      ensures !old(IsReadOnly()) ==> data == old(data) - {key} && order == WithoutKey(old(order), key)
      ensures old(Listed(data, order)) ==> Listed(data, order)
      ensures receiptStatus == old(receiptStatus) && editingKey == old(editingKey)
      ensures editingKeyValue == old(editingKeyValue) && newStatus == old(newStatus)
      ensures statusChanged == old(statusChanged) && showRejectWarning == old(showRejectWarning)
    {
      if IsReadOnly() {
        return;
      }
      data := data - {key};
      order := WithoutKey(order, key);
    }

    /** `handleKeyEdit(key)`: start editing the key's name, prefilled with it. */
    method KeyEdit(key: string)
      modifies this
      ensures old(IsReadOnly()) ==> editingKey == old(editingKey) && editingKeyValue == old(editingKeyValue)
      ensures !old(IsReadOnly()) ==> editingKey == Some(key) && editingKeyValue == key
      ensures receiptStatus == old(receiptStatus) && data == old(data) && order == old(order)
      ensures newStatus == old(newStatus) && statusChanged == old(statusChanged)
      ensures showRejectWarning == old(showRejectWarning)
    {
      if IsReadOnly() {
        return;
      }
      editingKey := Some(key);
      editingKeyValue := key;
    }

    /**
     * `handleKeyEditComplete(oldKey)`: the typed name is trimmed; an empty
     * name renames nothing; a different name renames `oldKey` (its value, or
     * `undefined` when it has none, moves along).  Editing ends in both cases,
     * but an approved receipt is left entirely alone.
     */
    method KeyEditComplete(oldKey: string)
      modifies this
      ensures old(IsReadOnly()) ==>
        data == old(data) && order == old(order) && editingKey == old(editingKey) && editingKeyValue == old(editingKeyValue)
      ensures !old(IsReadOnly()) ==> editingKey.None? && editingKeyValue == ""
      ensures !old(IsReadOnly()) ==>
        var newKey := JsTrim(old(editingKeyValue));
        if newKey == "" || newKey == oldKey then data == old(data) && order == old(order)
        else
          && data == (old(data) - {oldKey})[newKey := if oldKey in old(data) then old(data)[oldKey] else Undefined]
          && order == RenamedOrder(old(order), oldKey, newKey)
      ensures receiptStatus == old(receiptStatus) && newStatus == old(newStatus)
      ensures statusChanged == old(statusChanged) && showRejectWarning == old(showRejectWarning)
    {
      if IsReadOnly() {
        return;
      }
      var newKey := JsTrim(editingKeyValue);
      if newKey == "" {
        editingKey := None;
        editingKeyValue := "";
        return;
      }
      if oldKey != newKey {
        var value := if oldKey in data then data[oldKey] else Undefined;
        ChangeField(oldKey, newKey, value);
      }
      editingKey := None;
      editingKeyValue := "";
    }

    /** `handleKeyEditCancel()`: stop editing; allowed even on an approved receipt. */
    method KeyEditCancel()
      modifies this
      ensures editingKey.None? && editingKeyValue == ""
      ensures receiptStatus == old(receiptStatus) && data == old(data) && order == old(order)
      ensures newStatus == old(newStatus) && statusChanged == old(statusChanged)
      ensures showRejectWarning == old(showRejectWarning)
    {
      editingKey := None;
      editingKeyValue := "";
    }

    /**
     * `handleStatusChange(status)`: `rejected` only raises the delete warning;
     * any other status becomes the pending new status.
     */
    method StatusChange(status: string)
      modifies this
      ensures old(IsReadOnly()) ==>
        newStatus == old(newStatus) && statusChanged == old(statusChanged) && showRejectWarning == old(showRejectWarning)
      ensures !old(IsReadOnly()) && status == "rejected" ==>
        showRejectWarning && newStatus == old(newStatus) && statusChanged == old(statusChanged)
      ensures !old(IsReadOnly()) && status != "rejected" ==>
        newStatus == Some(status) && statusChanged && showRejectWarning == old(showRejectWarning)
      ensures receiptStatus == old(receiptStatus) && data == old(data) && order == old(order)
      ensures editingKey == old(editingKey) && editingKeyValue == old(editingKeyValue)
    {
      if IsReadOnly() {
        return;
      }
      if status == "rejected" {
        showRejectWarning := true;
        return;
      }
      newStatus := Some(status);
      statusChanged := true;
    }
  }

  /**
   * The generated name can already be taken: with one field that is itself
   * called `new_field_2`, adding a field reuses that name and the existing
   * value is overwritten with `''`.
   */
  lemma NewFieldKeyCanCollide()
    ensures var data := map["new_field_2" := Text("12.50")];
      NewFieldKey(data) in data
  {
    var data := map["new_field_2" := Text("12.50")];
    assert |data| == 1;
    assert DigitChar(2) == '2';
    assert Decimal(2) == "2";
    assert NewFieldKey(data) == "new_field_" + "2" == "new_field_2";
  }

  /**
   * Renaming a field to a name already listed leaves that name twice in the
   * order (the page then renders the field twice) while the map holds it once.
   */
  lemma RenameOntoListedKeyDuplicates(order: seq<string>, a: string, b: string)
    requires a != b && a in order && b in order
    ensures var r := RenamedOrder(order, a, b);
      exists i, j :: 0 <= i < j < |r| && r[i] == b && r[j] == b
  {
    var r := RenamedOrder(order, a, b);
    var ia := IndexOf(order, a);
    var ib := IndexOf(order, b);
    assert r[ia] == b && r[ib] == b && ia != ib;
    if ia < ib {
      assert 0 <= ia < ib < |r| && r[ia] == b && r[ib] == b;
    } else {
      assert 0 <= ib < ia < |r| && r[ib] == b && r[ia] == b;
    }
  }
}

=== FILE: helpers.dfy ===
/**
 * `extract_total` in `helpers.py`: the receipt total read from the flattened
 * Textract fields by trying a fixed list of label candidates in priority
 * order.  Number parsing (`float(...)`) is a parameter: `parse` gives the
 * value or `None` where `float` raises.
 */
module Helpers {
  import opened Wrappers
  import opened Text
  import PyDict

  /** The label candidates, highest priority first. */
  const PossibleKeys: seq<string> :=
    ["Total to Pay", "TOTAL", "=TOTAL:", "Total", "VISA", "Net Subtotal", "SUBTOTAL"]

  /** `s.lower().replace(" ", "")`. */
  function Squash(s: string): (r: string)
    ensures ' ' !in r && |r| <= |s|
  {
    DropChar(Lower(s), ' ')
  }

  /**
   * Squashing works character by character: with the one-character case,
   * the result is the input's characters lower-cased, spaces left out, in
   * their order.
   */
  lemma SquashAppend(a: string, b: string)
    ensures Squash(a + b) == Squash(a) + Squash(b)
    ensures |a| == 1 ==> Squash(a) == if a[0] == ' ' then [] else [LowerChar(a[0])]
  {
    assert Lower(a + b) == Lower(a) + Lower(b);
    DropCharAppend(Lower(a), Lower(b), ' ');
  }

  /** A candidate matches a label when its squashed form occurs in the label's squashed form. */
  predicate KeyMatches(candidate: string, fieldLabel: string) {
    Contains(Squash(fieldLabel), Squash(candidate))
  }

  /** `value.replace("RM", "").replace("$", "").replace(":", "").replace(" ", "")`. */
  function CleanAmount(v: string): (r: string)
    ensures '$' !in r && ':' !in r && ' ' !in r
    ensures |r| <= |v|
  {
    DropChar(DropChar(DropChar(RemoveAll(v, "RM"), '$'), ':'), ' ')
  }

  /**
   * The cleaned value is the value with `RM` deleted as `RemoveAll` states
   * and then `$`, `:` and spaces removed as `DropEach` states.
   */
  lemma CleanAmountSteps(v: string)
    ensures CleanAmount(v) == DropEach(RemoveAll(v, "RM"), ['$', ':', ' '])
  {
    assert ['$', ':', ' '][..2] == ['$', ':'];
    assert ['$', ':', ' '][..2][..1] == ['$'];
  }

  /** The entry stops the search for `candidate`: its label matches and its cleaned value parses. */
  predicate Hit(candidate: string, entry: (string, string), parse: string -> Option<real>) {
    KeyMatches(candidate, entry.0) && parse(CleanAmount(entry.1)).Some?
  }

  /** The inner loop for one candidate: the value of the first hitting entry, in dict order. */
  function FirstHit(candidate: string, entries: PyDict.Dict, parse: string -> Option<real>): Option<real> {
    if |entries| == 0 then None
    else if Hit(candidate, entries[0], parse) then parse(CleanAmount(entries[0].1))
    else FirstHit(candidate, entries[1..], parse)
  }

  /**
   * `FirstHit` finds nothing exactly when no entry hits, and otherwise gives
   * the parsed value of the earliest entry that hits.
   */
  lemma {:induction false} FirstHitIsEarliest(candidate: string, entries: PyDict.Dict, parse: string -> Option<real>)
    ensures FirstHit(candidate, entries, parse).None? <==> forall j :: 0 <= j < |entries| ==> !Hit(candidate, entries[j], parse)
    ensures forall j :: 0 <= j < |entries| && Hit(candidate, entries[j], parse)
                        && (forall j' :: 0 <= j' < j ==> !Hit(candidate, entries[j'], parse)) ==>
                        FirstHit(candidate, entries, parse) == parse(CleanAmount(entries[j].1))
  {
    if |entries| > 0 {
      var rest := entries[1..];
      FirstHitIsEarliest(candidate, rest, parse);
      assert forall j :: 0 < j < |entries| ==> entries[j] == rest[j - 1];
      forall j | 0 <= j < |entries| && Hit(candidate, entries[j], parse)
                 && (forall j' :: 0 <= j' < j ==> !Hit(candidate, entries[j'], parse))
        ensures FirstHit(candidate, entries, parse) == parse(CleanAmount(entries[j].1))
      {
        if j > 0 {
          assert !Hit(candidate, entries[0], parse);
          assert Hit(candidate, rest[j - 1], parse);
          assert forall j' :: 0 <= j' < j - 1 ==> !Hit(candidate, rest[j'], parse);
        }
      }
    }
  }

  /** The outer loop: the first candidate, in priority order, that has a hit. */
  function FirstByPriority(candidates: seq<string>, entries: PyDict.Dict, parse: string -> Option<real>): Option<real> {
    if |candidates| == 0 then None
    else if FirstHit(candidates[0], entries, parse).Some? then FirstHit(candidates[0], entries, parse)
    else FirstByPriority(candidates[1..], entries, parse)
  }

  /**
   * Candidates are tried in priority order: the result is the hit of the
   * first candidate that has one, and nothing when none has.
   */
  lemma {:induction false} FirstByPriorityIsFirst(candidates: seq<string>, entries: PyDict.Dict, parse: string -> Option<real>)
    ensures FirstByPriority(candidates, entries, parse).None? <==>
      forall i :: 0 <= i < |candidates| ==> FirstHit(candidates[i], entries, parse).None?
    ensures forall i :: 0 <= i < |candidates| && FirstHit(candidates[i], entries, parse).Some?
                        && (forall i' :: 0 <= i' < i ==> FirstHit(candidates[i'], entries, parse).None?) ==>
                        FirstByPriority(candidates, entries, parse) == FirstHit(candidates[i], entries, parse)
  {
    if |candidates| > 0 {
      var rest := candidates[1..];
      FirstByPriorityIsFirst(rest, entries, parse);
      assert forall i :: 0 < i < |candidates| ==> candidates[i] == rest[i - 1];
      forall i | 0 <= i < |candidates| && FirstHit(candidates[i], entries, parse).Some?
                 && (forall i' :: 0 <= i' < i ==> FirstHit(candidates[i'], entries, parse).None?)
        ensures FirstByPriority(candidates, entries, parse) == FirstHit(candidates[i], entries, parse)
      {
        if i > 0 {
          assert FirstHit(candidates[0], entries, parse).None?;
          assert FirstHit(rest[i - 1], entries, parse).Some?;
          assert forall i' :: 0 <= i' < i - 1 ==> FirstHit(rest[i'], entries, parse).None?;
        }
      }
    }
  }

  /** What `extract_total` returns: the prioritised hit, or `0.0` when there is none. */
  function ExpectedTotal(data: PyDict.Dict, parse: string -> Option<real>): real {
    FirstByPriority(PossibleKeys, data, parse).GetOr(0.0)
  }

  /**
   * The inner loop of `extract_total` for one candidate: a matching label's
   * cleaned value is parsed, and the first value that parses is the answer.
   */
  method FindHit(key: string, data: PyDict.Dict, parse: string -> Option<real>) returns (hit: Option<real>)
    ensures hit == FirstHit(key, data, parse)
  {
    var j := 0;
    while j < |data|
      invariant 0 <= j <= |data|
      invariant FirstHit(key, data, parse) == FirstHit(key, data[j..], parse)
    {
      var k := data[j].0;
      if KeyMatches(key, k) {
        var value := CleanAmount(data[j].1);
        var parsed := parse(value);
        if parsed.Some? {
          assert data[j..][0] == data[j];
          return parsed;
        }
      }
      assert data[j..][0] == data[j] && data[j..][1..] == data[j + 1..];
      j := j + 1;
    }
    assert data[j..] == [];
    return None;
  }

  /**
   * `extract_total(textract_data)`: for each candidate in order, for each
   * label in dict order, a matching label's cleaned value is parsed and
   * returned at once; a value that does not parse continues the search.
   */
  method ExtractTotal(data: PyDict.Dict, parse: string -> Option<real>) returns (total: real)
    ensures total == ExpectedTotal(data, parse)
  {
    var i := 0;
    while i < |PossibleKeys|
      invariant 0 <= i <= |PossibleKeys|
      invariant FirstByPriority(PossibleKeys, data, parse) == FirstByPriority(PossibleKeys[i..], data, parse)
    {
      var key := PossibleKeys[i];
      var hit := FindHit(key, data, parse);
      assert PossibleKeys[i..][0] == key && PossibleKeys[i..][1..] == PossibleKeys[i + 1..];
      if hit.Some? {
        return hit.value;
      }
      i := i + 1;
    }
    return 0.0;
  }

  /** A needle longer than the haystack never occurs in it. */
  lemma {:induction false} ContainsNotLonger(hay: string, needle: string)
    ensures Contains(hay, needle) ==> |needle| <= |hay|
    decreases |hay|
  {
    if |hay| > 0 {
      ContainsNotLonger(hay[1..], needle);
    }
  }

  /** The squashed top-priority candidate contains a `p`. */
  lemma PInSquashedTotalToPay()
    ensures 'p' in Squash("Total to Pay")
  {
    assert Lower("Total to Pay")[9] == LowerChar('P') == 'p';
  }

  /** A label with no `p` or `P` squashes to a string without `p`. */
  lemma NoPInSquash(s: string)
    requires 'p' !in s && 'P' !in s
    ensures 'p' !in Squash(s)
  {
    assert forall k :: 0 <= k < |s| ==> Lower(s)[k] != 'p';
  }

  /** Every character of a contained needle occurs in the haystack. */
  lemma ContainsMembers(hay: string, needle: string, x: char)
    ensures Contains(hay, needle) && x in needle ==> x in hay
  {
    ContainsAt(hay, needle);
    if Contains(hay, needle) && x in needle {
      var i :| OccursAt(hay, needle, i);
      var k :| 0 <= k < |needle| && needle[k] == x;
      assert hay[i + k] == hay[i..i + |needle|][k];
    }
  }

  /** Squashing a `Subtotal` label. */
  lemma SquashSubtotal()
    ensures Squash("Subtotal") == "subtotal"
  {
    var l := Lower("Subtotal");
    assert l[0] == 's';
    assert l == "subtotal";
    DropCharAbsent("subtotal", ' ');
  }

  /** Squashing the `TOTAL` candidate. */
  lemma SquashTotal()
    ensures Squash("TOTAL") == "total"
  {
    var l := Lower("TOTAL");
    assert l[0] == 't' && l[1] == 'o' && l[2] == 't' && l[3] == 'a' && l[4] == 'l';
    assert l == "total";
    DropCharAbsent("total", ' ');
  }

  /** A label with no `p` or `P` never matches the top-priority candidate. */
  lemma TopCandidateNeedsP(fieldLabel: string)
    requires 'p' !in fieldLabel && 'P' !in fieldLabel
    ensures !KeyMatches("Total to Pay", fieldLabel)
  {
    PInSquashedTotalToPay();
    NoPInSquash(fieldLabel);
    ContainsMembers(Squash(fieldLabel), Squash("Total to Pay"), 'p');
  }

  /** Neither label of the example below matches the top-priority candidate. */
  lemma TopCandidateMissesExample()
    ensures !KeyMatches("Total to Pay", "Subtotal") && !KeyMatches("Total to Pay", "Total")
  {
    TopCandidateNeedsP("Subtotal");
    TopCandidateNeedsP("Total");
  }

  /** `TOTAL` matches a `Subtotal` label. */
  lemma TotalMatchesSubtotal()
    ensures KeyMatches("TOTAL", "Subtotal")
  {
    SquashSubtotal();
    SquashTotal();
    assert OccursAt("subtotal", "total", 3);
    ContainsAt("subtotal", "total");
  }

  /** A plain number is left alone by the cleaning. */
  lemma CleanPlainNumber()
    ensures CleanAmount("10") == "10"
  {
    assert RemoveAll("10", "RM") == "10";
    DropCharAbsent("10", ' ');
  }

  /**
   * The `TOTAL` candidate also matches a `Subtotal` label, so a subtotal
   * listed before the total is returned in its place.
   */
  lemma SubtotalShadowsTotal(parse: string -> Option<real>)
    requires parse("10").Some?
    ensures ExpectedTotal([("Subtotal", "10"), ("Total", "12")], parse) == parse("10").value
  {
    var data: PyDict.Dict := [("Subtotal", "10"), ("Total", "12")];
    TopCandidateMissesExample();
    TotalMatchesSubtotal();
    CleanPlainNumber();
    assert !Hit("Total to Pay", data[0], parse) && !Hit("Total to Pay", data[1], parse);
    assert Hit("TOTAL", data[0], parse);
    FirstHitIsEarliest("Total to Pay", data, parse);
    FirstHitIsEarliest("TOTAL", data, parse);
    FirstByPriorityIsFirst(PossibleKeys, data, parse);
    assert FirstByPriority(PossibleKeys, data, parse) == FirstHit(PossibleKeys[1], data, parse);
  }

  /**
   * `replace` deletes in a single left-to-right pass, so an `RM` that only
   * forms once an inner `RM` is gone survives the cleaning.
   */
  lemma CurrencyCleaningIsSinglePass()
    ensures CleanAmount("RRMM5") == "RM5"
  {
    assert RemoveAll("M5", "RM") == "M5";
    assert RemoveAll("RRMM5", "RM") == "R" + RemoveAll("RMM5", "RM");
    assert RemoveAll("RMM5", "RM") == RemoveAll("M5", "RM");
  }
}

=== FILE: pydict.dfy ===
/**
 * Python `dict[str, str]` as an association list in insertion order: the
 * order in which `.items()` and `.keys()` iterate matters to the backend
 * (the last matching key wins in the claims total, the first in
 * `extract_total`).
 */
module PyDict {
  import opened Wrappers

  type Dict = seq<(string, string)>

  /** No key occurs twice, as in every Python dict. */
  predicate DistinctKeys(d: Dict) {
    forall i, j :: 0 <= i < j < |d| ==> d[i].0 != d[j].0
  }

  /** `d.keys()` in iteration order. */
  function Keys(d: Dict): (ks: seq<string>)
    ensures |ks| == |d| && forall i :: 0 <= i < |d| ==> ks[i] == d[i].0
  {
    seq(|d|, i requires 0 <= i < |d| => d[i].0)
  }

  /** `d.get(k)`. */
  function Get(d: Dict, k: string): (v: Option<string>)
    ensures v.None? <==> k !in Keys(d)
    ensures v.Some? ==> (k, v.value) in d
  {
    if |d| == 0 then None
    else if d[0].0 == k then Some(d[0].1)
    else Get(d[1..], k)
  }

  /** `d[k] = v`: an existing key keeps its place and takes the new value; a new key goes last. */
  function Put(d: Dict, k: string, v: string): (r: Dict)
    ensures Keys(r) == if k in Keys(d) then Keys(d) else Keys(d) + [k]
  {
    if |d| == 0 then [(k, v)]
    else if d[0].0 == k then [(k, v)] + d[1..]
    else
      var rest := Put(d[1..], k, v);
      assert Keys(d) == [d[0].0] + Keys(d[1..]);
      assert Keys([d[0]] + rest) == [d[0].0] + Keys(rest);
      [d[0]] + rest
  }

  /** After `d[k] = v`, `k` maps to `v` and every other key keeps its value. */
  lemma {:induction false} PutGet(d: Dict, k: string, v: string, k': string)
    ensures Get(Put(d, k, v), k') == if k' == k then Some(v) else Get(d, k')
  {
    if |d| > 0 && d[0].0 != k {
      PutGet(d[1..], k, v, k');
    }
  }

  /** Assigning into a dict never creates a duplicate key. */
  lemma PutKeepsDistinct(d: Dict, k: string, v: string)
    requires DistinctKeys(d)
    ensures DistinctKeys(Put(d, k, v))
  {
    var r := Put(d, k, v);
    forall i, j | 0 <= i < j < |r| ensures r[i].0 != r[j].0 {
      assert Keys(r)[i] == r[i].0 && Keys(r)[j] == r[j].0;
      if k !in Keys(d) && j == |d| {
        assert r[i].0 == Keys(d)[i];
      }
    }
  }

  /** Every entry of `d[k] = v` was already in `d` or is the new pair. */
  lemma {:induction false} PutEntries(d: Dict, k: string, v: string)
    ensures forall e :: e in Put(d, k, v) ==> e in d || e == (k, v)
  {
    if |d| > 0 {
      assert forall e :: e in d[1..] ==> e in d;
      if d[0].0 != k {
        PutEntries(d[1..], k, v);
      }
    }
  }
}

=== FILE: receipt_store.dfy ===
/**
 * The receipts table as the backend sees it: DynamoDB items keyed by
 * (`receipt_username`, `receipt_id`).  The table is held as a sequence in
 * scan order; `get_item`, `put_item`, `delete_item` and the username scan
 * are the operations the handlers use.
 */
module ReceiptStore {
  import opened Wrappers
  import PyDict
  import Text

  /** One stored receipt; attributes a record may lack are `Option`s. */
  datatype ReceiptItem = ReceiptItem(
    username: string,
    receiptId: string,
    s3Path: Option<string>,
    filename: Option<string>,
    status: Option<string>,
    uploadDatetime: Option<string>,
    size: int,
    textractData: Option<PyDict.Dict>)

  /** `item` is stored under the key (`username`, `receiptId`). */
  predicate HasKey(item: ReceiptItem, username: string, receiptId: string) {
    item.username == username && item.receiptId == receiptId
  }

  /** The table's primary-key constraint: no key is stored twice. */
  predicate UniqueKeys(items: seq<ReceiptItem>) {
    forall i, j :: 0 <= i < j < |items| ==> !HasKey(items[j], items[i].username, items[i].receiptId)
  }

  /** `get_item(Key=...)`: the item stored under the key, if any. */
  function Lookup(items: seq<ReceiptItem>, username: string, receiptId: string): (r: Option<ReceiptItem>)
    ensures r.None? <==> forall i :: 0 <= i < |items| ==> !HasKey(items[i], username, receiptId)
    ensures r.Some? ==> r.value in items && HasKey(r.value, username, receiptId)
  {
    if |items| == 0 then None
    else if HasKey(items[0], username, receiptId) then Some(items[0])
    else Lookup(items[1..], username, receiptId)
  }

  /** The scan `receipt_username = :username`: the user's items in table order. */
  function UserItems(items: seq<ReceiptItem>, username: string): (r: seq<ReceiptItem>)
    ensures |r| <= |items|
    ensures forall x :: x in r <==> x in items && x.username == username
  {
    if |items| == 0 then []
    else if items[0].username == username then [items[0]] + UserItems(items[1..], username)
    else UserItems(items[1..], username)
  }

  /** The scan works item by item: with the one-item case, the user's items keep the table order, each once. */
  lemma {:induction false} UserItemsAppend(a: seq<ReceiptItem>, b: seq<ReceiptItem>, username: string)
    ensures UserItems(a + b, username) == UserItems(a, username) + UserItems(b, username)
    ensures |a| == 1 ==> UserItems(a, username) == if a[0].username == username then a else []
  {
    if |a| > 0 {
      assert (a + b)[0] == a[0];
      assert (a + b)[1..] == a[1..] + b;
      UserItemsAppend(a[1..], b, username);
      if a[0].username == username {
        Text.AppendAssociative([a[0]], UserItems(a[1..], username), UserItems(b, username));
      }
    } else {
      assert a + b == b;
    }
  }

  /** Looking up in a table with one more item at the front. */
  lemma LookupCons(x: ReceiptItem, rest: seq<ReceiptItem>, u: string, id: string)
    ensures Lookup([x] + rest, u, id) == if HasKey(x, u, id) then Some(x) else Lookup(rest, u, id)
  {
    assert ([x] + rest)[1..] == rest;
  }

  /** `put_item`: an item under an existing key replaces it in place; a new key is added at the end. */
  function Upsert(items: seq<ReceiptItem>, item: ReceiptItem): (r: seq<ReceiptItem>)
    ensures Lookup(r, item.username, item.receiptId) == Some(item)
    ensures forall u, id :: !(u == item.username && id == item.receiptId) ==> Lookup(r, u, id) == Lookup(items, u, id)
    ensures forall x :: x in r ==> x in items || x == item
  {
    if |items| == 0 then [item]
    else if HasKey(items[0], item.username, item.receiptId) then
      LookupCons(item, items[1..], item.username, item.receiptId);
      forall u, id | !(u == item.username && id == item.receiptId)
        ensures Lookup([item] + items[1..], u, id) == Lookup(items, u, id)
      {
        LookupCons(item, items[1..], u, id);
        LookupCons(items[0], items[1..], u, id);
        assert items == [items[0]] + items[1..];
      }
      [item] + items[1..]
    else
      var rest := Upsert(items[1..], item);
      forall u, id ensures Lookup([items[0]] + rest, u, id) == if HasKey(items[0], u, id) then Some(items[0]) else Lookup(rest, u, id) {
        LookupCons(items[0], rest, u, id);
      }
      forall u, id ensures Lookup(items, u, id) == if HasKey(items[0], u, id) then Some(items[0]) else Lookup(items[1..], u, id) {
        LookupCons(items[0], items[1..], u, id);
        assert items == [items[0]] + items[1..];
      }
      [items[0]] + rest
  }

  /** `delete_item`: the item under the key, if any, is gone and nothing else changes. */
  function Remove(items: seq<ReceiptItem>, username: string, receiptId: string): (r: seq<ReceiptItem>)
    ensures Lookup(r, username, receiptId).None?
    ensures forall u, id :: !(u == username && id == receiptId) ==> Lookup(r, u, id) == Lookup(items, u, id)
    ensures forall x :: x in r <==> x in items && !HasKey(x, username, receiptId)
  {
    if |items| == 0 then []
    else if HasKey(items[0], username, receiptId) then
      var rest := Remove(items[1..], username, receiptId);
      forall u, id | !(u == username && id == receiptId) ensures Lookup(rest, u, id) == Lookup(items, u, id) {
        LookupCons(items[0], items[1..], u, id);
        assert items == [items[0]] + items[1..];
      }
      assert forall x :: x in items <==> x == items[0] || x in items[1..];
      rest
    else
      var rest := Remove(items[1..], username, receiptId);
      forall u, id ensures Lookup([items[0]] + rest, u, id) == if HasKey(items[0], u, id) then Some(items[0]) else Lookup(rest, u, id) {
        LookupCons(items[0], rest, u, id);
      }
      forall u, id ensures Lookup(items, u, id) == if HasKey(items[0], u, id) then Some(items[0]) else Lookup(items[1..], u, id) {
        LookupCons(items[0], items[1..], u, id);
        assert items == [items[0]] + items[1..];
      }
      assert forall x :: x in items <==> x == items[0] || x in items[1..];
      [items[0]] + rest
  }

  /** A table with one more item at the front has unique keys exactly when its rest does and the item's key is new. */
  lemma UniqueKeysCons(x: ReceiptItem, rest: seq<ReceiptItem>)
    ensures UniqueKeys([x] + rest) <==>
      UniqueKeys(rest) && forall y :: y in rest ==> !HasKey(y, x.username, x.receiptId)
  {
    var s := [x] + rest;
    assert forall j :: 0 <= j < |rest| ==> s[j + 1] == rest[j];
    if UniqueKeys(s) {
      forall y | y in rest ensures !HasKey(y, x.username, x.receiptId) {
        var j :| 0 <= j < |rest| && rest[j] == y;
        assert s[0] == x && s[j + 1] == y;
        assert !HasKey(s[j + 1], s[0].username, s[0].receiptId);
      }
    }
  }

  /** `put_item` keeps keys unique. */
  lemma {:induction false} UpsertKeepsUniqueKeys(items: seq<ReceiptItem>, item: ReceiptItem)
    requires UniqueKeys(items)
    ensures UniqueKeys(Upsert(items, item))
  {
    if |items| > 0 {
      var tail := items[1..];
      assert items == [items[0]] + tail;
      UniqueKeysCons(items[0], tail);
      if HasKey(items[0], item.username, item.receiptId) {
        assert Upsert(items, item) == [item] + tail;
        UniqueKeysCons(item, tail);
      } else {
        UpsertKeepsUniqueKeys(tail, item);
        assert Upsert(items, item) == [items[0]] + Upsert(tail, item);
        UniqueKeysCons(items[0], Upsert(tail, item));
      }
    }
  }

  /** `delete_item` keeps keys unique. */
  lemma {:induction false} RemoveKeepsUniqueKeys(items: seq<ReceiptItem>, username: string, receiptId: string)
    requires UniqueKeys(items)
    ensures UniqueKeys(Remove(items, username, receiptId))
  {
    if |items| > 0 {
      var tail := items[1..];
      assert items == [items[0]] + tail;
      UniqueKeysCons(items[0], tail);
      RemoveKeepsUniqueKeys(tail, username, receiptId);
      if !HasKey(items[0], username, receiptId) {
        assert Remove(items, username, receiptId) == [items[0]] + Remove(tail, username, receiptId);
        UniqueKeysCons(items[0], Remove(tail, username, receiptId));
      }
    }
  }

  /**
   * A table without duplicate keys keeps that property through `put_item`
   * and `delete_item`.
   */
  lemma WritesKeepUniqueKeys(items: seq<ReceiptItem>, item: ReceiptItem, username: string, receiptId: string)
    requires UniqueKeys(items)
    ensures UniqueKeys(Upsert(items, item))
    ensures UniqueKeys(Remove(items, username, receiptId))
  {
    UpsertKeepsUniqueKeys(items, item);
    RemoveKeepsUniqueKeys(items, username, receiptId);
  }

  /** The DynamoDB receipts table, updated in place by the handlers. */
  class ReceiptTable {
    var items: seq<ReceiptItem>

    constructor (initial: seq<ReceiptItem>)
      ensures items == initial
    {
      items := initial;
    }

    /** `get_item` on this table. */
    function GetItem(username: string, receiptId: string): Option<ReceiptItem>
      reads this
    {
      Lookup(items, username, receiptId)
    }

    /** `put_item`. */
    method PutItem(item: ReceiptItem)
      modifies this
      ensures items == Upsert(old(items), item)
    {
      items := Upsert(items, item);
    }

    /** `delete_item`. */
    method DeleteItem(username: string, receiptId: string)
      modifies this
      ensures items == Remove(old(items), username, receiptId)
    {
      items := Remove(items, username, receiptId);
    }
  }
}

=== FILE: receipt_table.dfy ===
/**
 * The receipt table shown under the upload card (frontend
 * `components/ReceiptReview.jsx`): title-casing of field names, the size
 * column, the pagination window, the rows of the current page, and the
 * table state (rows, loading flag, error, open dropdown, current page) as
 * the listing load, the page buttons, the dropdown and the delete action
 * change it.
 */
module ReceiptTable {
  import opened Wrappers
  import opened Text
  import opened AuthClient
  import UploadList

  /** Rows per page (`ITEMS_PER_PAGE`). */
  const ItemsPerPage := 5
  /** Page buttons shown at most (`maxVisiblePages`). */
  const MaxVisiblePages := 5

  predicate IsAsciiUpper(c: char) {
    'A' <= c <= 'Z'
  }

  /** `str.replace(/([A-Z])/g, ' $1')`: a space before every capital letter. */
  function SpaceBeforeCapitals(s: string): (r: string)
    ensures DropChar(r, ' ') == DropChar(s, ' ')
    ensures forall i :: 0 <= i < |r| && IsAsciiUpper(r[i]) ==> 0 < i && r[i - 1] == ' '
    ensures |s| > 0 && !IsAsciiUpper(s[0]) ==> |r| > 0 && r[0] == s[0]
    ensures |s| == 1 ==> r == if IsAsciiUpper(s[0]) then [' '] + s else s
  {
    if |s| == 0 then []
    else
      var rest := SpaceBeforeCapitals(s[1..]);
      assert s == [s[0]] + s[1..];
      DropCharAppend([s[0]], s[1..], ' ');
      if IsAsciiUpper(s[0]) then
        DropCharAppend([' ', s[0]], rest, ' ');
        [' ', s[0]] + rest
      else
        DropCharAppend([s[0]], rest, ' ');
        [s[0]] + rest
  }

  /**
   * The replacement works character by character: with the one-character
   * case above, this fixes the result exactly, one space added before each
   * capital and nothing else changed.
   */
  lemma {:induction false} SpaceBeforeCapitalsAppend(a: string, b: string)
    ensures SpaceBeforeCapitals(a + b) == SpaceBeforeCapitals(a) + SpaceBeforeCapitals(b)
  {
    if |a| > 0 {
      var head := if IsAsciiUpper(a[0]) then [' ', a[0]] else [a[0]];
      assert (a + b)[0] == a[0];
      assert (a + b)[1..] == a[1..] + b;
      assert SpaceBeforeCapitals(a) == head + SpaceBeforeCapitals(a[1..]);
      assert SpaceBeforeCapitals(a + b) == head + SpaceBeforeCapitals(a[1..] + b);
      SpaceBeforeCapitalsAppend(a[1..], b);
      AppendAssociative(head, SpaceBeforeCapitals(a[1..]), SpaceBeforeCapitals(b));
    } else {
      assert a + b == b;
    }
  }

  /** The characters `.` does not match in a JavaScript regular expression. */
  predicate IsLineTerminator(c: char) {
    c == '\n' || c == '\r' || c == '\U{2028}' || c == '\U{2029}'
  }

  /** `str.replace(/^./, s => s.toUpperCase())`: the first character upper-cased, unless it ends a line. */
  function CapitalizeFirst(s: string): (r: string)
    ensures |r| == |s| && (|s| > 0 ==> r[1..] == s[1..])
    ensures |s| > 0 && !IsLineTerminator(s[0]) ==> r[0] == UpperChar(s[0])
    ensures |s| > 0 && IsLineTerminator(s[0]) ==> r[0] == s[0]
  {
    if |s| > 0 && !IsLineTerminator(s[0]) then [UpperChar(s[0])] + s[1..] else s
  }

  /**
   * `camelToTitle(str)`: `''` for a missing or empty name; otherwise a space
   * before each capital, the first character upper-cased, and the result trimmed.
   */
  function CamelToTitle(str: Option<string>): (r: string)
    ensures !Truthy(str) ==> r == ""
    ensures r == [] || (!IsJsSpace(r[0]) && !IsJsSpace(r[|r| - 1]))
  {
    if !Truthy(str) then "" else JsTrim(CapitalizeFirst(SpaceBeforeCapitals(str.value)))
  }

  /**
   * A camel-case name whose first letter is a lower-case ASCII letter comes
   * out starting with that letter upper-cased, and every capital in the
   * result is preceded by a space, except a first letter upper-cased here.
   */
  lemma CamelToTitleShape(s: string)
    requires |s| > 0 && 'a' <= s[0] <= 'z'
    ensures var r := CamelToTitle(Some(s));
      && |r| > 0 && r[0] == UpperChar(s[0])
      && forall i :: 0 < i < |r| && IsAsciiUpper(r[i]) ==> r[i - 1] == ' '
  {
    var spaced := SpaceBeforeCapitals(s);
    var cap := CapitalizeFirst(spaced);
    assert cap[0] == UpperChar(s[0]);
    assert !IsJsSpace(cap[0]);
    var r := JsTrim(cap);
    assert LeadingCount(cap, IsJsSpace) == 0;
    assert r != [] by {
      assert !IsJsSpace(cap[0]);
    }
    forall i | 0 < i < |r| && IsAsciiUpper(r[i])
      ensures r[i - 1] == ' '
    {
      assert r[i] == cap[i] && r[i - 1] == cap[i - 1];
      assert cap[i] == spaced[i];
      assert spaced[i - 1] == ' ';
      assert i - 1 != 0;
      assert cap[i - 1] == spaced[i - 1];
    }
  }

  /**
   * The size column (`formatFileSize` of the table): `'-'` (here `None`)
   * for a missing size, NaN or 0; otherwise the B / KB / MB choice.
   */
  function SizeColumn(bytes: Option<int>): (l: Option<UploadList.SizeLabel>)
    ensures l.None? <==> bytes.None? || bytes.value == 0
    ensures l.Some? ==> l.value == UploadList.FormatFileSize(bytes.value)
  {
    if bytes.None? || bytes.value == 0 then None else Some(UploadList.FormatFileSize(bytes.value))
  }

  /** The first and last page button `getPageNumbers` shows. */
  datatype Window = Window(first: int, last: int)

  function Max(a: int, b: int): int { if a >= b then a else b }
  function Min(a: int, b: int): int { if a <= b then a else b }

  /**
   * The window of page numbers: all pages when there are at most five;
   * otherwise five pages starting two before the current one, moved back
   * when that would run past the last page.
   */
  function PageWindow(currentPage: int, totalPages: int): Window {
    if totalPages <= MaxVisiblePages then Window(1, totalPages)
    else
      var start := Max(1, currentPage - MaxVisiblePages / 2);
      var end := Min(totalPages, start + MaxVisiblePages - 1);
      if end == totalPages then Window(Max(1, end - MaxVisiblePages + 1), end) else Window(start, end)
  }

  /** The integers `first..last`, ascending. */
  function Range(first: int, last: int): (r: seq<int>)
    ensures |r| == if last < first then 0 else last - first + 1
    ensures forall i :: 0 <= i < |r| ==> r[i] == first + i
  {
    if last < first then [] else seq(last - first + 1, i => first + i)
  }

  /**
   * With more than five pages the window is always five consecutive pages
   * inside `[1, totalPages]`, and it holds the current page whenever that is
   * a real page; with at most five pages it is every page.
   */
  lemma PageWindowShape(currentPage: int, totalPages: int)
    ensures totalPages <= MaxVisiblePages ==> Range(PageWindow(currentPage, totalPages).first,
                                                    PageWindow(currentPage, totalPages).last) == Range(1, totalPages)
    ensures totalPages > MaxVisiblePages ==>
      var w := PageWindow(currentPage, totalPages);
      && w.last - w.first + 1 == MaxVisiblePages
      && 1 <= w.first && w.last <= totalPages
      && (1 <= currentPage <= totalPages ==> w.first <= currentPage <= w.last)
  {
  }

  /** `Pagination.getPageNumbers()`: the page buttons, filled in by the source's loops. */
  method GetPageNumbers(currentPage: int, totalPages: int) returns (pages: seq<int>)
    ensures pages == Range(PageWindow(currentPage, totalPages).first, PageWindow(currentPage, totalPages).last)
  {
    pages := [];
    var start := 1;
    var end := totalPages;
    if totalPages > MaxVisiblePages {
      start := Max(1, currentPage - MaxVisiblePages / 2);
      end := Min(totalPages, start + MaxVisiblePages - 1);
      if end == totalPages {
        start := Max(1, end - MaxVisiblePages + 1);
      }
    }
    assert PageWindow(currentPage, totalPages) == Window(start, end);
    var i := start;
    while i <= end
      invariant start <= i <= Max(start, end + 1)
      invariant |pages| == i - start
      invariant forall j :: 0 <= j < |pages| ==> pages[j] == start + j
    {
      pages := pages + [i];
      i := i + 1;
    }
    var want := Range(start, end);
    assert |pages| == |want|;
    assert forall j :: 0 <= j < |pages| ==> pages[j] == want[j];
  }

  /** What `Pagination` renders: the page buttons and whether Previous / Next are disabled. */
  datatype PaginationView = PaginationView(pages: seq<int>, previousDisabled: bool, nextDisabled: bool)

  /** `Pagination(...)`: nothing with at most one page; otherwise the window and the two arrows. */
  method Pagination(currentPage: int, totalPages: int) returns (view: Option<PaginationView>)
    ensures view.None? <==> totalPages <= 1
    ensures view.Some? ==>
      && view.value.pages == Range(PageWindow(currentPage, totalPages).first, PageWindow(currentPage, totalPages).last)
      && (view.value.previousDisabled <==> currentPage == 1)
      && (view.value.nextDisabled <==> currentPage == totalPages)
  {
    if totalPages <= 1 {
      return None;
    }
    var pages := GetPageNumbers(currentPage, totalPages);
    return Some(PaginationView(pages, currentPage == 1, currentPage == totalPages));
  }

  /** `Math.ceil(n / 5)` for any integer `n` (Dafny's division by a positive number rounds down). */
  function TotalPages(n: int): (t: int)
    ensures ItemsPerPage * (t - 1) < n <= ItemsPerPage * t
  {
    -((-n) / ItemsPerPage)
  }

  /** JavaScript's `slice` index normalisation: negative counts from the end, then clamped. */
  function SliceIndex(i: int, len: nat): (k: nat)
    ensures k <= len
    ensures 0 <= i ==> k == Min(i, len)
  {
    if i < 0 then Max(len + i, 0) else Min(i, len)
  }

  /** `xs.slice(start, end)`. */
  function JsSlice<T>(xs: seq<T>, start: int, end: int): (r: seq<T>)
    ensures var a, b := SliceIndex(start, |xs|), SliceIndex(end, |xs|);
      r == if a < b then xs[a..b] else []
  {
    var a, b := SliceIndex(start, |xs|), SliceIndex(end, |xs|);
    if a < b then xs[a..b] else []
  }

  /** The rows on page `page` (`currentReceipts`). */
  function VisibleRows<T>(rows: seq<T>, page: int): seq<T> {
    var startIndex := (page - 1) * ItemsPerPage;
    JsSlice(rows, startIndex, startIndex + ItemsPerPage)
  }

  /** A page from 1 on shows rows `[(page - 1) * 5, page * 5)`, cut at the end of the list. */
  lemma VisibleRowsOfPage<T>(rows: seq<T>, page: int)
    requires page >= 1
    ensures var a := Min((page - 1) * ItemsPerPage, |rows|);
      && a <= Min(page * ItemsPerPage, |rows|)
      && VisibleRows(rows, page) == rows[a..Min(page * ItemsPerPage, |rows|)]
    ensures 1 <= page <= TotalPages(|rows|) ==> 1 <= |VisibleRows(rows, page)| <= ItemsPerPage
  {
  }

  /** Pages 1 to k, one after the other. */
  function PagesUpTo<T>(rows: seq<T>, k: nat): seq<T> {
    if k == 0 then [] else PagesUpTo(rows, k - 1) + VisibleRows(rows, k)
  }

  /** The first k pages are the first `5 * k` rows. */
  lemma {:induction false} PagesUpToPrefix<T>(rows: seq<T>, k: nat)
    ensures PagesUpTo(rows, k) == rows[..Min(k * ItemsPerPage, |rows|)]
  {
    if k > 0 {
      PagesUpToPrefix(rows, k - 1);
      VisibleRowsOfPage(rows, k);
      var a := Min((k - 1) * ItemsPerPage, |rows|);
      var b := Min(k * ItemsPerPage, |rows|);
      assert rows[..a] + rows[a..b] == rows[..b];
    }
  }

  /** Paging loses and repeats nothing: the pages 1..totalPages, read in order, are the whole list. */
  lemma PagesCoverRows<T>(rows: seq<T>)
    ensures PagesUpTo(rows, TotalPages(|rows|)) == rows
  {
    PagesUpToPrefix(rows, TotalPages(|rows|));
  }

  /** One receipt of the listing; the other columns are not read by the table's logic. */
  datatype Receipt = Receipt(receiptId: string, fileName: string, fileSize: Option<int>, status: string)

  /** What `res.json()` yields for the listing: an array of receipts, or some other JSON value. */
  datatype Payload = ReceiptArray(items: seq<Receipt>) | OtherJson

  /** `prevReceipts.filter(receipt => receipt.receipt_id !== receiptId)`. */
  function WithoutReceipt(rows: seq<Receipt>, receiptId: string): (r: seq<Receipt>)
    ensures forall x :: x in r <==> x in rows && x.receiptId != receiptId
    ensures |r| <= |rows|
    ensures |rows| == 1 ==> r == if rows[0].receiptId == receiptId then [] else rows
  {
    if |rows| == 0 then []
    else if rows[0].receiptId == receiptId then WithoutReceipt(rows[1..], receiptId)
    else [rows[0]] + WithoutReceipt(rows[1..], receiptId)
  }

  /** The filter works row by row: with the one-row case, the kept rows stay in their order, each once. */
  lemma {:induction false} WithoutReceiptAppend(a: seq<Receipt>, b: seq<Receipt>, receiptId: string)
    ensures WithoutReceipt(a + b, receiptId) == WithoutReceipt(a, receiptId) + WithoutReceipt(b, receiptId)
  {
    if |a| > 0 {
      assert (a + b)[0] == a[0];
      assert (a + b)[1..] == a[1..] + b;
      WithoutReceiptAppend(a[1..], b, receiptId);
      if a[0].receiptId != receiptId {
        AppendAssociative([a[0]], WithoutReceipt(a[1..], receiptId), WithoutReceipt(b, receiptId));
      }
    } else {
      assert a + b == b;
    }
  }

  predicate DistinctReceiptIds(rows: seq<Receipt>) {
    forall i, j :: 0 <= i < j < |rows| ==> rows[i].receiptId != rows[j].receiptId
  }

  /** With distinct ids, removing a listed id removes exactly one row. */
  lemma {:induction false} WithoutListedReceipt(rows: seq<Receipt>, receiptId: string)
    requires DistinctReceiptIds(rows)
    requires exists i :: 0 <= i < |rows| && rows[i].receiptId == receiptId
    ensures |WithoutReceipt(rows, receiptId)| == |rows| - 1
  {
    if rows[0].receiptId == receiptId {
      WithoutAbsentReceipt(rows[1..], receiptId);
    } else {
      var i :| 0 <= i < |rows| && rows[i].receiptId == receiptId;
      assert rows[1..][i - 1].receiptId == receiptId;
      WithoutListedReceipt(rows[1..], receiptId);
    }
  }

  /** Removing an id no row has changes nothing. */
  lemma {:induction false} WithoutAbsentReceipt(rows: seq<Receipt>, receiptId: string)
    requires forall i :: 0 <= i < |rows| ==> rows[i].receiptId != receiptId
    ensures WithoutReceipt(rows, receiptId) == rows
  {
    if |rows| > 0 {
      WithoutAbsentReceipt(rows[1..], receiptId);
    }
  }

  /** The page after a successful delete, computed from the row count BEFORE the delete. */
  function PageAfterDelete(currentPage: int, oldCount: int): (p: int)
    ensures var t := TotalPages(oldCount - 1);
      p == if currentPage > t && t > 0 then t else currentPage
  {
    var newTotalPages := TotalPages(oldCount - 1);
    if currentPage > newTotalPages && newTotalPages > 0 then newTotalPages else currentPage
  }

  /**
   * Deleting one listed receipt from a valid page leaves a valid page of the
   * shorter list (when any rows are left): an emptied last page moves back
   * by one and every other page stays.
   */
  lemma DeleteKeepsPageValid(rows: seq<Receipt>, receiptId: string, currentPage: int)
    requires DistinctReceiptIds(rows)
    requires exists i :: 0 <= i < |rows| && rows[i].receiptId == receiptId
    requires 1 <= currentPage <= TotalPages(|rows|)
    ensures var rest := WithoutReceipt(rows, receiptId);
      |rest| > 0 ==> 1 <= PageAfterDelete(currentPage, |rows|) <= TotalPages(|rest|)
    ensures var p := PageAfterDelete(currentPage, |rows|); p == currentPage || p == currentPage - 1
  {
    WithoutListedReceipt(rows, receiptId);
  }

  /** The listing request's answer: a status and the parsed body (`None` when it is not JSON), or a network failure. */
  datatype ListingOutcome = ListingNetworkError | ListingResponse(status: int, body: Option<Payload>)

  const FetchErrorMessage := "Failed to fetch receipts"

  /** The state of `ReceiptReviewTable`. */
  class TableState {
    var receipts: seq<Receipt>
    var loading: bool
    var error: Option<string>
    var openDropdownId: Option<string>
    var deletingReceiptId: Option<string>
    var currentPage: int

    /** The initial state: no rows, loading, page 1. */
    constructor ()
      ensures receipts == [] && loading && error.None? && openDropdownId.None? && deletingReceiptId.None?
      ensures currentPage == 1
    {
      receipts := [];
      loading := true;
      error := None;
      openDropdownId := None;
      deletingReceiptId := None;
      currentPage := 1;
    }

    /**
     * The listing effect: one GET of `/receipts/view` through `fetchWithAuth`;
     * `listing` gives what that request yields once its JSON is read.  An OK
     * JSON answer replaces the rows (an array payload, anything else an empty
     * list) and resets to page 1; any failure records the error message and
     * keeps the rows.  Loading ends either way; an earlier error message is
     * not cleared by a later success.
     */
    method LoadReceipts(store: TokenStore, baseUrl: string, listing: Request -> ListingOutcome)
      returns (sent: seq<Request>)
      modifies this
      ensures sent == [Request(baseUrl + "/receipts/view", AuthenticatedOptions(store.Token(), NoOptions))]
      ensures !loading
      ensures openDropdownId == old(openDropdownId) && deletingReceiptId == old(deletingReceiptId)
      ensures var outcome := listing(sent[0]);
        outcome.ListingResponse? && 200 <= outcome.status <= 299 && outcome.body.Some? ==>
        && receipts == (if outcome.body.value.ReceiptArray? then outcome.body.value.items else [])
        && currentPage == 1 && error == old(error)
      ensures var outcome := listing(sent[0]);
        !(outcome.ListingResponse? && 200 <= outcome.status <= 299 && outcome.body.Some?) ==>
        receipts == old(receipts) && currentPage == old(currentPage) && error == Some(FetchErrorMessage)
    {
      sent := [Request(baseUrl + "/receipts/view", AuthenticatedOptions(store.Token(), NoOptions))];
      var outcome := listing(sent[0]);
      if outcome.ListingResponse? && 200 <= outcome.status <= 299 && outcome.body.Some? {
        var data := outcome.body.value;
        receipts := if data.ReceiptArray? then data.items else [];
        loading := false;
        currentPage := 1;
      } else {
        error := Some(FetchErrorMessage);
        loading := false;
      }
    }

    /** `handlePageChange(page)`: go to the page and close any dropdown. */
    method PageChange(page: int)
      modifies this
      ensures currentPage == page && openDropdownId.None?
      ensures receipts == old(receipts) && loading == old(loading) && error == old(error)
      ensures deletingReceiptId == old(deletingReceiptId)
    {
      currentPage := page;
      openDropdownId := None;
    }

    /** `handleDropdownToggle(receiptId)`: open this row's menu, or close it when it is the open one. */
    method ToggleDropdown(receiptId: string)
      modifies this
      ensures openDropdownId == if old(openDropdownId) == Some(receiptId) then None else Some(receiptId)
      ensures receipts == old(receipts) && loading == old(loading) && error == old(error)
      ensures currentPage == old(currentPage) && deletingReceiptId == old(deletingReceiptId)
    {
      openDropdownId := if openDropdownId == Some(receiptId) then None else Some(receiptId);
    }

    /** The click-outside callback: close any dropdown. */
    method ClickOutside()
      modifies this
      ensures openDropdownId.None?
      ensures receipts == old(receipts) && loading == old(loading) && error == old(error)
      ensures currentPage == old(currentPage) && deletingReceiptId == old(deletingReceiptId)
    {
      openDropdownId := None;
    }

    /**
     * `handleDeleteReceipt(receiptId)`: nothing unless the user confirms;
     * then a DELETE through `fetchWithAuth`.  A 2xx answer removes every row
     * with that id and pulls the page back when it is past the new page
     * count; any other outcome leaves rows and page alone.  The menu is
     * closed and no delete is pending afterwards.
     */
    method DeleteReceipt(store: TokenStore, baseUrl: string, receiptId: string, confirmed: bool,
                         fetch: Request -> FetchOutcome)
      returns (sent: seq<Request>)
      modifies this
      ensures !confirmed ==>
        && sent == [] && receipts == old(receipts) && currentPage == old(currentPage)
        && openDropdownId == old(openDropdownId) && deletingReceiptId == old(deletingReceiptId)
      ensures confirmed ==>
        && sent == [Request(baseUrl + "/receipts/delete/" + receiptId,
                            AuthenticatedOptions(store.Token(), NoOptions.(httpMethod := Some("DELETE"))))]
        && openDropdownId.None? && deletingReceiptId.None?
        && var deleted := fetch(sent[0]).Responded? && IsOk(fetch(sent[0]).response);
        && (deleted ==> receipts == WithoutReceipt(old(receipts), receiptId)
                        && currentPage == PageAfterDelete(old(currentPage), |old(receipts)|))
        && (!deleted ==> receipts == old(receipts) && currentPage == old(currentPage))
      ensures loading == old(loading) && error == old(error)
    {
      if !confirmed {
        return [];
      }
      deletingReceiptId := Some(receiptId);
      openDropdownId := None;
      var response;
      response, sent := FetchWithAuth(store, baseUrl + "/receipts/delete/" + receiptId,
                                      NoOptions.(httpMethod := Some("DELETE")), fetch);
      if response.Responded? && IsOk(response.response) {
        currentPage := PageAfterDelete(currentPage, |receipts|);
        receipts := WithoutReceipt(receipts, receiptId);
      }
      deletingReceiptId := None;
    }
  }
}

=== FILE: receipts_api.dfy ===
/**
 * The receipt endpoints of the backend (`routers/receipts.py`): upload,
 * the dated listing, the yearly claims total, the partial update, the
 * image download and the delete.  The signed-in user's name comes in as
 * `username`; S3, Textract, `uuid4`, the clock and `float` are parameters.
 */
module ReceiptsApi {
  import opened Wrappers
  import opened Text
  import PyDict
  import opened ReceiptStore
  import Utils
  import opened Config

  // ---------------------------------------------------------------- upload

  /** The S3 object key of a stored file: `receipts/<username>/<name>`. */
  function S3Key(username: string, filename: string): (k: string)
    ensures StartsWith(k, "receipts/" + username + "/")
    ensures EndsWith(k, filename)
  {
    var prefix := "receipts/" + username + "/";
    assert (prefix + filename)[..|prefix|] == prefix;
    assert (prefix + filename)[|prefix + filename| - |filename|..] == filename;
    prefix + filename
  }

  /** Different stored names of one user never share an S3 key. */
  lemma S3KeyInjective(username: string, a: string, b: string)
    ensures S3Key(username, a) == S3Key(username, b) ==> a == b
  {
    var prefix := "receipts/" + username + "/";
    if S3Key(username, a) == S3Key(username, b) {
      assert a == S3Key(username, a)[|prefix|..];
      assert b == S3Key(username, b)[|prefix|..];
    }
  }

  /** The JSON answer of `/receipts/upload`. */
  datatype UploadResponse = UploadResponse(
    s3Key: string,
    extracted: PyDict.Dict,
    receiptSize: int,
    originalFilename: string,
    storedFilename: string,
    filenameChanged: bool)

  /**
   * `upload_receipts`: picks a free file name, stores the file under
   * `receipts/<username>/<name>`, runs Textract on it and records a
   * `pending` receipt with the extracted fields.  `analyze` is Textract's
   * answer for an S3 key, `receiptId` the fresh `uuid4` and `now` the
   * upload timestamp.  `s3Puts` lists the keys the file is written to
   * with `upload_fileobj`.
   */
  method UploadReceipts(db: ReceiptTable, username: string, filename: string, fileSize: nat,
                        analyze: string -> Utils.ExpenseResponse, receiptId: string, now: string)
    returns (response: UploadResponse, item: ReceiptItem, s3Puts: seq<string>)
    modifies db
    ensures !Utils.Taken(old(db.items), username, response.storedFilename)
    ensures !Utils.Taken(old(db.items), username, filename) ==> response.storedFilename == filename
    ensures Utils.Taken(old(db.items), username, filename) ==>
      exists n: nat ::
        1 <= n
        && response.storedFilename == Utils.Candidate(Utils.Stem(Utils.BaseName(filename)), n, Utils.Suffix(Utils.BaseName(filename)))
        && forall m :: 1 <= m < n ==>
          Utils.Taken(old(db.items), username, Utils.Candidate(Utils.Stem(Utils.BaseName(filename)), m, Utils.Suffix(Utils.BaseName(filename))))
    ensures s3Puts == [response.s3Key]
    ensures response.s3Key == S3Key(username, response.storedFilename)
    ensures response.extracted == Utils.ParsedFields(analyze(response.s3Key))
    ensures response.filenameChanged <==> filename != response.storedFilename
    ensures response.originalFilename == filename && response.receiptSize == fileSize
    ensures item == ReceiptItem(username, receiptId, Some(response.s3Key), Some(response.storedFilename),
                                Some("pending"), Some(now), fileSize, Some(response.extracted))
    ensures db.items == Upsert(old(db.items), item)
  {
    var uniqueFilename := Utils.UniqueFilename(db.items, username, filename);
    var s3Key := S3Key(username, uniqueFilename);
    s3Puts := [s3Key];
    var extractedData := Utils.ParseTextractExpense(analyze(s3Key));
    item := ReceiptItem(username, receiptId, Some(s3Key), Some(uniqueFilename), Some("pending"), Some(now),
                        fileSize, Some(extractedData));
    db.PutItem(item);
    response := UploadResponse(s3Key, extractedData, fileSize, filename, uniqueFilename, filename != uniqueFilename);
  }

  /**
   * After an upload the stored name counts as taken, so a second upload of
   * the same file by the same user is stored under another name.
   */
  lemma UploadTakesName(items: seq<ReceiptItem>, item: ReceiptItem)
    requires item.filename.Some?
    ensures Utils.Taken(Upsert(items, item), item.username, item.filename.value)
  {
    var r := Upsert(items, item);
    var k :| 0 <= k < |r| && r[k] == item;
  }

  // --------------------------------------------------------------- listing

  /** Python truthiness of an optional integer query parameter: `None` and `0` are falsy. */
  predicate IntTruthy(x: Option<int>) {
    x.Some? && x.value != 0
  }

  /**
   * The date prefix of `/receipts/view`: `YYYY-MM-DD`, `YYYY-MM` or `YYYY`
   * depending on which of year, month and day are given, zero-padded.
   */
  function DatePrefix(year: Option<int>, month: Option<int>, day: Option<int>): (p: Option<string>)
    ensures p.None? <==> !IntTruthy(year)
    ensures p.Some? ==> |p.value| >= 4
  {
    if IntTruthy(year) && IntTruthy(month) && IntTruthy(day) then
      Some(PadInt(year.value, 4) + "-" + PadInt(month.value, 2) + "-" + PadInt(day.value, 2))
    else if IntTruthy(year) && IntTruthy(month) then
      Some(PadInt(year.value, 4) + "-" + PadInt(month.value, 2))
    else if IntTruthy(year) then
      Some(PadInt(year.value, 4))
    else None
  }

  /**
   * The prefixes nest: the day prefix extends the month prefix, which
   * extends the year prefix; a day without a month, or a month without a
   * year, is ignored.
   */
  lemma DatePrefixNesting(year: Option<int>, month: Option<int>, day: Option<int>)
    ensures IntTruthy(year) ==> StartsWith(DatePrefix(year, month, day).value, DatePrefix(year, None, None).value)
    ensures IntTruthy(year) && IntTruthy(month) ==>
      StartsWith(DatePrefix(year, month, day).value, DatePrefix(year, month, None).value)
    ensures !IntTruthy(month) ==> DatePrefix(year, month, day) == DatePrefix(year, None, None)
    ensures !IntTruthy(year) ==> DatePrefix(year, month, day).None?
  {
    if IntTruthy(year) {
      var y := PadInt(year.value, 4);
      if IntTruthy(month) {
        DashedNesting(y, PadInt(month.value, 2), if IntTruthy(day) then PadInt(day.value, 2) else "");
      } else {
        assert y[..|y|] == y;
      }
    }
  }

  /** Dash-joined pieces: each shorter join is a prefix of the longer ones. */
  lemma DashedNesting(y: string, m: string, d: string)
    ensures StartsWith(y + "-" + m, y)
    ensures StartsWith(y + "-" + m + "-" + d, y)
    ensures StartsWith(y + "-" + m + "-" + d, y + "-" + m)
  {
    var ym := y + "-" + m;
    assert ym[..|y|] == y;
    assert (ym + "-" + d)[..|ym|] == ym;
    assert (ym + "-" + d)[..|y|] == y;
  }

  /** `str(n)` has at most two digits below 100 and at most four below 10000. */
  lemma {:induction false} DecimalShort(n: nat)
    ensures n < 10 ==> |Decimal(n)| == 1
    ensures n < 100 ==> |Decimal(n)| <= 2
    ensures n < 1000 ==> |Decimal(n)| <= 3
    ensures n < 10000 ==> |Decimal(n)| <= 4
  {
    if n >= 10 {
      DecimalShort(n / 10);
      assert |Decimal(n)| == |Decimal(n / 10)| + 1;
    }
  }

  /** Zero-padding a number shorter than the width gives exactly the width. */
  lemma PadIntWidth(i: nat, width: nat)
    requires |Decimal(i)| <= width
    ensures |PadInt(i, width)| == width
  {
  }

  /**
   * For a calendar date the full prefix has the `YYYY-MM-DD` layout of the
   * stored ISO timestamps: ten characters with dashes at positions 4 and 7.
   */
  lemma DatePrefixLayout(y: int, m: int, d: int)
    requires 1 <= y <= 9999 && 1 <= m <= 12 && 1 <= d <= 31
    ensures var p := DatePrefix(Some(y), Some(m), Some(d)).value;
      |p| == 10 && p[4] == '-' && p[7] == '-'
  {
    PaddedDateWidths(y, m, d);
    DashedLayout(PadInt(y, 4), PadInt(m, 2), PadInt(d, 2));
  }

  /** Year, month and day of a calendar date pad to four, two and two characters. */
  lemma PaddedDateWidths(y: int, m: int, d: int)
    requires 1 <= y <= 9999 && 1 <= m <= 12 && 1 <= d <= 31
    ensures |PadInt(y, 4)| == 4 && |PadInt(m, 2)| == 2 && |PadInt(d, 2)| == 2
  {
    DecimalShort(y);
    DecimalShort(m);
    DecimalShort(d);
    PadIntWidth(y, 4);
    PadIntWidth(m, 2);
    PadIntWidth(d, 2);
  }

  /** Three pieces of widths four, two and two joined by dashes. */
  lemma DashedLayout(a: string, b: string, c: string)
    requires |a| == 4 && |b| == 2 && |c| == 2
    ensures var p := a + "-" + b + "-" + c;
      |p| == 10 && p[4] == '-' && p[7] == '-'
  {
  }

  /** The item's upload timestamp begins with the prefix; an item without one never matches. */
  predicate MatchesPrefix(item: ReceiptItem, prefix: string) {
    item.uploadDatetime.Some? && StartsWith(item.uploadDatetime.value, prefix)
  }

  /** The query: the user's items, restricted to the date prefix when there is one. */
  function Listing(items: seq<ReceiptItem>, username: string, prefix: Option<string>): (r: seq<ReceiptItem>)
    ensures forall x :: x in r <==> x in items && x.username == username && (prefix.None? || MatchesPrefix(x, prefix.value))
    ensures |items| == 1 ==> r == if items[0].username == username && (prefix.None? || MatchesPrefix(items[0], prefix.value)) then items else []
  {
    if |items| == 0 then []
    else
      var rest := Listing(items[1..], username, prefix);
      assert forall x :: x in items <==> x == items[0] || x in items[1..];
      if items[0].username == username && (prefix.None? || MatchesPrefix(items[0], prefix.value))
      then [items[0]] + rest else rest
  }

  /** The query works item by item: with the one-item case, the listed receipts keep the table order, each once. */
  lemma {:induction false} ListingAppend(a: seq<ReceiptItem>, b: seq<ReceiptItem>, username: string, prefix: Option<string>)
    ensures Listing(a + b, username, prefix) == Listing(a, username, prefix) + Listing(b, username, prefix)
  {
    if |a| > 0 {
      assert (a + b)[0] == a[0];
      assert (a + b)[1..] == a[1..] + b;
      ListingAppend(a[1..], b, username, prefix);
      if a[0].username == username && (prefix.None? || MatchesPrefix(a[0], prefix.value)) {
        AppendAssociative([a[0]], Listing(a[1..], username, prefix), Listing(b, username, prefix));
      }
    } else {
      assert a + b == b;
    }
  }

  /** A longer prefix selects fewer receipts. */
  lemma NarrowerPrefixNarrowerListing(items: seq<ReceiptItem>, username: string, p: string, q: string)
    requires StartsWith(q, p)
    ensures forall x :: x in Listing(items, username, Some(q)) ==> x in Listing(items, username, Some(p))
  {
    forall x | x in Listing(items, username, Some(q)) ensures MatchesPrefix(x, p) {
      var t := x.uploadDatetime.value;
      assert t[..|p|] == t[..|q|][..|p|];
    }
  }

  /** The sort key `str(x.get("receipt_upload_datetime", ""))`. */
  function DatetimeKey(item: ReceiptItem): string {
    item.uploadDatetime.GetOr("")
  }

  /** Python's `a <= b` on strings: lexicographic by code point. */
  predicate LexLe(a: string, b: string)
    decreases |a|
  {
    |a| == 0 || (|b| > 0 && (a[0] < b[0] || (a[0] == b[0] && LexLe(a[1..], b[1..]))))
  }

  /** Any two strings are comparable. */
  lemma {:induction false} LexTotal(a: string, b: string)
    ensures LexLe(a, b) || LexLe(b, a)
    decreases |a|
  {
    if |a| > 0 && |b| > 0 && a[0] == b[0] {
      LexTotal(a[1..], b[1..]);
    }
  }

  /** The order is transitive. */
  lemma {:induction false} LexTrans(a: string, b: string, c: string)
    requires LexLe(a, b) && LexLe(b, c)
    ensures LexLe(a, c)
    decreases |a|
  {
    if |a| > 0 && a[0] == b[0] && b[0] == c[0] {
      LexTrans(a[1..], b[1..], c[1..]);
    }
  }

  /** Newest first: each item's timestamp is at most the one before it. */
  predicate NewestFirst(s: seq<ReceiptItem>) {
    forall i :: 0 < i < |s| ==> LexLe(DatetimeKey(s[i]), DatetimeKey(s[i - 1]))
  }

  /** In a newest-first list every later item is no newer than every earlier one. */
  lemma {:induction false} NewestFirstOrdersAll(s: seq<ReceiptItem>)
    requires NewestFirst(s)
    ensures forall i, j :: 0 <= i < j < |s| ==> LexLe(DatetimeKey(s[j]), DatetimeKey(s[i]))
    decreases |s|
  {
    if |s| > 1 {
      var t := s[..|s| - 1];
      assert NewestFirst(t);
      NewestFirstOrdersAll(t);
      forall i | 0 <= i < |s| - 1 ensures LexLe(DatetimeKey(s[|s| - 1]), DatetimeKey(s[i])) {
        if i < |s| - 2 {
          assert LexLe(DatetimeKey(t[|t| - 1]), DatetimeKey(t[i]));
          LexTrans(DatetimeKey(s[|s| - 1]), DatetimeKey(s[|s| - 2]), DatetimeKey(s[i]));
        }
      }
    }
  }

  /** Inserts `x` after every item at least as new, which keeps equal timestamps in arrival order. */
  function InsertNewestFirst(x: ReceiptItem, s: seq<ReceiptItem>): (r: seq<ReceiptItem>)
    requires NewestFirst(s)
    ensures NewestFirst(r)
    ensures multiset(r) == multiset(s) + multiset{x}
    ensures |r| == |s| + 1 && (r[0] == x || (|s| > 0 && r[0] == s[0]))
  {
    if |s| == 0 then [x]
    else if LexLe(DatetimeKey(x), DatetimeKey(s[0])) then
      var rest := InsertNewestFirst(x, s[1..]);
      assert s == [s[0]] + s[1..];
      [s[0]] + rest
    else
      LexTotal(DatetimeKey(x), DatetimeKey(s[0]));
      [x] + s
  }

  /** `items.sort(key=..., reverse=True)`: the same items, newest first. */
  function SortNewestFirst(s: seq<ReceiptItem>): (r: seq<ReceiptItem>)
    ensures NewestFirst(r)
    ensures multiset(r) == multiset(s)
  {
    if |s| == 0 then []
    else
      assert s == s[..|s| - 1] + [s[|s| - 1]];
      InsertNewestFirst(s[|s| - 1], SortNewestFirst(s[..|s| - 1]))
  }

  /**
   * `view_receipts`: the user's receipts whose timestamp begins with the
   * date prefix (all of them without one), newest first.
   */
  method ViewReceipts(db: ReceiptTable, username: string, year: Option<int>, month: Option<int>, day: Option<int>)
    returns (items: seq<ReceiptItem>)
    ensures NewestFirst(items)
    ensures multiset(items) == multiset(Listing(db.items, username, DatePrefix(year, month, day)))
  {
    var datePrefix := DatePrefix(year, month, day);
    var keyPrefix := if Truthy(datePrefix) then datePrefix else None;
    items := Listing(db.items, username, keyPrefix);
    items := SortNewestFirst(items);
  }

  // ---------------------------------------------------------- total claims

  /** The normalised labels that name a total. */
  const NormalizedTotalKeys: set<string> := {"TOTAL", "AMOUNT", "GRANDTOTAL", "TOTALTOPAY"}

  /** The characters removed from a label before comparing it. */
  const CharsToRemove: seq<char> := ['=', ':', '-', '$', '.', ',', ' ']

  /** The label as compared: upper-cased, `= : - $ . ,` and spaces removed, then stripped. */
  function NormalizeKey(key: string): (r: string)
    ensures r == PyStrip(DropEach(Upper(key), CharsToRemove))
    ensures forall c :: c in CharsToRemove ==> c !in r
    ensures forall k :: 0 <= k < |r| ==> !('a' <= r[k] <= 'z')
  {
    var u := Upper(key);
    forall x | x in u ensures !('a' <= x <= 'z') {
      var k :| 0 <= k < |u| && u[k] == x;
    }
    var d := DropEach(u, CharsToRemove);
    StripMembers(d, IsPySpace);
    var r := PyStrip(d);
    forall k | 0 <= k < |r| ensures !('a' <= r[k] <= 'z') {
      assert r[k] in r;
    }
    r
  }

  /** Normalising is a normal form: a normalised label normalises to itself. */
  lemma NormalizeKeyIdempotent(key: string)
    ensures NormalizeKey(NormalizeKey(key)) == NormalizeKey(key)
  {
    var r := NormalizeKey(key);
    UpperNoLowercase(r);
    DropEachAbsent(r, CharsToRemove);
    StripIdempotent(DropEach(Upper(key), CharsToRemove), IsPySpace);
  }

  /** The label names a total. */
  predicate IsTotalKey(key: string) {
    NormalizeKey(key) in NormalizedTotalKeys
  }

  /** The inner loop's `claim_str`: the value of the last label that names a total. */
  function LastClaim(d: PyDict.Dict): Option<string>
    decreases |d|
  {
    if |d| == 0 then None
    else if IsTotalKey(d[|d| - 1].0) then Some(d[|d| - 1].1)
    else LastClaim(d[..|d| - 1])
  }

  /** The last matching label wins: the claim is the value of the last total label, if any. */
  lemma {:induction false} LastClaimIsLast(d: PyDict.Dict)
    ensures LastClaim(d).None? <==> forall j :: 0 <= j < |d| ==> !IsTotalKey(d[j].0)
    ensures forall j :: 0 <= j < |d| && IsTotalKey(d[j].0) && (forall j' :: j < j' < |d| ==> !IsTotalKey(d[j'].0))
                        ==> LastClaim(d) == Some(d[j].1)
    decreases |d|
  {
    if |d| > 0 {
      var prev := d[..|d| - 1];
      LastClaimIsLast(prev);
      forall j | 0 <= j < |prev| ensures prev[j] == d[j] {
      }
      forall j | 0 <= j < |d| && IsTotalKey(d[j].0) && (forall j' :: j < j' < |d| ==> !IsTotalKey(d[j'].0))
        ensures LastClaim(d) == Some(d[j].1)
      {
        if j < |d| - 1 {
          assert !IsTotalKey(d[|d| - 1].0);
          assert forall j' :: j < j' < |prev| ==> !IsTotalKey(prev[j'].0);
        }
      }
    }
  }

  /** `str(claim_str).replace(",", "").replace("$", "").strip()`. */
  function CleanClaim(c: string): (r: string)
    ensures ',' !in r && '$' !in r
  {
    var d := DropChar(DropChar(c, ','), '$');
    StripMembers(d, IsPySpace);
    PyStrip(d)
  }

  /** `CleanClaim` drops every `,` and `$`, then strips Python whitespace from both ends. */
  lemma CleanClaimSteps(c: string)
    ensures CleanClaim(c) == PyStrip(DropEach(c, [',', '$']))
  {
    assert [',', '$'][..1] == [','];
  }

  /** What one item adds to the total: its parsed claim, if its timestamp is in the year and the claim parses. */
  function ItemClaim(item: ReceiptItem, year: int, parse: string -> Option<real>): Option<real> {
    if !StartsWith(item.uploadDatetime.GetOr(""), IntString(year)) then None
    else
      var claim := LastClaim(item.textractData.GetOr([]));
      if Truthy(claim) then parse(CleanClaim(claim.value)) else None
  }

  /** The sum over the items of their claims. */
  function ClaimsTotal(items: seq<ReceiptItem>, year: int, parse: string -> Option<real>): real
    decreases |items|
  {
    if |items| == 0 then 0.0
    else ClaimsTotal(items[..|items| - 1], year, parse) + ItemClaim(items[|items| - 1], year, parse).GetOr(0.0)
  }

  /** Extending the prefix by one item adds that item's claim. */
  lemma ClaimsTotalStep(items: seq<ReceiptItem>, i: int, year: int, parse: string -> Option<real>)
    requires 0 <= i < |items|
    ensures ClaimsTotal(items[..i + 1], year, parse)
         == ClaimsTotal(items[..i], year, parse) + ItemClaim(items[i], year, parse).GetOr(0.0)
  {
    assert items[..i + 1][..i] == items[..i];
  }

  /** The items whose timestamp begins with the year. */
  function InYear(items: seq<ReceiptItem>, year: int): (r: seq<ReceiptItem>)
    ensures forall x :: x in r <==> x in items && StartsWith(x.uploadDatetime.GetOr(""), IntString(year))
    decreases |items|
  {
    if |items| == 0 then []
    else
      var prev := InYear(items[..|items| - 1], year);
      var last := items[|items| - 1];
      assert items == items[..|items| - 1] + [last];
      if StartsWith(last.uploadDatetime.GetOr(""), IntString(year)) then prev + [last] else prev
  }

  /** The year's items are picked one by one: with the one-item case, they keep the table order, each once. */
  lemma {:induction false} InYearAppend(a: seq<ReceiptItem>, b: seq<ReceiptItem>, year: int)
    ensures InYear(a + b, year) == InYear(a, year) + InYear(b, year)
    ensures |a| == 1 ==> InYear(a, year) == if StartsWith(a[0].uploadDatetime.GetOr(""), IntString(year)) then a else []
    decreases |b|
  {
    if |a| == 1 {
      assert a[..0] == [];
    }
    if |b| > 0 {
      var ab := a + b;
      var last := b[|b| - 1];
      assert ab[..|ab| - 1] == a + b[..|b| - 1];
      assert ab[|ab| - 1] == last;
      InYearAppend(a, b[..|b| - 1], year);
      if StartsWith(last.uploadDatetime.GetOr(""), IntString(year)) {
        AppendAssociative(InYear(a, year), InYear(b[..|b| - 1], year), [last]);
      }
    } else {
      assert a + b == a;
    }
  }

  /** Only the year's receipts contribute: the total over all items equals the total over that year's. */
  lemma {:induction false} TotalCountsOnlyYear(items: seq<ReceiptItem>, year: int, parse: string -> Option<real>)
    ensures ClaimsTotal(items, year, parse) == ClaimsTotal(InYear(items, year), year, parse)
    decreases |items|
  {
    if |items| > 0 {
      var prev := items[..|items| - 1];
      var last := items[|items| - 1];
      TotalCountsOnlyYear(prev, year, parse);
      if StartsWith(last.uploadDatetime.GetOr(""), IntString(year)) {
        var r := InYear(prev, year) + [last];
        assert r[..|r| - 1] == InYear(prev, year);
      }
    }
  }

  /**
   * The year is matched as a text prefix, so the total for year 202 takes in
   * a receipt uploaded in 2024.
   */
  lemma YearMatchedAsText()
    ensures StartsWith("2024-03-01T10:00:00", IntString(202))
  {
    assert Decimal(2) == "2";
    assert Decimal(20) == "20";
    assert Decimal(202) == "202";
  }

  /** The answer of `/receipts/total-claims`. */
  datatype ClaimsResponse = ClaimsResponse(year: int, totalClaims: real, numReceipts: nat)

  /** The key cleaning of the inner loop: upper-cased, one `replace` per character, then stripped. */
  method CleanTextractKey(textractKey: string) returns (cleaned: string)
    ensures cleaned == NormalizeKey(textractKey)
  {
    cleaned := Upper(textractKey);
    var c := 0;
    while c < |CharsToRemove|
      invariant 0 <= c <= |CharsToRemove|
      invariant cleaned == DropEach(Upper(textractKey), CharsToRemove[..c])
    {
      assert CharsToRemove[..c + 1][..c] == CharsToRemove[..c];
      cleaned := DropChar(cleaned, CharsToRemove[c]);
      c := c + 1;
    }
    assert CharsToRemove[..c] == CharsToRemove;
    cleaned := PyStrip(cleaned);
  }

  /** The loop over one receipt's fields: `claim_str` ends as the value of the last total label. */
  method FindClaim(textractData: PyDict.Dict) returns (claimStr: Option<string>)
    ensures claimStr == LastClaim(textractData)
  {
    claimStr := None;
    var j := 0;
    while j < |textractData|
      invariant 0 <= j <= |textractData|
      invariant claimStr == LastClaim(textractData[..j])
    {
      assert textractData[..j + 1][..j] == textractData[..j];
      var cleanedTextractKey := CleanTextractKey(textractData[j].0);
      if cleanedTextractKey in NormalizedTotalKeys {
        claimStr := Some(textractData[j].1);
      }
      j := j + 1;
    }
    assert textractData[..j] == textractData;
  }

  /** The body of `total_claims`' loop for one receipt: its parsed claim, if it was uploaded in the year. */
  method ReceiptClaim(item: ReceiptItem, year: int, parse: string -> Option<real>) returns (claimValue: Option<real>)
    ensures claimValue == ItemClaim(item, year, parse)
  {
    claimValue := None;
    var uploadDatetime := item.uploadDatetime.GetOr("");
    if StartsWith(uploadDatetime, IntString(year)) {
      var claimStr := FindClaim(item.textractData.GetOr([]));
      if Truthy(claimStr) {
        claimValue := parse(CleanClaim(claimStr.value));
      }
    }
  }

  /**
   * `total_claims`: scans the user's receipts and adds up, for each one
   * uploaded in the year, the value of its last total-like label; the
   * receipt count covers all the user's receipts, whatever their year.
   */
  method TotalClaims(db: ReceiptTable, username: string, year: int, parse: string -> Option<real>)
    returns (response: ClaimsResponse)
    ensures response.year == year
    ensures response.totalClaims == ClaimsTotal(UserItems(db.items, username), year, parse)
    ensures response.numReceipts == |UserItems(db.items, username)|
  {
    var items := UserItems(db.items, username);
    var total := SumClaims(items, year, parse);
    response := ClaimsResponse(year, total, |items|);
  }

  /** The loop of `total_claims`: adds up the receipts' claims, in order. */
  method SumClaims(items: seq<ReceiptItem>, year: int, parse: string -> Option<real>) returns (total: real)
    ensures total == ClaimsTotal(items, year, parse)
  {
    total := 0.0;
    var i := 0;
    while i < |items|
      invariant 0 <= i <= |items|
      invariant total == ClaimsTotal(items[..i], year, parse)
    {
      var claimValue := ReceiptClaim(items[i], year, parse);
      ClaimsTotalStep(items, i, year, parse);
      if claimValue.Some? {
        total := total + claimValue.value;
      }
      i := i + 1;
    }
    assert items[..i] == items;
  }

  // ---------------------------------------------------------------- update

  /** The `ReceiptUpdate` body: both fields optional. */
  datatype ReceiptUpdate = ReceiptUpdate(receiptStatus: Option<string>, textractData: Option<PyDict.Dict>)

  /** The `SET` clauses, the status clause before the textract clause. */
  function UpdateParts(data: ReceiptUpdate): (parts: seq<string>)
    ensures |parts| <= 2
    ensures parts == [] <==> data.receiptStatus.None? && data.textractData.None?
    ensures data.receiptStatus.Some? ==> parts[0] == "#status = :status"
    ensures data.textractData.Some? ==> parts[|parts| - 1] == "#textract = :textract"
    ensures "#status = :status" in parts <==> data.receiptStatus.Some?
    ensures "#textract = :textract" in parts <==> data.textractData.Some?
  {
    (if data.receiptStatus.Some? then ["#status = :status"] else [])
    + (if data.textractData.Some? then ["#textract = :textract"] else [])
  }

  /** The attribute names the placeholders stand for. */
  function UpdateNames(data: ReceiptUpdate): (names: map<string, string>)
    ensures "#status" in names <==> data.receiptStatus.Some?
    ensures "#textract" in names <==> data.textractData.Some?
    ensures forall p :: p in names ==> p == "#status" || p == "#textract"
    ensures "#status" in names ==> names["#status"] == "receipt_status"
    ensures "#textract" in names ==> names["#textract"] == "textract_data"
  {
    var withStatus: map<string, string> := if data.receiptStatus.Some? then map["#status" := "receipt_status"] else map[];
    if data.textractData.Some? then withStatus["#textract" := "textract_data"] else withStatus
  }

  /** The update expression: `SET ` and the clauses joined by `, `. */
  function UpdateExpression(data: ReceiptUpdate): string {
    "SET " + Join(UpdateParts(data), ", ")
  }

  /** Joining two clauses puts the separator between them. */
  lemma JoinPair(x: string, y: string, sep: string)
    ensures Join([x, y], sep) == x + sep + y
  {
    assert [x, y][1..] == [y];
  }

  /** The three expressions the endpoint can send: the status clause, the textract clause, or both in that order. */
  lemma UpdateExpressionCases(data: ReceiptUpdate)
    ensures data.receiptStatus.Some? && data.textractData.Some? ==>
      UpdateExpression(data) == "SET " + "#status = :status" + ", " + "#textract = :textract"
    ensures data.receiptStatus.Some? && data.textractData.None? ==> UpdateExpression(data) == "SET " + "#status = :status"
    ensures data.receiptStatus.None? && data.textractData.Some? ==> UpdateExpression(data) == "SET " + "#textract = :textract"
  {
    JoinPair("#status = :status", "#textract = :textract", ", ");
  }

  /** The stored item after `update_item`: the supplied fields replaced, every other attribute kept. */
  function ApplyUpdate(item: ReceiptItem, data: ReceiptUpdate): (r: ReceiptItem)
    ensures r.username == item.username && r.receiptId == item.receiptId && r.s3Path == item.s3Path
    ensures r.filename == item.filename && r.uploadDatetime == item.uploadDatetime && r.size == item.size
    ensures r.status == if data.receiptStatus.Some? then data.receiptStatus else item.status
    ensures r.textractData == if data.textractData.Some? then data.textractData else item.textractData
  {
    item.(status := if data.receiptStatus.Some? then data.receiptStatus else item.status,
          textractData := if data.textractData.Some? then data.textractData else item.textractData)
  }

  /** Sending the same update twice has the effect of sending it once. */
  lemma ApplyUpdateIdempotent(item: ReceiptItem, data: ReceiptUpdate)
    ensures ApplyUpdate(ApplyUpdate(item, data), data) == ApplyUpdate(item, data)
  {
  }

  /** The answer of `/receipts/update/{id}`: the stored status and fields after the update. */
  datatype UpdateResponse = UpdateResponse(receiptId: string, receiptStatus: Option<string>, textractData: Option<PyDict.Dict>)

  /**
   * `update_receipt`: 400 without a body, 404 for a receipt the user does
   * not have, 400 when the body sets neither field; otherwise the fields
   * given are written with one `SET` expression and the stored values are
   * returned.
   */
  method UpdateReceipt(db: ReceiptTable, username: string, receiptId: string, data: Option<ReceiptUpdate>)
    returns (result: Result<UpdateResponse, HttpError>, expression: Option<string>, attrNames: map<string, string>)
    modifies db
    ensures data.None? ==> result == Err(HttpError(400, "No update data provided"))
    ensures data.Some? && Lookup(old(db.items), username, receiptId).None? ==>
      result == Err(HttpError(404, "Receipt not found"))
    ensures data.Some? && Lookup(old(db.items), username, receiptId).Some? && UpdateParts(data.value) == [] ==>
      result == Err(HttpError(400, "No valid fields to update"))
    ensures result.Err? ==> db.items == old(db.items) && expression.None?
    ensures data.Some? && Lookup(old(db.items), username, receiptId).Some? && UpdateParts(data.value) != [] ==>
      result.Ok?
    ensures data.Some? && Lookup(old(db.items), username, receiptId).Some? ==> attrNames == UpdateNames(data.value)
    ensures result.Ok? ==>
      && data.Some? && UpdateParts(data.value) != []
      && Lookup(old(db.items), username, receiptId).Some?
      && var updated := ApplyUpdate(Lookup(old(db.items), username, receiptId).value, data.value);
      && db.items == Upsert(old(db.items), updated)
      && expression == Some(UpdateExpression(data.value))
      && result.value == UpdateResponse(receiptId, updated.status, updated.textractData)
  {
    expression := None;
    attrNames := map[];
    if data.None? {
      return Err(HttpError(400, "No update data provided")), expression, attrNames;
    }
    var receiptItem := db.GetItem(username, receiptId);
    if receiptItem.None? {
      return Err(HttpError(404, "Receipt not found")), expression, attrNames;
    }
    var updateParts: seq<string> := [];
    if data.value.receiptStatus.Some? {
      updateParts := updateParts + ["#status = :status"];
      attrNames := attrNames["#status" := "receipt_status"];
    }
    if data.value.textractData.Some? {
      updateParts := updateParts + ["#textract = :textract"];
      attrNames := attrNames["#textract" := "textract_data"];
    }
    if updateParts == [] {
      return Err(HttpError(400, "No valid fields to update")), expression, attrNames;
    }
    assert updateParts == UpdateParts(data.value);
    var updateExpression := "SET " + Join(updateParts, ", ");
    var updatedItem := ApplyUpdate(receiptItem.value, data.value);
    db.PutItem(updatedItem);
    expression := Some(updateExpression);
    result := Ok(UpdateResponse(receiptId, updatedItem.status, updatedItem.textractData));
  }

  // ----------------------------------------------------------------- image

  /** The media type chosen from the lower-cased file name's extension, JPEG by default. */
  function ContentType(filename: string): (t: string)
    ensures t == "image/png" <==> EndsWith(Lower(filename), ".png")
    ensures t == "image/gif" <==> EndsWith(Lower(filename), ".gif")
    ensures t == "image/webp" <==> !EndsWith(Lower(filename), ".gif") && EndsWith(Lower(filename), ".webp")
    ensures t == "image/jpeg" <==>
      !EndsWith(Lower(filename), ".png") && !EndsWith(Lower(filename), ".gif") && !EndsWith(Lower(filename), ".webp")
  {
    var lower := Lower(filename);
    if EndsWith(lower, ".png") then
      assert lower[|lower| - 1] == 'g' && !EndsWith(lower, ".gif");
      "image/png"
    else if EndsWith(lower, ".gif") then "image/gif"
    else if EndsWith(lower, ".webp") then "image/webp"
    else "image/jpeg"
  }

  /** The choice ignores letter case: a name and its upper- or lower-cased form get the same type. */
  lemma ContentTypeIgnoresCase(filename: string)
    ensures ContentType(Lower(filename)) == ContentType(filename)
    ensures ContentType(Upper(filename)) == ContentType(filename)
  {
    LowerIdempotent(filename);
    assert Lower(Upper(filename)) == Lower(filename);
  }

  /** The streamed image: its bytes, media type and `Content-Disposition`. */
  datatype ImageResponse = ImageResponse(body: seq<bv8>, mediaType: string, contentDisposition: string)

  /**
   * `get_receipt_image`: 404 without the receipt or without an S3 path, 500
   * when S3 cannot deliver the object, otherwise the object's bytes with the
   * media type of the stored file name.  `s3Get` is S3's answer for a key.
   */
  method GetReceiptImage(db: ReceiptTable, username: string, receiptId: string, s3Get: string -> Option<seq<bv8>>)
    returns (result: Result<ImageResponse, HttpError>)
    ensures Lookup(db.items, username, receiptId).None? ==> result == Err(HttpError(404, "Receipt not found"))
    ensures Lookup(db.items, username, receiptId).Some? && !Truthy(Lookup(db.items, username, receiptId).value.s3Path) ==>
      result == Err(HttpError(404, "Receipt image not found"))
    ensures Lookup(db.items, username, receiptId).Some? && Truthy(Lookup(db.items, username, receiptId).value.s3Path) ==>
      var item := Lookup(db.items, username, receiptId).value;
      var filename := item.filename.GetOr("");
      result == match s3Get(item.s3Path.value)
        case None => Err(HttpError(500, "Error retrieving receipt image"))
        case Some(bytes) => Ok(ImageResponse(bytes, ContentType(filename), "inline; filename=" + filename))
  {
    var receiptItem := db.GetItem(username, receiptId);
    if receiptItem.None? {
      return Err(HttpError(404, "Receipt not found"));
    }
    var s3Key := receiptItem.value.s3Path;
    if !Truthy(s3Key) {
      return Err(HttpError(404, "Receipt image not found"));
    }
    var fileStream := s3Get(s3Key.value);
    if fileStream.None? {
      return Err(HttpError(500, "Error retrieving receipt image"));
    }
    var filename := receiptItem.value.filename.GetOr("");
    var contentType := ContentType(filename);
    result := Ok(ImageResponse(fileStream.value, contentType, "inline; filename=" + filename));
  }

  // ---------------------------------------------------------------- delete

  /** The answer of `/receipts/delete/{id}`. */
  datatype DeleteResponse = DeleteResponse(
    receiptId: string,
    deletedS3Key: Option<string>,
    deletedFilename: Option<string>,
    s3DeletionStatus: string)

  /** `"completed"` when an S3 object was deleted, `"skipped_no_path"` in every other case. */
  function S3DeletionStatus(deletedS3Key: Option<string>): (s: string)
    ensures s == "completed" <==> Truthy(deletedS3Key)
    ensures s == "completed" || s == "skipped_no_path"
  {
    if Truthy(deletedS3Key) then "completed" else "skipped_no_path"
  }

  /**
   * `delete_receipt`: 404 without the receipt; otherwise the S3 object is
   * deleted when there is a path (a failure there is swallowed), then the
   * record is deleted, and a failure of that gives 500.  `s3Delete` tells
   * whether deleting a key succeeds and `dbDeleteSucceeds` whether
   * `delete_item` does; `s3Calls` lists the keys S3 was asked to delete.
   */
  method DeleteReceipt(db: ReceiptTable, username: string, receiptId: string, s3Delete: string -> bool, dbDeleteSucceeds: bool)
    returns (result: Result<DeleteResponse, HttpError>, s3Calls: seq<string>)
    modifies db
    ensures Lookup(old(db.items), username, receiptId).None? ==>
      result == Err(HttpError(404, "Receipt not found")) && s3Calls == [] && db.items == old(db.items)
    ensures Lookup(old(db.items), username, receiptId).Some? ==>
      var item := Lookup(old(db.items), username, receiptId).value;
      && s3Calls == (if Truthy(item.s3Path) then [item.s3Path.value] else [])
      && (!dbDeleteSucceeds ==>
            result == Err(HttpError(500, "Error deleting receipt from database")) && db.items == old(db.items))
      && (dbDeleteSucceeds ==>
            && db.items == Remove(old(db.items), username, receiptId)
            && result.Ok?
            && result.value.receiptId == receiptId
            && result.value.deletedFilename == item.filename
            && (result.value.deletedS3Key == if Truthy(item.s3Path) && s3Delete(item.s3Path.value) then item.s3Path else None)
            && (result.value.s3DeletionStatus ==
                  if Truthy(item.s3Path) && s3Delete(item.s3Path.value) then "completed" else "skipped_no_path"))
  {
    s3Calls := [];
    var receiptItem := db.GetItem(username, receiptId);
    if receiptItem.None? {
      return Err(HttpError(404, "Receipt not found")), s3Calls;
    }
    var s3Key := receiptItem.value.s3Path;
    var deletedS3Key: Option<string> := None;
    if Truthy(s3Key) {
      s3Calls := [s3Key.value];
      if s3Delete(s3Key.value) {
        deletedS3Key := s3Key;
      }
    }
    if !dbDeleteSucceeds {
      return Err(HttpError(500, "Error deleting receipt from database")), s3Calls;
    }
    db.DeleteItem(username, receiptId);
    result := Ok(DeleteResponse(receiptId, deletedS3Key, receiptItem.value.filename, S3DeletionStatus(deletedS3Key)));
  }
}

=== FILE: session.dfy ===
/**
 * Session bootstrap and route guarding (frontend `customprocess/AuthContext.jsx`,
 * `components/ProtectedRoute.jsx` and `App.jsx`): a one-shot `/auth/me`
 * probe decides whether the browser counts as signed in, and the routes
 * either show their page, wait, or redirect on that basis.
 */
module Session {
  import opened Wrappers
  import opened AuthClient

  /** The value the provider stores for a successful probe; the real token stays in cookies and storage. */
  const ValidMarker := "valid"

  /** The state of `AuthProvider`: the `accessToken` and `loading` state plus whether the mount effect has run. */
  class AuthProvider {
    var accessToken: Option<string>
    var loading: bool
    var probed: bool

    /** Before the probe: no token, loading. */
    constructor ()
      ensures accessToken.None? && loading && !probed
    {
      accessToken := None;
      loading := true;
      probed := false;
    }

    /**
     * The mount effect `checkAuth()`: one GET of `/auth/me` through
     * `fetchWithAuth`.  A 2xx answer marks the session valid; a non-2xx
     * answer or a failed request clears it; loading ends in every case.  The
     * effect has no dependencies, so a second call does nothing.
     */
    method CheckAuth(store: TokenStore, baseUrl: string, fetch: Request -> FetchOutcome) returns (sent: seq<Request>)
      modifies this
      ensures old(probed) ==>
        sent == [] && accessToken == old(accessToken) && loading == old(loading) && probed
      ensures !old(probed) ==>
        && sent == [Request(baseUrl + "/auth/me", AuthenticatedOptions(store.Token(), NoOptions))]
        && !loading && probed
        && (accessToken == Some(ValidMarker) <==> fetch(sent[0]).Responded? && IsOk(fetch(sent[0]).response))
        && (accessToken.None? <==> !(fetch(sent[0]).Responded? && IsOk(fetch(sent[0]).response)))
    {
      if probed {
        return [];
      }
      probed := true;
      var res;
      res, sent := FetchWithAuth(store, baseUrl + "/auth/me", NoOptions, fetch);
      if res.Responded? && IsOk(res.response) {
        accessToken := Some(ValidMarker);
      } else {
        accessToken := None;
      }
      loading := false;
    }
  }

  /** What `ProtectedRoute` renders. */
  datatype GuardView = GuardLoading | RedirectHome | ShowChildren

  /**
   * `ProtectedRoute`: a placeholder while loading, a replacing redirect to
   * `/` without a (truthy) token, the children otherwise.
   */
  function Guard(accessToken: Option<string>, loading: bool): (v: GuardView)
    ensures loading <==> v == GuardLoading
    ensures !loading ==> (v == ShowChildren <==> Truthy(accessToken))
  {
    if loading then GuardLoading
    else if !Truthy(accessToken) then RedirectHome
    else ShowChildren
  }

  /** The paths of the route table; anything else matches no route. */
  datatype Path = Root | DashboardPath | ReceiptPath | ProfilePath | ReviewPath(receiptId: string) | TestPath
                | Unmatched(path: string)

  /** The pages the application can show. */
  datatype Page = LoginPage | DashboardPage | ReceiptManagementPage | ProfilePage | ReviewReceiptPage(receiptId: string)
                | TestPage

  /** What `App` renders for a path. */
  datatype View =
    | AppLoading                         // `App`'s own loading view
    | GuardPlaceholder                   // `ProtectedRoute`'s loading view
    | Redirect(target: Path)             // `<Navigate replace>`
    | Show(page: Page)
    | NothingMatched

  /** The routes wrapped in `ProtectedRoute`. */
  predicate IsProtected(p: Path) {
    p.DashboardPath? || p.ReceiptPath? || p.ProfilePath? || p.ReviewPath?
  }

  /** The page a protected route shows once the guard lets it through. */
  function ProtectedPage(p: Path): Page
    requires IsProtected(p)
  {
    match p
    case DashboardPath => DashboardPage
    case ReceiptPath => ReceiptManagementPage
    case ProfilePath => ProfilePage
    case ReviewPath(id) => ReviewReceiptPage(id)
  }

  /** `App` with the context's `accessToken` and `loading`: the loading gate, then the route table. */
  function AppView(p: Path, accessToken: Option<string>, loading: bool): (v: View)
    ensures loading ==> v == AppLoading
    ensures !loading && p == Root ==> v == if Truthy(accessToken) then Redirect(DashboardPath) else Show(LoginPage)
    ensures !loading && p == TestPath ==> v == Show(TestPage)
  {
    if loading then AppLoading
    else match p
      case Root => if Truthy(accessToken) then Redirect(DashboardPath) else Show(LoginPage)
      case TestPath => Show(TestPage)
      case Unmatched(_) => NothingMatched
      case _ =>
        match Guard(accessToken, loading)
        case GuardLoading => GuardPlaceholder
        case RedirectHome => Redirect(Root)
        case ShowChildren => Show(ProtectedPage(p))
  }

  /** Once loaded, a protected page is shown exactly when the token is truthy, and otherwise sends the user home. */
  lemma ProtectedRoutes(p: Path, accessToken: Option<string>)
    requires IsProtected(p)
    ensures AppView(p, accessToken, false) == Show(ProtectedPage(p)) <==> Truthy(accessToken)
    ensures !Truthy(accessToken) ==> AppView(p, accessToken, false) == Redirect(Root)
  {
  }

  /**
   * Redirects never loop: following the one redirect a loaded route may
   * issue always lands on a page.
   */
  lemma RedirectsSettle(p: Path, accessToken: Option<string>)
    ensures AppView(p, accessToken, false).Redirect? ==>
      AppView(AppView(p, accessToken, false).target, accessToken, false).Show?
  {
  }

  /** What the browser shows: the provider's loading text, or `App` once the probe is done. */
  datatype Screen = AuthenticationLoading | Rendered(view: View)

  /** `AuthProvider` renders its children only when not loading. */
  function ProviderScreen(p: Path, accessToken: Option<string>, loading: bool): (s: Screen)
    ensures loading <==> s == AuthenticationLoading
  {
    if loading then AuthenticationLoading else Rendered(AppView(p, accessToken, loading))
  }

  /**
   * Under the provider, neither `App`'s loading view nor `ProtectedRoute`'s
   * placeholder can ever appear: both gates are shadowed by the provider's.
   */
  lemma InnerLoadingViewsUnreachable(p: Path, accessToken: Option<string>, loading: bool)
    ensures ProviderScreen(p, accessToken, loading) != Rendered(AppLoading)
    ensures ProviderScreen(p, accessToken, loading) != Rendered(GuardPlaceholder)
  {
  }

  /**
   * After the mount probe, a protected page is on screen exactly when the
   * probe came back 2xx.
   */
  method ProbeThenOpen(store: TokenStore, baseUrl: string, fetch: Request -> FetchOutcome, p: Path)
    returns (screen: Screen, sent: seq<Request>)
    requires IsProtected(p)
    ensures |sent| == 1
    ensures screen == Rendered(Show(ProtectedPage(p))) <==> fetch(sent[0]).Responded? && IsOk(fetch(sent[0]).response)
  {
    var provider := new AuthProvider();
    sent := provider.CheckAuth(store, baseUrl, fetch);
    screen := ProviderScreen(p, provider.accessToken, provider.loading);
  }
}

=== FILE: text.dfy ===
/**
 * String helpers with the exact semantics of the JavaScript and Python
 * built-ins the application relies on: `trim`/`strip`, `split`, `join`,
 * `replace(x, "")`, `startswith`/`endswith`, `indexOf`, `str(int)` and
 * zero-padded integer formatting.
 */
module Text {

  /** The characters removed by JavaScript's `String.prototype.trim` (WhiteSpace and LineTerminator). */
  predicate IsJsSpace(c: char) {
    c == '\t' || c == '\n' || c == '\U{000B}' || c == '\U{000C}' || c == '\r' || c == ' '
    || c == '\U{00A0}' || c == '\U{1680}' || ('\U{2000}' <= c <= '\U{200A}')
    || c == '\U{2028}' || c == '\U{2029}' || c == '\U{202F}' || c == '\U{205F}'
    || c == '\U{3000}' || c == '\U{FEFF}'
  }

  /** The characters for which Python's `str.isspace` holds; `str.strip()` removes exactly these. */
  predicate IsPySpace(c: char) {
    ('\t' <= c <= '\r') || ('\U{001C}' <= c <= '\U{001F}') || c == ' '
    || c == '\U{0085}' || c == '\U{00A0}' || c == '\U{1680}' || ('\U{2000}' <= c <= '\U{200A}')
    || c == '\U{2028}' || c == '\U{2029}' || c == '\U{202F}' || c == '\U{205F}' || c == '\U{3000}'
  }

  /** Length of the longest prefix of `s` made of `ws` characters. */
  function LeadingCount(s: string, ws: char -> bool): (n: nat)
    ensures n <= |s|
    ensures forall k :: 0 <= k < n ==> ws(s[k])
    ensures n < |s| ==> !ws(s[n])
  {
    if |s| > 0 && ws(s[0]) then 1 + LeadingCount(s[1..], ws) else 0
  }

  /** Start index of the longest suffix of `s` made of `ws` characters. */
  function TrailingStart(s: string, ws: char -> bool): (n: nat)
    ensures n <= |s|
    ensures forall k :: n <= k < |s| ==> ws(s[k])
    ensures 0 < n ==> !ws(s[n - 1])
  {
    if |s| > 0 && ws(s[|s| - 1]) then TrailingStart(s[..|s| - 1], ws) else |s|
  }

  /** `s` without its leading and trailing `ws` characters. */
  function Strip(s: string, ws: char -> bool): (r: string)
    ensures |r| <= |s|
    ensures r == [] || (!ws(r[0]) && !ws(r[|r| - 1]))
    ensures r == [] <==> forall k :: 0 <= k < |s| ==> ws(s[k])
    ensures LeadingCount(s, ws) + |r| <= |s|
    ensures forall k :: 0 <= k < |r| ==> r[k] == s[LeadingCount(s, ws) + k]
    ensures forall k :: LeadingCount(s, ws) + |r| <= k < |s| ==> ws(s[k])
  {
    var lead := LeadingCount(s, ws);
    var t := s[lead..];
    var n := TrailingStart(t, ws);
    assert forall k :: lead + n <= k < |s| ==> ws(s[k]) by {
      forall k | lead + n <= k < |s| ensures ws(s[k]) {
        assert s[k] == t[k - lead];
      }
    }
    t[..n]
  }

  /** Concatenation regroups freely (stated once so that proofs need not rediscover it). */
  lemma AppendAssociative<T>(a: seq<T>, b: seq<T>, c: seq<T>)
    ensures (a + b) + c == a + (b + c)
  {
  }

  /** A non-empty sequence is its first element followed by the rest. */
  lemma HeadTail<T>(s: seq<T>)
    requires |s| > 0
    ensures s == [s[0]] + s[1..]
  {
  }

  /** JavaScript `s.trim()`. */
  function JsTrim(s: string): string {
    Strip(s, IsJsSpace)
  }

  /** Python `s.strip()`. */
  function PyStrip(s: string): string {
    Strip(s, IsPySpace)
  }

  /** Stripping a string that has no removable character at either end changes nothing. */
  lemma StripUnpadded(s: string, ws: char -> bool)
    requires s == [] || (!ws(s[0]) && !ws(s[|s| - 1]))
    ensures Strip(s, ws) == s
  {
  }

  /** `trim` is idempotent. */
  lemma StripIdempotent(s: string, ws: char -> bool)
    ensures Strip(Strip(s, ws), ws) == Strip(s, ws)
  {
    StripUnpadded(Strip(s, ws), ws);
  }

  /** Every character of `Strip(s)` occurs in `s`. */
  lemma StripMembers(s: string, ws: char -> bool)
    ensures forall x :: x in Strip(s, ws) ==> x in s
  {
    var r := Strip(s, ws);
    forall x | x in r ensures x in s {
      var k :| 0 <= k < |r| && r[k] == x;
      assert s[LeadingCount(s, ws) + k] == x;
    }
  }

  /** ASCII upper-casing of one character. */
  function UpperChar(c: char): (u: char)
    ensures 'a' <= c <= 'z' ==> 'A' <= u <= 'Z' && u as int == c as int - 32
    ensures !('a' <= c <= 'z') ==> u == c
  {
    if 'a' <= c <= 'z' then (c as int - 32) as char else c
  }

  /** ASCII lower-casing of one character. */
  function LowerChar(c: char): (l: char)
    ensures 'A' <= c <= 'Z' ==> 'a' <= l <= 'z' && l as int == c as int + 32
    ensures !('A' <= c <= 'Z') ==> l == c
  {
    if 'A' <= c <= 'Z' then (c as int + 32) as char else c
  }

  /** `s.upper()` / `s.toUpperCase()`, on the ASCII letters. */
  function Upper(s: string): (r: string)
    ensures |r| == |s| && forall k :: 0 <= k < |s| ==> r[k] == UpperChar(s[k])
  {
    seq(|s|, k requires 0 <= k < |s| => UpperChar(s[k]))
  }

  /** `s.lower()`, on the ASCII letters. */
  function Lower(s: string): (r: string)
    ensures |r| == |s| && forall k :: 0 <= k < |s| ==> r[k] == LowerChar(s[k])
  {
    seq(|s|, k requires 0 <= k < |s| => LowerChar(s[k]))
  }

  /** Lower-casing twice is lower-casing once. */
  lemma LowerIdempotent(s: string)
    ensures Lower(Lower(s)) == Lower(s)
  {
  }

  /** Upper-casing a string without ASCII lower-case letters changes nothing. */
  lemma UpperNoLowercase(s: string)
    requires forall k :: 0 <= k < |s| ==> !('a' <= s[k] <= 'z')
    ensures Upper(s) == s
  {
  }

  /** Python `s.startswith(p)` / JavaScript `s.startsWith(p)`. */
  predicate StartsWith(s: string, p: string) {
    |p| <= |s| && s[..|p|] == p
  }

  /** Python `s.endswith(p)`. */
  predicate EndsWith(s: string, p: string) {
    |p| <= |s| && s[|s| - |p|..] == p
  }

  /** `needle` occurs in `hay` starting at position `i`. */
  predicate OccursAt(hay: string, needle: string, i: int) {
    0 <= i && i + |needle| <= |hay| && hay[i..i + |needle|] == needle
  }

  /** Python `needle in hay` for strings: `needle` occurs as a contiguous substring. */
  predicate Contains(hay: string, needle: string)
    decreases |hay|
  {
    StartsWith(hay, needle) || (|hay| > 0 && Contains(hay[1..], needle))
  }

  /** `Contains` holds exactly when there is a position where `needle` starts. */
  lemma {:induction false} ContainsAt(hay: string, needle: string)
    ensures Contains(hay, needle) <==> exists i :: OccursAt(hay, needle, i)
    decreases |hay|
  {
    if StartsWith(hay, needle) {
      assert OccursAt(hay, needle, 0);
    }
    if |hay| > 0 {
      ContainsAt(hay[1..], needle);
      if Contains(hay[1..], needle) {
        var i :| OccursAt(hay[1..], needle, i);
        assert OccursAt(hay, needle, i + 1);
      }
      if exists i :: OccursAt(hay, needle, i) {
        var i :| OccursAt(hay, needle, i);
        if i > 0 {
          assert OccursAt(hay[1..], needle, i - 1);
        }
      }
    }
  }

  /** Python `s.replace(c, "")` for a one-character `c`: every occurrence of `c` dropped. */
  function DropChar(s: string, c: char): (r: string)
    ensures c !in r
    ensures |r| <= |s|
    ensures forall x :: x in r <==> x in s && x != c
  {
    if |s| == 0 then []
    else if s[0] == c then DropChar(s[1..], c)
    else [s[0]] + DropChar(s[1..], c)
  }

  /** Every character other than `c` is kept as many times as it occurs. */
  lemma {:induction false} DropCharCounts(s: string, c: char)
    ensures multiset(DropChar(s, c)) == multiset(s)[c := 0]
  {
    if |s| > 0 {
      assert s == [s[0]] + s[1..];
      DropCharCounts(s[1..], c);
    }
  }

  /** Dropping a character works piece by piece: the kept characters stay in their order. */
  lemma {:induction false} DropCharAppend(a: string, b: string, c: char)
    ensures DropChar(a + b, c) == DropChar(a, c) + DropChar(b, c)
    ensures |a| == 1 ==> DropChar(a, c) == if a[0] == c then [] else a
  {
    if |a| > 0 {
      assert (a + b)[0] == a[0];
      assert (a + b)[1..] == a[1..] + b;
      DropCharAppend(a[1..], b, c);
    } else {
      assert a + b == b;
    }
  }

  /** Dropping a character that does not occur changes nothing. */
  lemma {:induction false} DropCharAbsent(s: string, c: char)
    requires c !in s
    ensures DropChar(s, c) == s
  {
    if |s| > 0 {
      assert c !in s[1..];
      DropCharAbsent(s[1..], c);
    }
  }

  /** `s` with every character of `cs` removed, one `replace` after another. */
  function DropEach(s: string, cs: seq<char>): (r: string)
    ensures forall c :: c in cs ==> c !in r
    ensures forall x :: x in r ==> x in s
    decreases |cs|
  {
    if |cs| == 0 then s
    else
      var r := DropChar(DropEach(s, cs[..|cs| - 1]), cs[|cs| - 1]);
      assert forall c :: c in cs ==> c in cs[..|cs| - 1] || c == cs[|cs| - 1];
      r
  }

  /** A string that has none of the characters is left as it is. */
  lemma {:induction false} DropEachAbsent(s: string, cs: seq<char>)
    requires forall c :: c in cs ==> c !in s
    ensures DropEach(s, cs) == s
    decreases |cs|
  {
    if |cs| > 0 {
      DropEachAbsent(s, cs[..|cs| - 1]);
      DropCharAbsent(s, cs[|cs| - 1]);
    }
  }

  /** Removing several characters works piece by piece: the kept characters stay in their order. */
  lemma {:induction false} DropEachAppend(a: string, b: string, cs: seq<char>)
    ensures DropEach(a + b, cs) == DropEach(a, cs) + DropEach(b, cs)
    decreases |cs|
  {
    if |cs| > 0 {
      DropEachAppend(a, b, cs[..|cs| - 1]);
      DropCharAppend(DropEach(a, cs[..|cs| - 1]), DropEach(b, cs[..|cs| - 1]), cs[|cs| - 1]);
    }
  }

  /** One character is dropped when it is listed and kept otherwise. */
  lemma {:induction false} DropEachOne(x: char, cs: seq<char>)
    ensures DropEach([x], cs) == if x in cs then [] else [x]
    decreases |cs|
  {
    if |cs| > 0 {
      DropEachOne(x, cs[..|cs| - 1]);
      assert x in cs <==> x in cs[..|cs| - 1] || x == cs[|cs| - 1];
    }
  }

  /**
   * Python `s.replace(pat, "")`: occurrences of `pat` are found left to right,
   * without overlap, and deleted in one pass.
   */
  function RemoveAll(s: string, pat: string): (r: string)
    requires |pat| > 0
    ensures |r| <= |s|
    decreases |s|
  {
    if |s| < |pat| then s
    else if s[..|pat|] == pat then RemoveAll(s[|pat|..], pat)
    else [s[0]] + RemoveAll(s[1..], pat)
  }

  /** Without an occurrence of `pat`, nothing is deleted. */
  lemma {:induction false} RemoveAllAbsent(s: string, pat: string)
    requires |pat| > 0
    requires forall i :: !OccursAt(s, pat, i)
    ensures RemoveAll(s, pat) == s
    decreases |s|
  {
    if |s| >= |pat| {
      assert !OccursAt(s, pat, 0);
      forall i ensures !OccursAt(s[1..], pat, i) {
        if 0 <= i && i + |pat| <= |s[1..]| {
          assert !OccursAt(s, pat, i + 1);
          assert s[1..][i..i + |pat|] == s[i + 1..i + 1 + |pat|];
        }
      }
      RemoveAllAbsent(s[1..], pat);
      assert [s[0]] + s[1..] == s;
    }
  }

  /**
   * The leftmost occurrence is deleted and the scan resumes right after it:
   * the text before it is kept as it is.
   */
  lemma {:induction false} RemoveAllFirst(a: string, pat: string, b: string)
    requires |pat| > 0
    requires forall i :: 0 <= i < |a| ==> !OccursAt(a + pat + b, pat, i)
    ensures RemoveAll(a + pat + b, pat) == a + RemoveAll(b, pat)
    decreases |a|
  {
    var s := a + pat + b;
    if |a| == 0 {
      assert s == pat + b;
      assert s[..|pat|] == pat;
      assert s[|pat|..] == b;
    } else {
      assert !OccursAt(s, pat, 0);
      assert s[1..] == a[1..] + pat + b;
      forall i | 0 <= i < |a[1..]| ensures !OccursAt(a[1..] + pat + b, pat, i) {
        assert !OccursAt(s, pat, i + 1);
        assert s[i + 1..i + 1 + |pat|] == s[1..][i..i + |pat|];
      }
      RemoveAllFirst(a[1..], pat, b);
      assert [a[0]] + (a[1..] + RemoveAll(b, pat)) == a + RemoveAll(b, pat);
    }
  }

  /** Deleting a one-character pattern is `DropChar`. */
  lemma {:induction false} RemoveAllOneChar(s: string, c: char)
    ensures RemoveAll(s, [c]) == DropChar(s, c)
    decreases |s|
  {
    if |s| > 0 {
      RemoveAllOneChar(s[1..], c);
    }
  }

  /** The decimal digit character for `d`. */
  function DigitChar(d: nat): (c: char)
    requires d < 10
    ensures '0' <= c <= '9' && c as int - '0' as int == d
  {
    ('0' as int + d) as char
  }

  /** The value of a decimal digit string (used only to prove `Decimal` injective). */
  function DigitsValue(s: string): nat
    requires forall k :: 0 <= k < |s| ==> '0' <= s[k] <= '9'
  {
    if |s| == 0 then 0 else 10 * DigitsValue(s[..|s| - 1]) + (s[|s| - 1] as int - '0' as int)
  }

  /** Python `str(n)` / JavaScript `String(n)` for a natural number. */
  function Decimal(n: nat): (s: string)
    ensures |s| >= 1
    ensures forall k :: 0 <= k < |s| ==> '0' <= s[k] <= '9'
    ensures |s| > 1 ==> s[0] != '0'
  {
    if n < 10 then [DigitChar(n)] else Decimal(n / 10) + [DigitChar(n % 10)]
  }

  /** Reading back what `Decimal` wrote gives the number: the two are inverse. */
  lemma {:induction false} DecimalRoundTrip(n: nat)
    ensures DigitsValue(Decimal(n)) == n
  {
    if n >= 10 {
      DecimalRoundTrip(n / 10);
      var s := Decimal(n);
      assert s[..|s| - 1] == Decimal(n / 10);
    }
  }

  /** Different numbers print differently. */
  lemma DecimalInjective(a: nat, b: nat)
    ensures Decimal(a) == Decimal(b) ==> a == b
  {
    DecimalRoundTrip(a);
    DecimalRoundTrip(b);
  }

  /** Python `str(i)` for any integer. */
  function IntString(i: int): (s: string)
    ensures i >= 0 ==> s == Decimal(i)
    ensures i < 0 ==> s == "-" + Decimal(-i)
  {
    if i < 0 then "-" + Decimal(-i) else Decimal(i)
  }

  /** Left-pads `s` with zeros up to `width` characters. */
  function ZeroPad(s: string, width: int): (r: string)
    ensures |r| == if |s| >= width then |s| else width
    ensures EndsWith(r, s)
    ensures forall k :: 0 <= k < |r| - |s| ==> r[k] == '0'
  {
    if |s| >= width then s else seq(width - |s|, _ => '0') + s
  }

  /** Python `f"{i:0{width}d}"`: the sign counts towards the width and zeros go after it. */
  function PadInt(i: int, width: int): (s: string)
    ensures i >= 0 ==> s == ZeroPad(Decimal(i), width)
    ensures i < 0 ==> s == "-" + ZeroPad(Decimal(-i), width - 1)
  {
    if i < 0 then "-" + ZeroPad(Decimal(-i), width - 1) else ZeroPad(Decimal(i), width)
  }

  /** `sep.join(parts)`. */
  function Join(parts: seq<string>, sep: string): string {
    if |parts| == 0 then ""
    else if |parts| == 1 then parts[0]
    else parts[0] + sep + Join(parts[1..], sep)
  }

  /** Python `s.split(sep)` with a one-character separator (empty pieces are kept). */
  function Split(s: string, sep: char): (parts: seq<string>)
    ensures |parts| >= 1
    ensures forall k :: 0 <= k < |parts| ==> sep !in parts[k]
    ensures Join(parts, [sep]) == s
  {
    if |s| == 0 then [""]
    else
      var rest := Split(s[1..], sep);
      if s[0] == sep then [""] + rest
      else [[s[0]] + rest[0]] + rest[1..]
  }

  /** A string without the separator splits into itself alone. */
  lemma {:induction false} SplitWithoutSeparator(s: string, sep: char)
    requires sep !in s
    ensures Split(s, sep) == [s]
  {
    if |s| > 0 {
      assert sep !in s[1..];
      SplitWithoutSeparator(s[1..], sep);
    }
  }

  /** Splitting a string that starts with a separator-free piece and a separator. */
  lemma {:induction false} SplitPrefix(a: string, rest: string, sep: char)
    requires sep !in a
    ensures Split(a + [sep] + rest, sep) == [a] + Split(rest, sep)
    decreases |a|
  {
    if |a| == 0 {
      assert (a + [sep] + rest)[1..] == rest;
    } else {
      assert (a + [sep] + rest)[1..] == a[1..] + [sep] + rest;
      assert sep !in a[1..];
      SplitPrefix(a[1..], rest, sep);
      assert [a[0]] + a[1..] == a;
    }
  }

  /** `split` undoes `join` when no piece contains the separator. */
  lemma {:induction false} SplitJoin(parts: seq<string>, sep: char)
    requires |parts| >= 1
    requires forall k :: 0 <= k < |parts| ==> sep !in parts[k]
    ensures Split(Join(parts, [sep]), sep) == parts
    decreases |parts|
  {
    if |parts| == 1 {
      SplitWithoutSeparator(parts[0], sep);
    } else {
      SplitJoin(parts[1..], sep);
      SplitPrefix(parts[0], Join(parts[1..], [sep]), sep);
      assert [parts[0]] + parts[1..] == parts;
    }
  }

  /** JavaScript `s.indexOf(x)` / `Array.prototype.indexOf`: the first position of `x`, or -1. */
  function IndexOf<T(==)>(s: seq<T>, x: T): (i: int)
    ensures -1 <= i < |s|
    ensures i == -1 <==> x !in s
    ensures 0 <= i ==> s[i] == x && x !in s[..i]
  {
    if |s| == 0 then -1
    else if s[0] == x then 0
    else
      var j := IndexOf(s[1..], x);
      if j == -1 then -1 else j + 1
  }
}

=== FILE: upload_list.dfy ===
/**
 * The list of uploads on the receipt management page (frontend
 * `pages/ReceiptManagement.jsx`): one entry per picked file, progress
 * reported by the upload, a progress animation to 100% once the upload
 * succeeds, and a refresh counter that makes the receipt table reload.
 * Clock readings (`Date.now()`), the random id suffix and the animation
 * frames are parameters.
 */
module UploadList {
  import opened Wrappers
  import opened Text
  import UploadProgress

  /** The unit `formatFileSize` picks for a byte count. */
  datatype SizeLabel = InBytes(bytes: int) | InKilobytes(bytes: int) | InMegabytes(bytes: int)

  /**
   * `formatFileSize(bytes)`: bytes below 1024, kilobytes below 1024 * 1024,
   * megabytes otherwise.  The label records the byte count; the decimal
   * rendering (`toFixed`) is not modelled.
   */
  function FormatFileSize(bytes: int): (l: SizeLabel)
    ensures l.bytes == bytes
    ensures l.InBytes? <==> bytes < 1024
    ensures l.InKilobytes? <==> 1024 <= bytes < 1024 * 1024
    ensures l.InMegabytes? <==> 1024 * 1024 <= bytes
  {
    if bytes < 1024 then InBytes(bytes)
    else if bytes < 1024 * 1024 then InKilobytes(bytes)
    else InMegabytes(bytes)
  }

  datatype Status = Uploading | Completed | Failed

  /** One row of the "Uploaded Files" card. */
  datatype FileEntry = FileEntry(
    id: string,
    name: string,
    size: SizeLabel,
    progress: real,
    isImage: bool,
    status: Status)

  /**
   * `${file.name}_${Date.now()}_${suffix}`, where `suffix` stands for the
   * random base-36 text and `stamp` for the clock reading in milliseconds
   * since the epoch, which is never negative.
   */
  function MakeId(name: string, stamp: nat, suffix: string): string {
    name + "_" + Decimal(stamp) + "_" + suffix
  }

  /** Two cuts at a last occurrence of `c`: the tail of the first is no shorter than the other's. */
  lemma TailNotShorter(a: string, b: string, a': string, b': string, c: char)
    requires a + [c] + b == a' + [c] + b'
    requires c !in b'
    ensures |b'| <= |b|
  {
    var x := a + [c] + b;
    var y := a' + [c] + b';
    assert x[|x| - |b| - 1] == c;
    assert forall i :: |y| - |b'| <= i < |y| ==> y[i] == b'[i - (|y| - |b'|)];
  
  }

  /** Cutting a string at its last occurrence of `c`: the parts before and after are determined. */
  lemma LastSeparator(a: string, b: string, a': string, b': string, c: char)
    requires a + [c] + b == a' + [c] + b'
    requires c !in b && c !in b'
    ensures a == a' && b == b'
  {
    TailNotShorter(a, b, a', b', c);
    TailNotShorter(a', b', a, b, c);
    var x := a + [c] + b;
    assert b == x[|x| - |b|..] == b';
    assert a == x[..|a|] == a';
  }

  /**
   * Ids tell their files apart: for clock readings that are never negative and
   * suffixes without `_` (base-36 text), equal ids come from the same name,
   * the same time and the same suffix, even when names contain `_`.
   */
  lemma MakeIdInjective(n1: string, t1: nat, s1: string, n2: string, t2: nat, s2: string)
    requires '_' !in s1 && '_' !in s2
    requires MakeId(n1, t1, s1) == MakeId(n2, t2, s2)
    ensures n1 == n2 && t1 == t2 && s1 == s2
  {
    var d1, d2 := Decimal(t1), Decimal(t2);
    assert '_' !in d1 && '_' !in d2 by {
      assert forall k :: 0 <= k < |d1| ==> d1[k] != '_';
      assert forall k :: 0 <= k < |d2| ==> d2[k] != '_';
    }
    assert MakeId(n1, t1, s1) == (n1 + "_" + d1) + ['_'] + s1;
    assert MakeId(n2, t2, s2) == (n2 + "_" + d2) + ['_'] + s2;
    LastSeparator(n1 + "_" + d1, s1, n2 + "_" + d2, s2, '_');
    assert n1 + "_" + d1 == n1 + ['_'] + d1;
    assert n2 + "_" + d2 == n2 + ['_'] + d2;
    LastSeparator(n1, d1, n2, d2, '_');
    DecimalInjective(t1, t2);
  }

  /** The entry `handleFiles` appends for a new file: 0%, uploading. */
  function NewEntry(id: string, file: UploadProgress.File): (e: FileEntry)
    ensures e.id == id && e.name == file.name && e.progress == 0.0 && e.status == Uploading
    ensures e.size == FormatFileSize(file.size) && (e.isImage <==> StartsWith(file.mimeType, "image"))
  {
    FileEntry(id, file.name, FormatFileSize(file.size), 0.0, StartsWith(file.mimeType, "image"), Uploading)
  }

  /** The rows appended for `picked`, the k-th new row carrying `ids[k]`. */
  function NewEntries(ids: seq<string>, picked: seq<UploadProgress.File>): (r: seq<FileEntry>)
    requires |ids| == |picked|
    ensures |r| == |picked|
    ensures forall k :: 0 <= k < |picked| ==> r[k] == NewEntry(ids[k], picked[k])
  {
    if |picked| == 0 then []
    else
      var n := |picked| - 1;
      var prev := NewEntries(ids[..n], picked[..n]);
      assert forall k :: 0 <= k < n ==> ids[..n][k] == ids[k] && picked[..n][k] == picked[k];
      prev + [NewEntry(ids[n], picked[n])]
  }

  /** The ids `handleFiles` builds for `picked`, in order. */
  function MakeIds(picked: seq<UploadProgress.File>, stamps: seq<nat>, suffixes: seq<string>): (ids: seq<string>)
    requires |stamps| == |picked| && |suffixes| == |picked|
    ensures |ids| == |picked|
  {
    if |picked| == 0 then []
    else
      var n := |picked| - 1;
      MakeIds(picked[..n], stamps[..n], suffixes[..n]) + [MakeId(picked[n].name, stamps[n], suffixes[n])]
  }

  /** The k-th id is built from the k-th file, clock reading and suffix. */
  lemma {:induction false} MakeIdsAt(picked: seq<UploadProgress.File>, stamps: seq<nat>, suffixes: seq<string>, k: nat)
    requires |stamps| == |picked| && |suffixes| == |picked| && k < |picked|
    ensures MakeIds(picked, stamps, suffixes)[k] == MakeId(picked[k].name, stamps[k], suffixes[k])
  {
    var n := |picked| - 1;
    if k < n {
      MakeIdsAt(picked[..n], stamps[..n], suffixes[..n], k);
      assert picked[..n][k] == picked[k] && stamps[..n][k] == stamps[k] && suffixes[..n][k] == suffixes[k];
    }
  }

  /** Handling one more file appends its id. */
  lemma MakeIdsStep(picked: seq<UploadProgress.File>, stamps: seq<nat>, suffixes: seq<string>, k: nat)
    requires |stamps| == |picked| && |suffixes| == |picked| && k < |picked|
    ensures MakeIds(picked[..k + 1], stamps[..k + 1], suffixes[..k + 1])
         == MakeIds(picked[..k], stamps[..k], suffixes[..k]) + [MakeId(picked[k].name, stamps[k], suffixes[k])]
  {
    assert picked[..k + 1][..k] == picked[..k] && stamps[..k + 1][..k] == stamps[..k] && suffixes[..k + 1][..k] == suffixes[..k];
  }

  /** Handling one more file appends its row. */
  lemma NewEntriesStep(ids: seq<string>, picked: seq<UploadProgress.File>, id: string, k: nat)
    requires |ids| == k < |picked|
    ensures NewEntries(ids + [id], picked[..k + 1]) == NewEntries(ids, picked[..k]) + [NewEntry(id, picked[k])]
  {
    assert (ids + [id])[..k] == ids && picked[..k + 1][..k] == picked[..k];
  }

  /** The progress callback's update: the entry with `id` shows `percent` and is uploading again. */
  function WithProgress(files: seq<FileEntry>, id: string, percent: int): (r: seq<FileEntry>)
    ensures |r| == |files|
    ensures forall i :: 0 <= i < |files| ==>
      r[i] == if files[i].id == id then files[i].(progress := percent as real, status := Uploading) else files[i]
  {
    seq(|files|, i requires 0 <= i < |files| =>
      if files[i].id == id then files[i].(progress := percent as real, status := Uploading) else files[i])
  }

  /** The failure handler's update: the entry with `id` is marked failed. */
  function WithFailure(files: seq<FileEntry>, id: string): (r: seq<FileEntry>)
    ensures |r| == |files|
    ensures forall i :: 0 <= i < |files| ==>
      r[i] == if files[i].id == id then files[i].(status := Failed) else files[i]
  {
    seq(|files|, i requires 0 <= i < |files| => if files[i].id == id then files[i].(status := Failed) else files[i])
  }

  /** Ids are pairwise distinct. */
  predicate DistinctIds(files: seq<FileEntry>) {
    forall i, j :: 0 <= i < j < |files| ==> files[i].id != files[j].id
  }

  /**
   * With distinct ids, a progress report changes exactly one entry (the one
   * with its id) and nothing else.
   */
  lemma ProgressTouchesOneEntry(files: seq<FileEntry>, i: int, percent: int)
    requires DistinctIds(files) && 0 <= i < |files|
    ensures var r := WithProgress(files, files[i].id, percent);
      && r[i].progress == percent as real && r[i].status == Uploading && r[i].id == files[i].id
      && forall j :: 0 <= j < |files| && j != i ==> r[j] == files[j]
  {
    var r := WithProgress(files, files[i].id, percent);
    forall j | 0 <= j < |files| && j != i
      ensures r[j] == files[j]
    {
      if j < i {
        assert files[j].id != files[i].id;
      } else {
        assert files[i].id != files[j].id;
      }
    }
  }

  /**
   * Callbacks of two different uploads may arrive in either order: a
   * progress report for one file and the failure of another commute.
   */
  lemma CallbacksCommute(files: seq<FileEntry>, a: string, b: string, percent: int)
    requires a != b
    ensures WithProgress(WithFailure(files, a), b, percent) == WithFailure(WithProgress(files, b, percent), a)
  {
  }

  /** One animation frame: every entry NAMED `name` shows `p`, and turns completed when `p` is 100. */
  function ApplyFrame(files: seq<FileEntry>, name: string, p: real): (r: seq<FileEntry>)
    ensures |r| == |files|
    ensures forall i :: 0 <= i < |files| ==>
      r[i] == if files[i].name == name
              then files[i].(progress := p, status := if p == 100.0 then Completed else files[i].status)
              else files[i]
  {
    seq(|files|, i requires 0 <= i < |files| =>
      if files[i].name == name
      then files[i].(progress := p, status := if p == 100.0 then Completed else files[i].status)
      else files[i])
  }

  /** The list after the animation frames showing `shown`, in order. */
  function AfterFrames(files: seq<FileEntry>, name: string, shown: seq<real>): (r: seq<FileEntry>)
    ensures |r| == |files|
    decreases |shown|
  {
    if |shown| == 0 then files
    else ApplyFrame(AfterFrames(files, name, shown[..|shown| - 1]), name, shown[|shown| - 1])
  }

  /** One more frame after `shown`. */
  lemma FramesSnoc(files: seq<FileEntry>, name: string, shown: seq<real>, p: real)
    ensures AfterFrames(files, name, shown + [p]) == ApplyFrame(AfterFrames(files, name, shown), name, p)
  {
    assert (shown + [p])[..|shown|] == shown;
  }

  /**
   * What an animation leaves behind: the same rows in the same order; rows
   * with another name untouched; rows with the animated name showing the last
   * frame's value, and completed exactly when they already were or some frame
   * showed 100.
   */
  lemma {:induction false} AfterFramesEffect(files: seq<FileEntry>, name: string, shown: seq<real>)
    requires |shown| > 0
    ensures var r := AfterFrames(files, name, shown);
      && |r| == |files|
      && (forall i :: 0 <= i < |files| ==>
            r[i].id == files[i].id && r[i].name == files[i].name && r[i].size == files[i].size
            && r[i].isImage == files[i].isImage)
      && (forall i :: 0 <= i < |files| && files[i].name != name ==> r[i] == files[i])
      && (forall i :: 0 <= i < |files| && files[i].name == name ==>
            r[i].progress == shown[|shown| - 1]
            && r[i].status == if 100.0 in shown then Completed else files[i].status)
    decreases |shown|
  {
    var init := shown[..|shown| - 1];
    var last := shown[|shown| - 1];
    assert shown == init + [last];
    if |init| == 0 {
      assert AfterFrames(files, name, init) == files;
    } else {
      AfterFramesEffect(files, name, init);
    }
    assert 100.0 in shown <==> 100.0 in init || last == 100.0;
  }

  /**
   * The value one frame shows: `Math.min(from + (to - from) * (elapsed / duration), to)`,
   * on exact reals.
   */
  function FrameProgress(from: real, to: real, duration: int, elapsed: int): (p: real)
    requires duration > 0
    ensures p <= to
  {
    var raw := from + (to - from) * ((elapsed as real) / (duration as real));
    if raw <= to then raw else to
  }

  /**
   * Frames move from `from` towards `to`: a frame at or after `duration`
   * shows exactly `to`, and one before it shows a value in `[from, to)`.
   */
  lemma FrameProgressRange(from: real, to: real, duration: int, elapsed: int)
    requires duration > 0 && from < to && elapsed >= 0
    ensures elapsed >= duration ==> FrameProgress(from, to, duration, elapsed) == to
    ensures elapsed < duration ==> from <= FrameProgress(from, to, duration, elapsed) < to
  {
    var f := (elapsed as real) / (duration as real);
    var g := to - from;
    QuotientRange(elapsed as real, duration as real);
    var raw := from + g * f;
    if elapsed >= duration {
      ScaleReal(g, 1.0, f);
      assert g * 1.0 == g;
      assert raw >= to;
    } else {
      ScaleReal(g, 0.0, f);
      ScaleRealStrict(g, f, 1.0);
    }
  }

  /** The elapsed fraction of a duration: never negative, below one exactly before the end. */
  lemma QuotientRange(e: real, d: real)
    requires d > 0.0 && e >= 0.0
    ensures e / d >= 0.0
    ensures e < d <==> e / d < 1.0
  {
    var q := e / d;
    assert d * q == e;
    if q < 0.0 {
      ScaleRealStrict(d, q, 0.0);
    }
    if e < d && q >= 1.0 {
      ScaleReal(d, 1.0, q);
    }
    if e >= d && q < 1.0 {
      ScaleRealStrict(d, q, 1.0);
    }
  }

  lemma ScaleReal(g: real, a: real, b: real)
    requires g > 0.0 && a <= b
    ensures g * a <= g * b
  {
    assert g * b - g * a == g * (b - a);
  }

  lemma ScaleRealStrict(g: real, a: real, b: real)
    requires g > 0.0 && a < b
    ensures g * a < g * b
  {
    assert g * b - g * a == g * (b - a);
  }

  /** `Math.max(minDuration - elapsed, 300)` with `minDuration = 1200`. */
  function AnimationDuration(elapsed: int): (d: int)
    ensures d >= 300 && d >= 1200 - elapsed
    ensures d == 300 || d == 1200 - elapsed
  {
    if 1200 - elapsed >= 300 then 1200 - elapsed else 300
  }

  /** The page's state: the upload rows and the counter handed to the receipt table. */
  class UploadPanel {
    var files: seq<FileEntry>
    var refreshKey: nat

    constructor ()
      ensures files == [] && refreshKey == 0
    {
      files := [];
      refreshKey := 0;
    }

    /** The synchronous part of `handleFiles` for one file: build its id and append its row. */
    method AddFile(file: UploadProgress.File, stamp: nat, suffix: string) returns (id: string)
      modifies this
      ensures id == MakeId(file.name, stamp, suffix)
      ensures files == old(files) + [NewEntry(id, file)]
      ensures refreshKey == old(refreshKey)
    {
      id := file.name + "_" + Decimal(stamp) + "_" + suffix;
      files := files + [FileEntry(id, file.name, FormatFileSize(file.size), 0.0, StartsWith(file.mimeType, "image"), Uploading)];
    }

    /**
     * `handleFiles(fileList)`: one row per file, in the order given; the
     * k-th file is stamped with `stamps[k]` and `suffixes[k]`.
     */
    method AddFiles(picked: seq<UploadProgress.File>, stamps: seq<nat>, suffixes: seq<string>) returns (ids: seq<string>)
      requires |stamps| == |picked| && |suffixes| == |picked|
      modifies this
      ensures ids == MakeIds(picked, stamps, suffixes)
      ensures files == old(files) + NewEntries(ids, picked)
      ensures refreshKey == old(refreshKey)
    {
      ids := [];
      var k := 0;
      while k < |picked|
        invariant 0 <= k <= |picked| && |ids| == k
        invariant ids == MakeIds(picked[..k], stamps[..k], suffixes[..k])
        invariant files == old(files) + NewEntries(ids, picked[..k])
        invariant refreshKey == old(refreshKey)
      {
        var id := AddFile(picked[k], stamps[k], suffixes[k]);
        MakeIdsStep(picked, stamps, suffixes, k);
        NewEntriesStep(ids, picked, id, k);
        AppendAssociative(old(files), NewEntries(ids, picked[..k]), [NewEntry(id, picked[k])]);
        ids := ids + [id];
        k := k + 1;
      }
      assert picked[..k] == picked && stamps[..k] == stamps && suffixes[..k] == suffixes;
    }

    /**
     * The progress callback of one upload: a percentage below 100 is shown on
     * the row with `id` and remembered as the last progress; 100 and above (and
     * the NaN of an empty upload) are ignored.
     */
    method ReportProgress(id: string, percent: Option<int>, lastProgress: int) returns (last: int)
      modifies this
      ensures percent.Some? && percent.value < 100 ==> files == WithProgress(old(files), id, percent.value) && last == percent.value
      ensures !(percent.Some? && percent.value < 100) ==> files == old(files) && last == lastProgress
      ensures refreshKey == old(refreshKey)
    {
      last := lastProgress;
      if percent.Some? && percent.value < 100 {
        last := percent.value;
        files := WithProgress(files, id, percent.value);
      }
    }

    /** The failure handler: the row with `id` is marked failed. */
    method MarkFailed(id: string)
      modifies this
      ensures files == WithFailure(old(files), id) && refreshKey == old(refreshKey)
    {
      files := WithFailure(files, id);
    }

    /**
     * `animateProgress(fileName, from, to, duration)`: frames are drawn at
     * the clock readings `now` (the first one straight away) until a frame
     * reaches `to`; `shown` lists what the frames showed.  The frames are
     * finite here, so the animation may also end because `now` runs out.
     */
    method AnimateProgress(name: string, from: real, to: real, duration: int, start: int, now: seq<int>)
      returns (shown: seq<real>)
      requires duration > 0 && |now| >= 1
      modifies this
      ensures 1 <= |shown| <= |now|
      ensures forall k :: 0 <= k < |shown| ==> shown[k] == FrameProgress(from, to, duration, now[k] - start)
      ensures forall k :: 0 <= k < |shown| - 1 ==> shown[k] < to
      ensures |shown| < |now| ==> shown[|shown| - 1] == to
      ensures files == AfterFrames(old(files), name, shown)
      ensures refreshKey == old(refreshKey)
    {
      var progress := FrameProgress(from, to, duration, now[0] - start);
      FramesSnoc(files, name, [], progress);
      files := ApplyFrame(files, name, progress);
      shown := [progress];
      var k := 1;
      while progress < to && k < |now|
        invariant 1 <= k <= |now| && |shown| == k
        decreases |now| - k
        invariant forall j :: 0 <= j < k ==> shown[j] == FrameProgress(from, to, duration, now[j] - start)
        invariant forall j :: 0 <= j < k - 1 ==> shown[j] < to
        invariant progress == shown[k - 1]
        invariant files == AfterFrames(old(files), name, shown)
        invariant refreshKey == old(refreshKey)
      {
        progress := FrameProgress(from, to, duration, now[k] - start);
        FramesSnoc(old(files), name, shown, progress);
        files := ApplyFrame(files, name, progress);
        shown := shown + [progress];
        k := k + 1;
      }
    }

    /**
     * The success handler: bump the refresh counter so the receipt table
     * reloads, and animate the file's rows from the last reported progress
     * to 100 over `max(1200 - elapsed, 300)` ms.  The first frame's update
     * is queued synchronously, before the counter is bumped; the later frames
     * follow on `requestAnimationFrame`, after it.
     */
    method CompleteUpload(name: string, lastProgress: int, startTime: int, finishTime: int, now: seq<int>)
      returns (shown: seq<real>)
      requires |now| >= 1
      modifies this
      ensures 1 <= |shown| <= |now|
      ensures forall k :: 0 <= k < |shown| ==>
        shown[k] == FrameProgress(lastProgress as real, 100.0, AnimationDuration(finishTime - startTime), now[k] - finishTime)
      ensures |shown| < |now| ==> shown[|shown| - 1] == 100.0
      ensures files == AfterFrames(old(files), name, shown)
      ensures refreshKey == old(refreshKey) + 1
    {
      var remaining := AnimationDuration(finishTime - startTime);
      refreshKey := refreshKey + 1;
      shown := AnimateProgress(name, lastProgress as real, 100.0, remaining, finishTime, now);
    }
  }

  /**
   * An animation that ends on its own leaves every row with the file's name
   * at 100% and completed.  Rows are matched by NAME, not id: an earlier
   * failed upload of a file with the same name is marked completed too.
   */
  lemma FinishedAnimationCompletes(files: seq<FileEntry>, name: string, shown: seq<real>, i: int)
    requires |shown| > 0 && shown[|shown| - 1] == 100.0
    requires 0 <= i < |files| && files[i].name == name
    ensures AfterFrames(files, name, shown)[i].progress == 100.0
    ensures AfterFrames(files, name, shown)[i].status == Completed
  {
    AfterFramesEffect(files, name, shown);
  }
}

=== FILE: upload_progress.dfy ===
/**
 * One file upload (frontend `customprocess/uploadProgress.js`): a multipart
 * POST carrying the stored bearer token; a 401 on the first attempt leads to
 * one token refresh and one resend, and any failure after that point clears
 * the stored token.  The server is a parameter: `server(n, request)` is what
 * the n-th send (0 or 1) of `request` comes back with.
 */
module UploadProgress {
  import opened Wrappers
  import opened AuthClient

  /** A file picked in the browser. */
  datatype File = File(name: string, size: nat, mimeType: string)

  /** The request axios sends for one attempt. */
  datatype UploadRequest = UploadRequest(
    url: string,
    form: seq<(string, File)>,
    contentType: string,
    authorization: string,
    withCredentials: bool)

  /** How one send ends: a 2xx answer, a non-2xx answer (axios rejects), or no answer at all. */
  datatype SendOutcome = Uploaded(status: int) | RejectedWith(status: int) | NoResponse

  /** Why an upload failed: the send that failed, or the refresh that failed. */
  datatype UploadError = SendFailed(outcome: SendOutcome) | RefreshFailed(reason: RefreshError)

  /**
   * `Math.round(loaded * 100 / total)` for byte counts; `None` when `total`
   * is 0, where JavaScript computes NaN or Infinity.
   */
  function PercentCompleted(loaded: nat, total: nat): (p: Option<int>)
    ensures p.None? <==> total == 0
    ensures p.Some? ==> 2 * total * p.value <= 200 * loaded + total < 2 * total * (p.value + 1)
  {
    if total == 0 then None else Some((200 * loaded + total) / (2 * total))
  }

  /** Multiplying by a positive number keeps order. */
  lemma ScaleMono(t: int, a: int, b: int)
    requires t > 0 && a <= b
    ensures t * a <= t * b
  {
    var c := b - a;
    assert t * b == t * a + t * c;
  }

  /** The quotient of `n` by `d` is below `k + 1` when `n` is below `d * (k + 1)`. */
  lemma QuotientBelow(n: int, d: int, k: int)
    requires d > 0 && n < d * (k + 1)
    ensures n / d <= k
  {
    var q := n / d;
    assert d * q <= n;
    if q > k {
      ScaleMono(d, k + 1, q);
    }
  }

  /** The quotient of `n` by `d` is at least `k` when `n` is at least `d * k`. */
  lemma QuotientAbove(n: int, d: int, k: int)
    requires d > 0 && d * k <= n
    ensures k <= n / d
  {
    var q := n / d;
    assert n < d * (q + 1);
    if q < k {
      ScaleMono(d, q + 1, k);
    }
  }

  /** Of the bytes sent so far, the rounded percentage lies between 0 and 100, and is 100 at the end. */
  lemma PercentInRange(loaded: nat, total: nat)
    requires 0 < total && loaded <= total
    ensures 0 <= PercentCompleted(loaded, total).value <= 100
    ensures loaded == total ==> PercentCompleted(loaded, total).value == 100
  {
    var n := 200 * loaded + total;
    var d := 2 * total;
    assert PercentCompleted(loaded, total).value == n / d;
    assert n < d * 101;
    QuotientBelow(n, d, 100);
    QuotientAbove(n, d, 0);
    if loaded == total {
      assert d * 100 <= n;
      QuotientAbove(n, d, 100);
    }
  }

  /** The multipart form: one field named `file` holding the file. */
  function UploadForm(file: File): seq<(string, File)> {
    [("file", file)]
  }

  /** `Bearer ${token}`: a missing token is interpolated as the text `null`. */
  function BearerOf(token: Option<string>): string {
    "Bearer " + (if token.Some? then token.value else "null")
  }

  /** The request for one attempt with the given token. */
  function UploadRequestFor(baseUrl: string, file: File, token: Option<string>): (r: UploadRequest)
    ensures r.form == [("file", file)]
    ensures r.contentType == "multipart/form-data" && r.withCredentials
    ensures token.Some? ==> r.authorization == "Bearer " + token.value
    ensures token.None? ==> r.authorization == "Bearer null"
  {
    UploadRequest(baseUrl + "/receipts/upload", UploadForm(file), "multipart/form-data", BearerOf(token), true)
  }

  predicate IsUnauthorized(o: SendOutcome) {
    o.RejectedWith? && o.status == 401
  }

  /**
   * `uploadFile(file, onProgress)`.  Returns the result, the requests sent
   * and the number of refreshes made.  The first send uses the stored token;
   * only a 401 on it triggers a refresh, after which the new token is stored
   * and one resend is made.  A failed refresh or a failed resend removes the
   * stored token; any other failure leaves the store alone.
   */
  method UploadFile(store: TokenStore, baseUrl: string, file: File,
                    server: (nat, UploadRequest) -> SendOutcome, fetch: Request -> FetchOutcome)
    returns (result: Result<int, UploadError>, sent: seq<UploadRequest>, refreshes: nat)
    modifies store
    ensures 1 <= |sent| <= 2 && refreshes <= 1
    ensures sent[0] == UploadRequestFor(baseUrl, file, old(store.Token()))
    ensures !IsUnauthorized(server(0, sent[0])) ==>
      && |sent| == 1 && refreshes == 0 && store.items == old(store.items)
      && (server(0, sent[0]).Uploaded? ==> result == Ok(server(0, sent[0]).status))
      && (!server(0, sent[0]).Uploaded? ==> result == Err(SendFailed(server(0, sent[0]))))
    ensures IsUnauthorized(server(0, sent[0])) ==>
      var refreshed := RefreshOutcome(fetch(RefreshRequest()));
      && refreshes == 1
      && (refreshed.Err? ==>
            |sent| == 1 && result == Err(RefreshFailed(refreshed.error)) && store.items == old(store.items) - {TokenKey})
      && (refreshed.Ok? ==>
            && |sent| == 2
            && sent[1] == UploadRequestFor(baseUrl, file, Some(refreshed.value))
            && (server(1, sent[1]).Uploaded? ==>
                  result == Ok(server(1, sent[1]).status) && store.items == old(store.items)[TokenKey := refreshed.value])
            && (!server(1, sent[1]).Uploaded? ==>
                  result == Err(SendFailed(server(1, sent[1]))) && store.items == old(store.items) - {TokenKey}))
  {
    var token := store.GetItem(TokenKey);
    var request := UploadRequestFor(baseUrl, file, token);
    sent := [request];
    refreshes := 0;
    var first := server(0, request);
    if first.Uploaded? {
      return Ok(first.status), sent, refreshes;
    }
    if !IsUnauthorized(first) {
      return Err(SendFailed(first)), sent, refreshes;
    }
    // A 401: refresh once and resend once.  `refreshToken` only ever returns a
    // non-empty token, so the source's "no access token after refresh" check never fires.
    var refreshed := RefreshToken(store, fetch);
    refreshes := 1;
    if refreshed.Err? {
      store.RemoveItem(TokenKey);
      return Err(RefreshFailed(refreshed.error)), sent, refreshes;
    }
    token := Some(refreshed.value);
    store.SetItem(TokenKey, refreshed.value);
    var retry := UploadRequestFor(baseUrl, file, token);
    sent := sent + [retry];
    var second := server(1, retry);
    if second.Uploaded? {
      return Ok(second.status), sent, refreshes;
    }
    store.RemoveItem(TokenKey);
    return Err(SendFailed(second)), sent, refreshes;
  }
}

=== FILE: utils.dfy ===
/**
 * Backend helpers in `utils.py`: flattening a Textract `AnalyzeExpense`
 * answer into a label-to-value dict, and choosing a file name that the
 * user has not stored yet.
 */
module Utils {
  import opened Wrappers
  import opened Text
  import PyDict
  import opened ReceiptStore

  /** A JSON attribute that may be absent, explicitly `null`, or present. */
  datatype Slot<T> = Absent | Null | Present(value: T)

  /** A `LabelDetection` or `ValueDetection` object; `text` is `None` when `Text` is absent or null. */
  datatype Detection = Detection(text: Option<string>)

  /** One entry of `SummaryFields`. */
  datatype SummaryField = SummaryField(labelDetection: Slot<Detection>, valueDetection: Slot<Detection>)

  /** One entry of `ExpenseDocuments`. */
  datatype ExpenseDocument = ExpenseDocument(summaryFields: Slot<seq<SummaryField>>)

  /** The Textract answer, as far as it is read. */
  datatype ExpenseResponse = ExpenseResponse(expenseDocuments: Slot<seq<ExpenseDocument>>)

  /**
   * `field.get("...Detection", {}).get("Text", "")`: an absent detection
   * reads as `""`, a null one raises (`None` has no `.get`).
   */
  function DetectionText(d: Slot<Detection>): (t: Option<string>)
    ensures t.None? <==> d.Null?
  {
    match d
    case Absent => Some("")
    case Null => None
    case Present(det) => Some(det.text.GetOr(""))
  }

  /** How one summary field is handled: it raises, it is skipped, or it yields a pair. */
  datatype FieldRead = Raises | Skipped | Pair(key: string, text: string)

  /** The label is read first, then the value; the pair is kept only when both are non-empty. */
  function ReadField(f: SummaryField): (r: FieldRead)
    ensures r.Raises? <==> f.labelDetection.Null? || f.valueDetection.Null?
    ensures r.Pair? ==> r.key != "" && r.text != ""
    ensures r.Pair? <==> DetectionText(f.labelDetection).Some? && DetectionText(f.valueDetection).Some?
                         && DetectionText(f.labelDetection).value != "" && DetectionText(f.valueDetection).value != ""
  {
    match DetectionText(f.labelDetection)
    case None => Raises
    case Some(l) =>
      match DetectionText(f.valueDetection)
      case None => Raises
      case Some(v) => if l != "" && v != "" then Pair(l, v) else Skipped
  }

  /** The dict built so far, and whether an exception has ended the loops. */
  datatype Parse = Parse(fields: PyDict.Dict, raised: bool)

  /** Every key is unique and every label and value non-empty. */
  predicate WellFormed(d: PyDict.Dict) {
    PyDict.DistinctKeys(d) && forall e :: e in d ==> e.0 != "" && e.1 != ""
  }

  /** Assigning a non-empty label to a non-empty value keeps a dict well formed. */
  lemma PutKeepsWellFormed(d: PyDict.Dict, k: string, v: string)
    requires k != "" && v != ""
    ensures WellFormed(d) ==> WellFormed(PyDict.Put(d, k, v))
  {
    PyDict.PutEntries(d, k, v);
    if WellFormed(d) {
      PyDict.PutKeepsDistinct(d, k, v);
    }
  }

  /** The inner loop over a document's fields, starting from the dict `start`. */
  function AddFields(start: PyDict.Dict, fs: seq<SummaryField>): (p: Parse)
    ensures WellFormed(start) ==> WellFormed(p.fields)
    ensures p.raised <==> exists j :: 0 <= j < |fs| && ReadField(fs[j]).Raises?
    decreases |fs|
  {
    if |fs| == 0 then Parse(start, false)
    else
      var prev := fs[..|fs| - 1];
      var p := AddFields(start, prev);
      assert forall j :: 0 <= j < |prev| ==> prev[j] == fs[j];
      if p.raised then p
      else match ReadField(fs[|fs| - 1])
        case Raises => Parse(p.fields, true)
        case Skipped => p
        case Pair(l, v) =>
          PutKeepsWellFormed(p.fields, l, v);
          Parse(PyDict.Put(p.fields, l, v), false)
  }

  /** The outer loop over the documents. */
  function AddDocuments(docs: seq<ExpenseDocument>): (p: Parse)
    ensures WellFormed(p.fields)
    decreases |docs|
  {
    if |docs| == 0 then Parse([], false)
    else
      var p := AddDocuments(docs[..|docs| - 1]);
      if p.raised then p
      else match docs[|docs| - 1].summaryFields
        case Null => Parse(p.fields, true)
        case Absent => p
        case Present(fs) => AddFields(p.fields, fs)
  }

  /**
   * The dict `parse_textract_expense` returns: whatever was collected before
   * an exception, if one is raised; `{}` when there are no documents.
   */
  function ParsedFields(resp: ExpenseResponse): (d: PyDict.Dict)
    ensures WellFormed(d)
    ensures !resp.expenseDocuments.Present? ==> d == []
  {
    match resp.expenseDocuments
    case Present(docs) => AddDocuments(docs).fields
    case _ => []
  }

  /** Once a prefix of the fields has raised, the rest are never looked at. */
  lemma {:induction false} AddFieldsRaisedPrefix(start: PyDict.Dict, fs: seq<SummaryField>, j: nat)
    requires j <= |fs| && AddFields(start, fs[..j]).raised
    ensures AddFields(start, fs) == AddFields(start, fs[..j])
    decreases |fs|
  {
    if j < |fs| {
      var prev := fs[..|fs| - 1];
      assert prev[..j] == fs[..j];
      AddFieldsRaisedPrefix(start, prev, j);
    } else {
      assert fs[..j] == fs;
    }
  }

  /** Once a prefix of the documents has raised, the rest are never looked at. */
  lemma {:induction false} AddDocumentsRaisedPrefix(docs: seq<ExpenseDocument>, i: nat)
    requires i <= |docs| && AddDocuments(docs[..i]).raised
    ensures AddDocuments(docs) == AddDocuments(docs[..i])
    decreases |docs|
  {
    if i < |docs| {
      var prev := docs[..|docs| - 1];
      assert prev[..i] == docs[..i];
      AddDocumentsRaisedPrefix(prev, i);
    } else {
      assert docs[..i] == docs;
    }
  }

  /**
   * `parse_textract_expense(response)`: walks every field of every document
   * and assigns `summary_fields[label] = value` when both are non-empty; an
   * exception stops both loops and the dict collected so far is returned.
   */
  method ParseTextractExpense(response: ExpenseResponse) returns (summaryFields: PyDict.Dict)
    ensures summaryFields == ParsedFields(response)
  {
    summaryFields := [];
    if !response.expenseDocuments.Present? {
      return;
    }
    var docs := response.expenseDocuments.value;
    var raised := false;
    var i := 0;
    while i < |docs| && !raised
      invariant 0 <= i <= |docs|
      invariant Parse(summaryFields, raised) == AddDocuments(docs[..i])
    {
      assert docs[..i + 1][..i] == docs[..i];
      match docs[i].summaryFields {
        case Null =>
          raised := true;
        case Absent =>
        case Present(fs) =>
          ghost var start := summaryFields;
          var j := 0;
          while j < |fs| && !raised
            invariant 0 <= j <= |fs|
            invariant Parse(summaryFields, raised) == AddFields(start, fs[..j])
          {
            assert fs[..j + 1][..j] == fs[..j];
            match ReadField(fs[j]) {
              case Raises =>
                raised := true;
              case Skipped =>
              case Pair(key, text) =>
                summaryFields := PyDict.Put(summaryFields, key, text);
            }
            j := j + 1;
          }
          if raised {
            AddFieldsRaisedPrefix(start, fs, j);
          } else {
            assert fs[..j] == fs;
          }
      }
      i := i + 1;
    }
    if raised {
      AddDocumentsRaisedPrefix(docs, i);
    } else {
      assert docs[..i] == docs;
    }
  }

  /**
   * A later field with the same label overwrites an earlier one: if no
   * field raises, a label ends up with the value of its last pair.
   */
  lemma {:induction false} LastPairWins(start: PyDict.Dict, fs: seq<SummaryField>, i: nat)
    requires i < |fs| && ReadField(fs[i]).Pair?
    requires forall j :: 0 <= j < |fs| ==> !ReadField(fs[j]).Raises?
    requires forall j :: i < j < |fs| ==> !(ReadField(fs[j]).Pair? && ReadField(fs[j]).key == ReadField(fs[i]).key)
    ensures PyDict.Get(AddFields(start, fs).fields, ReadField(fs[i]).key) == Some(ReadField(fs[i]).text)
    decreases |fs|
  {
    var prev := fs[..|fs| - 1];
    var p := AddFields(start, prev);
    assert forall j :: 0 <= j < |prev| ==> prev[j] == fs[j];
    var l := ReadField(fs[i]).key;
    if i == |fs| - 1 {
      PyDict.PutGet(p.fields, l, ReadField(fs[i]).text, l);
    } else {
      LastPairWins(start, prev, i);
      match ReadField(fs[|fs| - 1]) {
        case Skipped =>
        case Pair(l', v') =>
          PyDict.PutGet(p.fields, l', v', l);
      }
    }
  }

  /** Only pairs read from the fields get into the dict: nothing else is added. */
  lemma {:induction false} AddFieldsSources(start: PyDict.Dict, fs: seq<SummaryField>)
    ensures forall e :: e in AddFields(start, fs).fields ==>
      e in start || exists j :: 0 <= j < |fs| && ReadField(fs[j]) == Pair(e.0, e.1)
    decreases |fs|
  {
    if |fs| > 0 {
      var prev := fs[..|fs| - 1];
      var p := AddFields(start, prev);
      AddFieldsSources(start, prev);
      assert forall j :: 0 <= j < |prev| ==> prev[j] == fs[j];
      if !p.raised {
        match ReadField(fs[|fs| - 1]) {
          case Raises =>
          case Skipped =>
          case Pair(l, v) =>
            PyDict.PutEntries(p.fields, l, v);
        }
      }
    }
  }

  // ------------------------------------------------ the assignments in order

  /**
   * The assignments `summary_fields[label] = value` one document's loop
   * performs, in order, and whether a field raised and stopped it.
   */
  function FieldPairs(fs: seq<SummaryField>): (r: (seq<(string, string)>, bool))
    ensures r.1 <==> exists j :: 0 <= j < |fs| && ReadField(fs[j]).Raises?
    ensures forall e :: e in r.0 ==> exists j :: 0 <= j < |fs| && ReadField(fs[j]) == Pair(e.0, e.1)
    ensures !r.1 ==> forall j :: 0 <= j < |fs| && ReadField(fs[j]).Pair? ==>
      (ReadField(fs[j]).key, ReadField(fs[j]).text) in r.0
    decreases |fs|
  {
    if |fs| == 0 then ([], false)
    else
      var prev := fs[..|fs| - 1];
      var p := FieldPairs(prev);
      assert forall j :: 0 <= j < |prev| ==> prev[j] == fs[j];
      if p.1 then p
      else match ReadField(fs[|fs| - 1])
        case Raises => (p.0, true)
        case Skipped => p
        case Pair(l, v) => (p.0 + [(l, v)], false)
  }

  /** The assignments of every document's loop, in order, up to the first exception. */
  function DocumentPairs(docs: seq<ExpenseDocument>): (r: (seq<(string, string)>, bool))
    decreases |docs|
  {
    if |docs| == 0 then ([], false)
    else
      var p := DocumentPairs(docs[..|docs| - 1]);
      if p.1 then p
      else match docs[|docs| - 1].summaryFields
        case Null => (p.0, true)
        case Absent => p
        case Present(fs) =>
          var q := FieldPairs(fs);
          (p.0 + q.0, q.1)
  }

  /** Performing the assignments one after another on the dict `start`. */
  function Assign(start: PyDict.Dict, ps: seq<(string, string)>): PyDict.Dict
    decreases |ps|
  {
    if |ps| == 0 then start
    else PyDict.Put(Assign(start, ps[..|ps| - 1]), ps[|ps| - 1].0, ps[|ps| - 1].1)
  }

  /** The last assignment is performed last. */
  lemma AssignSnoc(start: PyDict.Dict, ps: seq<(string, string)>)
    requires |ps| > 0
    ensures Assign(start, ps) == PyDict.Put(Assign(start, ps[..|ps| - 1]), ps[|ps| - 1].0, ps[|ps| - 1].1)
  {
  }

  /** Assigning `a` and then `b` is assigning `a + b`. */
  lemma {:induction false} AssignAppend(start: PyDict.Dict, a: seq<(string, string)>, b: seq<(string, string)>)
    ensures Assign(start, a + b) == Assign(Assign(start, a), b)
    decreases |b|
  {
    if |b| == 0 {
      assert a + b == a;
    } else {
      var ab, init, last := a + b, b[..|b| - 1], b[|b| - 1];
      assert ab[..|ab| - 1] == a + init;
      assert ab[|ab| - 1] == last;
      calc {
        Assign(start, ab);
        { AssignSnoc(start, ab); }
        PyDict.Put(Assign(start, a + init), last.0, last.1);
        { AssignAppend(start, a, init); }
        PyDict.Put(Assign(Assign(start, a), init), last.0, last.1);
        { AssignSnoc(Assign(start, a), b); }
        Assign(Assign(start, a), b);
      }
    }
  }

  /** One document's loop is its assignments, performed on the dict it starts from. */
  lemma {:induction false} AddFieldsAssigns(start: PyDict.Dict, fs: seq<SummaryField>)
    ensures AddFields(start, fs) == Parse(Assign(start, FieldPairs(fs).0), FieldPairs(fs).1)
    decreases |fs|
  {
    if |fs| > 0 {
      var prev := fs[..|fs| - 1];
      AddFieldsAssigns(start, prev);
      var ps := FieldPairs(prev).0;
      match ReadField(fs[|fs| - 1]) {
        case Raises =>
        case Skipped =>
        case Pair(l, v) =>
          assert (ps + [(l, v)])[..|ps|] == ps;
      }
    }
  }

  /** The loops over all documents are all their assignments, performed on `{}`. */
  lemma {:induction false} AddDocumentsAssigns(docs: seq<ExpenseDocument>)
    ensures AddDocuments(docs) == Parse(Assign([], DocumentPairs(docs).0), DocumentPairs(docs).1)
    decreases |docs|
  {
    if |docs| > 0 {
      var prev := docs[..|docs| - 1];
      AddDocumentsAssigns(prev);
      var p := DocumentPairs(prev);
      if !p.1 {
        match docs[|docs| - 1].summaryFields {
          case Null =>
          case Absent =>
          case Present(fs) =>
            AddFieldsAssigns(Assign([], p.0), fs);
            AssignAppend([], p.0, FieldPairs(fs).0);
        }
      }
    }
  }

  /** No later assignment in `ps` has the label of assignment `i`. */
  predicate LastAssignment(ps: seq<(string, string)>, i: int)
    requires 0 <= i < |ps|
  {
    forall j :: i < j < |ps| ==> ps[j].0 != ps[i].0
  }

  /** A later assignment to a label overwrites an earlier one: a label holds the value of its last assignment. */
  lemma {:induction false} AssignLastWins(start: PyDict.Dict, ps: seq<(string, string)>, i: int)
    requires 0 <= i < |ps| && LastAssignment(ps, i)
    ensures PyDict.Get(Assign(start, ps), ps[i].0) == Some(ps[i].1)
    decreases |ps|
  {
    var prev, last := ps[..|ps| - 1], ps[|ps| - 1];
    AssignSnoc(start, ps);
    PyDict.PutGet(Assign(start, prev), last.0, last.1, ps[i].0);
    if i < |prev| {
      assert prev[i] == ps[i];
      assert LastAssignment(prev, i) by {
        forall j | i < j < |prev|
          ensures prev[j].0 != prev[i].0
        {
          assert prev[j] == ps[j];
        }
      }
      AssignLastWins(start, prev, i);
    }
  }

  /** A label that is never assigned keeps its value in `start`. */
  lemma {:induction false} AssignKeepsOthers(start: PyDict.Dict, ps: seq<(string, string)>, k: string)
    requires forall j :: 0 <= j < |ps| ==> ps[j].0 != k
    ensures PyDict.Get(Assign(start, ps), k) == PyDict.Get(start, k)
    decreases |ps|
  {
    if |ps| > 0 {
      var prev, last := ps[..|ps| - 1], ps[|ps| - 1];
      assert forall j :: 0 <= j < |prev| ==> prev[j] == ps[j];
      AssignKeepsOthers(start, prev, k);
      AssignSnoc(start, ps);
      PyDict.PutGet(Assign(start, prev), last.0, last.1, k);
    }
  }

  /** Only assigned pairs get into the dict: every entry is from `start` or an assignment. */
  lemma {:induction false} AssignSources(start: PyDict.Dict, ps: seq<(string, string)>)
    ensures forall e :: e in Assign(start, ps) ==> e in start || e in ps
    decreases |ps|
  {
    if |ps| > 0 {
      var prev := ps[..|ps| - 1];
      AssignSources(start, prev);
      PyDict.PutEntries(Assign(start, prev), ps[|ps| - 1].0, ps[|ps| - 1].1);
    }
  }

  /**
   * What `parse_textract_expense` returns, over all documents: a label
   * assigned before the first exception holds the value of its last
   * assignment, and every entry is one of those assignments.
   */
  lemma ParsedFieldsContent(resp: ExpenseResponse)
    ensures var ps := if resp.expenseDocuments.Present? then DocumentPairs(resp.expenseDocuments.value).0 else [];
      && (forall i :: 0 <= i < |ps| && LastAssignment(ps, i) ==> PyDict.Get(ParsedFields(resp), ps[i].0) == Some(ps[i].1))
      && (forall e :: e in ParsedFields(resp) ==> e in ps)
  {
    if resp.expenseDocuments.Present? {
      var docs := resp.expenseDocuments.value;
      AddDocumentsAssigns(docs);
      var ps := DocumentPairs(docs).0;
      forall i | 0 <= i < |ps| && LastAssignment(ps, i)
        ensures PyDict.Get(ParsedFields(resp), ps[i].0) == Some(ps[i].1)
      {
        AssignLastWins([], ps, i);
      }
      AssignSources([], ps);
    }
  }

  /** The last index of `c` in `s`, or -1: Python's `s.rfind(c)`. */
  function LastIndex(s: string, c: char): (i: int)
    ensures -1 <= i < |s|
    ensures i >= 0 ==> s[i] == c
    ensures forall k :: i < k < |s| ==> s[k] != c
  {
    if |s| == 0 then -1
    else if s[|s| - 1] == c then |s| - 1
    else LastIndex(s[..|s| - 1], c)
  }

  /** The only position that holds `c` with no `c` after it is `LastIndex`. */
  lemma LastIndexUnique(s: string, c: char, i: int)
    requires 0 <= i < |s| && s[i] == c
    requires forall k :: i < k < |s| ==> s[k] != c
    ensures LastIndex(s, c) == i
  {
  }

  /** pathlib's `.name`: what follows the last `/`. */
  function BaseName(path: string): (name: string)
    ensures '/' !in name
    ensures '/' !in path ==> name == path
    ensures |name| <= |path| && name == path[|path| - |name|..]
    ensures '/' in path ==> |name| < |path| && path[|path| - |name| - 1] == '/'
  {
    path[LastIndex(path, '/') + 1..]
  }

  /** Where pathlib's suffix starts: at the last dot, unless it is the first or the last character. */
  function SuffixStart(name: string): (i: nat)
    ensures i <= |name|
    ensures i < |name| ==> 0 < i < |name| - 1 && name[i] == '.'
    ensures forall k :: i < k < |name| ==> name[k] != '.'
    ensures i < |name| <==> 0 < LastIndex(name, '.') < |name| - 1
    ensures i < |name| ==> i == LastIndex(name, '.')
  {
    var i := LastIndex(name, '.');
    if 0 < i < |name| - 1 then i else |name|
  }

  /** pathlib's `.stem`. */
  function Stem(name: string): string {
    name[..SuffixStart(name)]
  }

  /** pathlib's `.suffix`, dot included; `""` when there is none. */
  function Suffix(name: string): (s: string)
    ensures s == [] || (|s| >= 2 && s[0] == '.')
    ensures forall k :: 0 < k < |s| ==> s[k] != '.'
    ensures Stem(name) + s == name
    ensures 0 < LastIndex(name, '.') < |name| - 1 ==> s == name[LastIndex(name, '.')..]
    ensures !(0 < LastIndex(name, '.') < |name| - 1) ==> s == []
  {
    name[SuffixStart(name)..]
  }

  /** `f"{base_name}({counter}){extension}"`. */
  function Candidate(stem: string, n: nat, suffix: string): string {
    stem + "(" + Decimal(n) + ")" + suffix
  }

  /** Different counters give different candidates. */
  lemma CandidateInjective(stem: string, suffix: string, a: nat, b: nat)
    ensures Candidate(stem, a, suffix) == Candidate(stem, b, suffix) ==> a == b
  {
    var x, y := Candidate(stem, a, suffix), Candidate(stem, b, suffix);
    if x == y {
      assert |Decimal(a)| == |Decimal(b)|;
      assert Decimal(a) == x[|stem| + 1..|stem| + 1 + |Decimal(a)|];
      assert Decimal(b) == y[|stem| + 1..|stem| + 1 + |Decimal(b)|];
      DecimalInjective(a, b);
    }
  }

  /** The scan `receipt_username = :username AND receipt_filename = :filename` finds an item. */
  predicate Taken(items: seq<ReceiptItem>, username: string, filename: string) {
    exists i :: 0 <= i < |items| && items[i].username == username && items[i].filename == Some(filename)
  }

  /** Every file name the user has stored. */
  function TakenNames(items: seq<ReceiptItem>, username: string): (names: set<string>)
    ensures forall x :: x in names <==> Taken(items, username, x)
  {
    set i | 0 <= i < |items| && items[i].username == username && items[i].filename.Some? :: items[i].filename.value
  }

  /** The candidates tried before `counter`. */
  function Tried(stem: string, suffix: string, counter: nat): (s: set<string>)
    ensures forall n :: 1 <= n < counter ==> Candidate(stem, n, suffix) in s
  {
    set n: nat | 1 <= n < counter :: Candidate(stem, n, suffix)
  }

  /** Each counter adds a candidate not tried before. */
  lemma TriedStep(stem: string, suffix: string, counter: nat)
    requires counter >= 1
    ensures Candidate(stem, counter, suffix) !in Tried(stem, suffix, counter)
    ensures Tried(stem, suffix, counter + 1) == Tried(stem, suffix, counter) + {Candidate(stem, counter, suffix)}
  {
    forall n: nat | 1 <= n < counter ensures Candidate(stem, n, suffix) != Candidate(stem, counter, suffix) {
      CandidateInjective(stem, suffix, n, counter);
    }
  }

  /**
   * `get_unique_filename(username, original_filename)`: the original name
   * if the user has no file by that name, otherwise `stem(n)suffix` for the
   * smallest counter `n >= 1` that is free.
   */
  method UniqueFilename(items: seq<ReceiptItem>, username: string, original: string) returns (name: string)
    ensures !Taken(items, username, name)
    ensures !Taken(items, username, original) ==> name == original
    ensures Taken(items, username, original) ==>
      exists n: nat :: 1 <= n && name == Candidate(Stem(BaseName(original)), n, Suffix(BaseName(original)))
        && forall m :: 1 <= m < n ==> Taken(items, username, Candidate(Stem(BaseName(original)), m, Suffix(BaseName(original))))
  {
    if !Taken(items, username, original) {
      return original;
    }
    name := FirstFreeCandidate(items, username, Stem(BaseName(original)), Suffix(BaseName(original)));
  }

  /**
   * The `while True` loop of `get_unique_filename`: tries `stem(1)suffix`,
   * `stem(2)suffix`, ... and returns the first one the user has not taken.
   * It ends because the user holds finitely many names and the candidates
   * are distinct.
   */
  method FirstFreeCandidate(items: seq<ReceiptItem>, username: string, stem: string, suffix: string) returns (name: string)
    ensures !Taken(items, username, name)
    ensures exists n: nat ::
      1 <= n && name == Candidate(stem, n, suffix)
      && forall m :: 1 <= m < n ==> Taken(items, username, Candidate(stem, m, suffix))
  {
    var counter: nat := 1;
    ghost var remaining := TakenNames(items, username) - Tried(stem, suffix, counter);
    while true
      invariant counter >= 1
      invariant forall m :: 1 <= m < counter ==> Taken(items, username, Candidate(stem, m, suffix))
      invariant remaining == TakenNames(items, username) - Tried(stem, suffix, counter)
      decreases remaining
    {
      var newFilename := Candidate(stem, counter, suffix);
      if !Taken(items, username, newFilename) {
        return newFilename;
      }
      TriedStep(stem, suffix, counter);
      remaining := remaining - {newFilename};
      counter := counter + 1;
    }
  }

  /**
   * A candidate built from a name with a suffix keeps that suffix and only
   * the counter is added to its stem.
   */
  lemma CandidateKeepsSuffix(name: string, n: nat)
    requires '/' !in name && Suffix(name) != ""
    ensures var c := Candidate(Stem(name), n, Suffix(name));
      BaseName(c) == c && Suffix(c) == Suffix(name) && Stem(c) == Stem(name) + "(" + Decimal(n) + ")"
  {
    var stem, suffix := Stem(name), Suffix(name);
    var mid := "(" + Decimal(n) + ")";
    var c := Candidate(stem, n, suffix);
    PartsHaveNoSlash(name);
    CandidateHasNoSlash(stem, n, suffix);
    assert c == (stem + mid) + suffix;
    var i := |stem + mid|;
    ConcatSplits(stem + mid, suffix);
    assert c[i] == '.' && forall k :: i < k < |c| ==> c[k] == suffix[k - i];
    LastIndexUnique(c, '.', i);
  }

  /** The stem and the suffix of a name without `/` have none either. */
  lemma PartsHaveNoSlash(name: string)
    requires '/' !in name
    ensures '/' !in Stem(name) && '/' !in Suffix(name)
  {
    var stem, suffix := Stem(name), Suffix(name);
    assert stem + suffix == name;
    assert forall k :: 0 <= k < |stem| ==> stem[k] == name[k];
    assert forall k :: 0 <= k < |suffix| ==> suffix[k] == name[|stem| + k];
  }

  /** A candidate has a `/` only where its stem or suffix does: the counter is digits. */
  lemma CandidateHasNoSlash(stem: string, n: nat, suffix: string)
    requires '/' !in stem && '/' !in suffix
    ensures '/' !in Candidate(stem, n, suffix)
  {
    var mid := "(" + Decimal(n) + ")";
    assert '/' !in mid;
    assert Candidate(stem, n, suffix) == stem + mid + suffix;
  }

  /** The two halves of a concatenation are its prefix and its remainder. */
  lemma ConcatSplits(a: string, b: string)
    ensures (a + b)[..|a|] == a && (a + b)[|a|..] == b
  {
  }

  /**
   * A name whose only dot is its last character has no suffix, but its
   * candidate does: `a.` becomes `a.(1)`, whose suffix is `.(1)`.
   */
  lemma TrailingDotCandidate()
    ensures Suffix("a.") == "" && Candidate(Stem("a."), 1, Suffix("a.")) == "a.(1)"
    ensures Suffix("a.(1)") == ".(1)"
  {
    assert LastIndex("a.", '.') == 1;
    assert Decimal(1) == "1";
    LastIndexUnique("a.(1)", '.', 1);
  }

  /**
   * A directory part in the uploaded name is dropped from the candidates but
   * not from the name itself: a taken `scans/a.png` yields `a(1).png`.
   */
  lemma DirectoryDroppedFromCandidate()
    ensures BaseName("scans/a.png") == "a.png"
    ensures Candidate(Stem(BaseName("scans/a.png")), 1, Suffix(BaseName("scans/a.png"))) == "a(1).png"
  {
    BaseNameOfScan();
    CandidateOfPng();
  }

  /** The directory `scans/` is cut off. */
  lemma BaseNameOfScan()
    ensures BaseName("scans/a.png") == "a.png"
  {
    LastIndexUnique("scans/a.png", '/', 5);
    assert "scans/a.png"[6..] == "a.png";
  }

  /** The first candidate for `a.png`. */
  lemma CandidateOfPng()
    ensures Candidate(Stem("a.png"), 1, Suffix("a.png")) == "a(1).png"
  {
    LastIndexUnique("a.png", '.', 1);
    assert Stem("a.png") == "a" && Suffix("a.png") == ".png";
    assert Decimal(1) == "1";
  }
}

=== FILE: wrappers.dfy ===
/** Failure-compatible helper datatypes shared by every module of the model. */
module Wrappers {

  /** An optional value: JavaScript's `null`/`undefined` and Python's `None` become `None`. */
  datatype Option<+T> = None | Some(value: T) {
    function GetOr(default: T): T {
      match this
      case Some(v) => v
      case None => default
    }
  }

  /**
   * Truthiness of a possibly missing string, the same in JavaScript and
   * Python: a missing value and `""` are falsy, every other string is truthy.
   */
  predicate Truthy(s: Option<string>) {
    s.Some? && s.value != ""
  }

  /** The outcome of an operation that either produces a value or fails with an error. */
  datatype Result<+T, +E> = Ok(value: T) | Err(error: E)
}
